=== FILE: README.md ===
# incident-triage-toolkit, modelled in Dafny

This project models the core of the incident triage toolkit. The toolkit turns a
mixed log file into a report with four stages:

- **Line parsing.** Each input line is either a JSON object or a
  `<timestamp> [LEVEL] component: message` text line. It becomes a `LogEvent`
  or is dropped for a named reason.
- **Parse summary.** Line, parsed and dropped counts, the drop ratio, and the
  drop reasons in name order.
- **Strict-mode gate.** It rejects a parse that yielded nothing or dropped too
  much.
- **Markdown reports.** The incident timeline (chronological events, error
  signatures grouped and ranked, suspected components) and the runbook
  skeleton.

The modules follow the program's files:

| module | models |
|---|---|
| `Text` | Python string primitives (`strip`, `lower`, `in`, `str(int)`, `join`), restricted to ASCII |
| `Timestamps` | `parse_timestamp` and `datetime.isoformat` |
| `Correlation` | `extract_correlation_id` |
| `JsonValues` | decoded JSON values and Python truthiness |
| `Events` | `LogEvent` and `to_dict` |
| `Patterns` | the three regular expressions of the text-line parser, as hand-written scanners proved equal to a declarative description of the match |
| `LineParser` | `_get_first`, the JSON and text parsers, `parse_line_with_reason` |
| `Summary` | `_build_parse_summary` and `parse_lines_with_summary` |
| `Ordering` | stable sort, `min`/`max` by key, grouping and `Counter.most_common` ranking |
| `Signatures` | `is_error`, `_normalize_message` and `_escape_markdown` |
| `Timeline` | `build_timeline` |
| `Runbook` | `build_runbook` |
| `Gate` | `_drop_ratio` and `_strict_parse_error` from the command-line front end |

Timestamps carry their wall-clock fields and their UTC offset in minutes.
Ordering uses `Instant`, the UTC microsecond count, as Python compares aware
datetimes.

Integers are unbounded, as in Python. The drop ratio is an exact `real`.

## Model

| member | source | states |
|---|---|---|
| Timestamps.DaysInMonth | triage_toolkit/utils.py:27-34 | the day bound strptime enforces lies between 28 and 31 |
| Timestamps.ParseTimestamp | triage_toolkit/utils.py:18-41 | an accepted value is a valid date and time whose fields are the decimal values of the digits at the fixed positions of the stripped text; blank input is rejected |
| Timestamps.IsoFormatRoundTrip | triage_toolkit/utils.py:18-41 | parsing what `isoformat()` writes gives back the same timestamp |
| Timestamps.RenderParses | triage_toolkit/utils.py:18-41 | a value written in the grammar (`T` or space separator; no fraction or a six-digit one; `Z`, `±HH:MM` or no zone) parses to its wall clock with the zone's offset when the date and time are in range, and is rejected otherwise |
| Timestamps.LongFractionTruncated | triage_toolkit/utils.py:22-41 | digits past the sixth are ignored: the text with them parses exactly as the text cut to six digits, to that wall clock with the zone's offset when it is in range |
| Timestamps.FractionDigitsParse | triage_toolkit/utils.py:18-41 | a fraction of any number of digits is read from its first six, padded on the right (`.5` is 500000 µs, `.123` is 123000 µs, `.123456789` is 123456 µs); the value parses to that wall clock with the zone's offset when it is in range, and is rejected otherwise |
| Timestamps.ZuluKeepsWallClock | triage_toolkit/utils.py:22-26 | a trailing `Z` means UTC: the wall clock is kept with offset 0 |
| Timestamps.NaiveAssumedUtc | triage_toolkit/utils.py:27-34 | a timestamp without a zone is taken as UTC |
| Timestamps.OffsetShiftsInstant | triage_toolkit/utils.py:35-41 | an explicit `±HH:MM` offset is kept and moves the instant by that many minutes |
| Timestamps.PaddingIgnored | triage_toolkit/utils.py:19 | whitespace around the value does not change the result |
| Timestamps.MonthOutOfRangeRejected | triage_toolkit/utils.py:23-38 | every well-shaped value whose month lies outside 1..12 is rejected, whatever its other fields, separator and zone |
| Timestamps.NonTimestampRejected | triage_toolkit/utils.py:35-38 | every value whose stripped text does not start with the `YYYY-MM-DD?HH:MM:SS` head is rejected |
| Correlation.MatchAt | triage_toolkit/utils.py:6 | the pattern matches at an index exactly when a marker stands there followed by a token character; the match spans the longest token run |
| Correlation.FirstMatch | triage_toolkit/utils.py:45 | the search finds nothing exactly when no index matches; otherwise it returns the maximal token of the leftmost match |
| Correlation.ExtractCorrelationId | triage_toolkit/utils.py:44-48 | `None` exactly when the message has no match; otherwise the group of the leftmost match |
| Correlation.UpperCaseMarkerIgnored | triage_toolkit/utils.py:6 | the markers are case-sensitive: no upper-cased message yields a correlation id |
| Events.ToDictTimestampReadsBack | triage_toolkit/models.py:19 | the serialised timestamp parses back to the event's timestamp |
| Events.ToDictOmitsRaw | triage_toolkit/models.py:17-24 | no key of the projection is `raw` |
| Events.ToDictDeterminesEvent | triage_toolkit/models.py:17-24 | two events serialise identically exactly when they agree on every field but `raw`, a missing id and an explicit null id counting as the same; when neither id is an explicit null, exactly when they differ at most in `raw` |
| Events.ToDictIgnoresRaw | triage_toolkit/models.py:15 | events that differ only in `raw` serialise identically |
| JsonValues.Mantissa | triage_toolkit/parser.py:32 | the longest prefix of a number's text before its exponent marker `e`/`E` (the whole text when there is none), used to decide whether the number is zero, hence falsy |
| LineParser.GetFirst | triage_toolkit/parser.py:30-34 | nothing exactly when no key holds a value other than null or `""`; otherwise `str()` of the first such key's value |
| LineParser.FieldOr | triage_toolkit/parser.py:52-54 | the default stands in when no key is present, and any other result is the first present value |
| LineParser.CorrelationField | triage_toolkit/parser.py:55-57 | a truthy `correlation_id` wins, else a truthy `cid`; if both are falsy the second value is kept unless it is null, and null falls back to extraction from the message |
| LineParser.ParseJsonLine | triage_toolkit/parser.py:37-69 | the reasons in priority order (invalid JSON, not an object, missing timestamp, invalid timestamp), each as an if-and-only-if; the parsed event's fields come from the key lists with their defaults, and `raw` is the right-stripped line |
| LineParser.SplitLevel | triage_toolkit/parser.py:86-91 | when the level pattern matches, its token (upper-case, so `.upper()` keeps it) and its rest group stripped; otherwise `INFO` and the text unchanged |
| LineParser.SplitComponent | triage_toolkit/parser.py:93-98 | when the component pattern matches, its component group and its message group stripped; otherwise `unknown` and the text unchanged |
| LineParser.TextFields | triage_toolkit/parser.py:86-98 | on the stripped rest: the level is the level match's token or `INFO`; the component is the component match's group (on what follows the level) or `unknown`; the message is the stripped message group or, without a component match, the text after the level |
| LineParser.ParseTextLine | triage_toolkit/parser.py:77-112 | unrecognized text exactly when the line pattern does not match, and invalid timestamp exactly when it matches but its timestamp does not parse; otherwise the event built from the match, with the correlation id extracted from the message |
| LineParser.OffsetTextLineUnrecognized | triage_toolkit/parser.py:17 | a text line whose timestamp carries a `+HH:MM`/`-HH:MM` offset is dropped as unrecognized text |
| LineParser.JsonAttemptShape | triage_toolkit/parser.py:37-69 | the JSON parser returns an event or a reason, never both and never neither; `raw` is the right-stripped line |
| LineParser.TextAttemptShape | triage_toolkit/parser.py:77-112 | the same for the text parser |
| LineParser.Route | triage_toolkit/parser.py:122-132 | an empty stripped line is blank; a line starting with `{` gets the JSON parser's outcome, any other line the text parser's, with a missing reason read as `unknown`; the result is never `unknown`, and a parsed event's `raw` is the right-stripped line |
| LineParser.RouteReasons | triage_toolkit/parser.py:125-128 | the JSON-only reasons come from lines starting with `{`, unrecognized text from the others |
| LineParser.ParseLine | triage_toolkit/parser.py:120-132 | blank line exactly when the line is all whitespace; otherwise the left-stripped line goes to the JSON parser when it starts with `{` and to the text parser when not; never `unknown`; a parsed event's `raw` is the fully stripped line |
| LineParser.ReasonsFollowRouting | triage_toolkit/parser.py:125-128 | the JSON-only reasons arise only for lines starting with `{`, and unrecognized text only for lines that do not |
| LineParser.LeadingWhitespaceIgnored | triage_toolkit/parser.py:121 | leading whitespace does not change the outcome |
| Patterns.MatchTail | triage_toolkit/parser.py:17-19 | `\s+(.*)$` / `\s*(.*)$`: nothing exactly when no split exists; otherwise the split a backtracking matcher picks |
| Patterns.StampEnd | triage_toolkit/parser.py:17 | the only end the timestamp group can take before whitespace |
| Patterns.MatchTextLine | triage_toolkit/parser.py:17 | no match exactly when no split of the line fits the pattern; otherwise the timestamp and rest groups the matcher picks |
| Patterns.OffsetNeverMatches | triage_toolkit/parser.py:17 | a timestamp followed by an offset sign never matches |
| Patterns.LevelEnd | triage_toolkit/parser.py:18 | the only level token that can be followed by whitespace |
| Patterns.MatchLevel | triage_toolkit/parser.py:18 | no match exactly when no split fits the level pattern; otherwise the bracketed or plain token and the rest |
| Patterns.ComponentEnd | triage_toolkit/parser.py:19 | the only colon that can end the component group |
| Patterns.MatchComponent | triage_toolkit/parser.py:19 | no match exactly when no split fits the component pattern; otherwise the component and the message |
| Patterns.MatchComponentHead | triage_toolkit/parser.py:19 | a matched component is a non-empty prefix of the line made of component characters |
| Summary.ReasonsByNameComplete | triage_toolkit/parser.py:21-27 | the ordered reason list holds every drop reason |
| Summary.ReasonsByNameDistinct | triage_toolkit/parser.py:21-27 | it holds each drop reason once |
| Summary.ReasonsByNameAscending | triage_toolkit/parser.py:154 | the reason names are in ascending string order |
| Summary.KeysAscending | triage_toolkit/parser.py:154 | picking the counted reasons out of that order keeps names ascending |
| Summary.SortedCounts | triage_toolkit/parser.py:153-155 | the reason counts strictly ascending by name; each counted reason appears with its count, and nothing else appears |
| Summary.BuildParseSummary | triage_toolkit/parser.py:140-157 | parsed plus dropped is the total; the ratio is 0 for no lines and otherwise dropped over total; the reasons are the sorted counts |
| Summary.DropCounts | triage_toolkit/parser.py:162-171 | a reason is counted exactly when some line is dropped for it, and its count is the number of such lines |
| Summary.EveryLineAccounted | triage_toolkit/parser.py:165-171 | parsed events plus the drops over all reasons account for every line |
| Summary.TalliesOfSpecialReasons | triage_toolkit/parser.py:121-132 | no line is dropped as `unknown`; the blank-line count is the number of all-whitespace lines |
| Summary.ParsedEventsBound | triage_toolkit/parser.py:165-169 | no more events than lines |
| Summary.ParseLinesWithSummary | triage_toolkit/parser.py:160-178 | the events are the parsed lines in input order; the summary is built from the line count, the event count and the drop counts, and its reason counts add up to its dropped lines |
| Summary.DroppedReasonsAddUp | triage_toolkit/parser.py:147-155 | the counts of `dropped_reasons` sum to `dropped_lines` |
| Ordering.SortBy | triage_toolkit/timeline.py:34 | `sorted` by an integer key returns a sorted permutation |
| Ordering.SortByIsStable | triage_toolkit/timeline.py:34 | the sort keeps the input order among equal keys |
| Ordering.InsertSorted | triage_toolkit/timeline.py:34 | one insertion step keeps a sorted list sorted |
| Ordering.MinIndex | triage_toolkit/timeline.py:67 | `min(…, key=…)` picks the first element with the least key |
| Ordering.MaxIndex | triage_toolkit/timeline.py:68 | `max(…, key=…)` picks the first element with the greatest key |
| Ordering.GroupBy | triage_toolkit/timeline.py:63-65 | grouping into a dict of lists gives one bucket per key |
| Ordering.GroupByKeys | triage_toolkit/timeline.py:63-65 | the buckets appear in first-occurrence order of their keys |
| Ordering.GroupByItems | triage_toolkit/timeline.py:63-65 | each bucket holds exactly the items with its key, in input order |
| Ordering.GroupByFilesEverything | triage_toolkit/timeline.py:63-65 | the buckets together hold every item once |
| Ordering.Rank | triage_toolkit/timeline.py:66 | sorting buckets by size, descending, gives a permutation with non-increasing sizes |
| Ordering.RankIsStable | triage_toolkit/timeline.py:66 | buckets of equal size keep their first-occurrence order, as `reverse=True` and `most_common` do |
| Ordering.Top | triage_toolkit/timeline.py:78 | `most_common(n)` is the first `n` ranked buckets |
| Ordering.TopDominates | triage_toolkit/timeline.py:78 | no bucket left out of the top `n` is larger than one kept |
| Ordering.RankedCovers | triage_toolkit/timeline.py:63-66 | every item's key has a ranked bucket |
| Ordering.RankedTotal | triage_toolkit/timeline.py:63-66 | the ranked buckets together hold every item |
| Signatures.IsError | triage_toolkit/timeline.py:13-16 | an event is an error exactly when its upper-cased level is ERROR, CRITICAL or FATAL, or its lower-cased message contains `error` |
| Signatures.IsErrorIgnoresCase | triage_toolkit/timeline.py:13-16 | the case of the level and of the message does not matter |
| Signatures.ErrorWordMakesError | triage_toolkit/timeline.py:16 | the word `error` anywhere in the message, in any case, makes an error |
| Signatures.ScrubIds | triage_toolkit/timeline.py:21 | text without a correlation marker passes unchanged |
| Signatures.ScrubIdsCopies | triage_toolkit/timeline.py:21 | text before the first match is copied unchanged |
| Signatures.ScrubIdsAtFirstMatch | triage_toolkit/timeline.py:21 | the leftmost match, marker and whole token, becomes `cid=<id>`, and the scan resumes after the token |
| Signatures.ScrubIdsLeavesNoMatch | triage_toolkit/timeline.py:21 | the substituted text contains no match of the pattern anywhere |
| Signatures.ScrubbedHasNoId | triage_toolkit/timeline.py:21 | no correlation id can be extracted from the substituted text |
| Signatures.CollapseDigits | triage_toolkit/timeline.py:22 | no digit survives, and text without digits passes unchanged |
| Signatures.CollapseDigitsRun | triage_toolkit/timeline.py:22 | each maximal run of digits becomes exactly one `#`, the text around it being collapsed on its own |
| Signatures.NormalizeShape | triage_toolkit/timeline.py:19-23 | a signature has no upper-case letter and no digit |
| Signatures.NormalizeTrimmed | triage_toolkit/timeline.py:19-23 | a signature neither starts nor ends with whitespace |
| Signatures.NormalizeIgnoresCase | triage_toolkit/timeline.py:20 | messages that differ only in case share a signature |
| Signatures.NormalizeIgnoresPadding | triage_toolkit/timeline.py:20 | surrounding whitespace does not change the signature |
| Signatures.NormalizeIgnoresDigits | triage_toolkit/timeline.py:19-23 | messages that differ only in which digits they hold share a signature |
| Signatures.Escape | triage_toolkit/timeline.py:26-27 | every `\|` in the output is preceded by a backslash, and no newline is introduced |
| Signatures.EscapeRoundTrip | triage_toolkit/timeline.py:26-27 | un-escaping the output gives back the input |
| Signatures.FlattenLines | triage_toolkit/timeline.py:54 | newlines become spaces and every other character stays in place |
| Timeline.Chronological | triage_toolkit/timeline.py:34 | the events as a permutation in non-decreasing instant order |
| Timeline.ChronologicalIsStable | triage_toolkit/timeline.py:34 | events at the same instant keep their input order |
| Timeline.T0Earliest | triage_toolkit/timeline.py:35 | T0 is no later than any event |
| Timeline.ErrorsOf | triage_toolkit/timeline.py:58 | each error event as often as it occurs in the ordered list, and no other event |
| Timeline.ErrorsOfPiecewise | triage_toolkit/timeline.py:58 | filtering a concatenation filters each part in turn, and one event is kept exactly when it is an error, so the errors keep their order |
| Timeline.Summarize | triage_toolkit/timeline.py:66-71 | a group line's signature and count come from its bucket, and first is not after last |
| Timeline.GroupTimes | triage_toolkit/timeline.py:67-68 | first and last are the timestamps of the first earliest and the first latest event of the group |
| Timeline.ErrorGroupCounts | triage_toolkit/timeline.py:63-70 | each group's count is the number of errors with that signature, and at least one |
| Timeline.ErrorGroupsRanked | triage_toolkit/timeline.py:66 | groups come in non-increasing count order, each signature once |
| Timeline.ErrorGroupsTotal | triage_toolkit/timeline.py:63-66 | the group counts add up to the number of errors |
| Timeline.ErrorGroupsCover | triage_toolkit/timeline.py:64-65 | every error's signature has a group |
| Timeline.ErrorLines | triage_toolkit/timeline.py:60-71 | the placeholder line exactly when there are no errors; otherwise line `i` renders the `i`-th ranked group |
| Timeline.Suspects | triage_toolkit/timeline.py:77-79 | at most five components, taken from the head of the component ranking with their error counts |
| Timeline.SuspectCounts | triage_toolkit/timeline.py:77 | each suspect's count is its number of errors, and at least one |
| Timeline.SuspectsRanked | triage_toolkit/timeline.py:78 | suspects come in non-increasing count order, each component once |
| Timeline.SuspectsDominate | triage_toolkit/timeline.py:78 | a component left out implies five suspects, none with fewer errors than it |
| Timeline.SuspectLines | triage_toolkit/timeline.py:74-79 | the placeholder line exactly when there are no errors; otherwise line `i` renders the `i`-th suspect |
| Timeline.MessageCell | triage_toolkit/timeline.py:54 | a message cell has no newline and every pipe in it is escaped |
| Timeline.MessageCellReadsBack | triage_toolkit/timeline.py:54 | un-escaping a cell gives the message with its newlines flattened |
| Timeline.Rows | triage_toolkit/timeline.py:48-56 | one row per event, in the given order |
| Timeline.TimelineLines | triage_toolkit/timeline.py:30-81 | the fixed empty-input document exactly when there are no events |
| Timeline.TimelineLayout | triage_toolkit/timeline.py:37-79 | for events: the header with T0, then the rows, the errors section and the suspects section, in that order |
| Timeline.RowsChronological | triage_toolkit/timeline.py:48-56 | row `i` shows the `i`-th event in time order, so earlier rows are not later in time |
| Timeline.NoErrorsPlaceholders | triage_toolkit/timeline.py:60-61 | with no error events both sections show their placeholders |
| Timeline.BuildTimeline | triage_toolkit/timeline.py:81 | the document is non-empty and ends with a newline |
| Runbook.TopComponents | triage_toolkit/runbook.py:13-14 | at most three components, taken from the head of the component ranking |
| Runbook.TopComponentsAreLeadingSuspects | triage_toolkit/runbook.py:13-14 | they are the first three of the timeline's suspects |
| Runbook.TopComponentsWhenErrors | triage_toolkit/runbook.py:13-14 | there are components exactly when there are errors |
| Runbook.SymptomsWithoutEvents | triage_toolkit/runbook.py:17-24 | with no events the section is the placeholder alone |
| Runbook.SymptomsFirstObserved | triage_toolkit/runbook.py:17-18 | with events the section opens with T0 |
| Runbook.SymptomsErrors | triage_toolkit/runbook.py:19-22 | the error-count and suspected-components lines appear exactly when there are errors |
| Runbook.ErrorCountOrderFree | triage_toolkit/runbook.py:12 | the error count does not depend on the sort |
| Runbook.RunbookLayout | triage_toolkit/runbook.py:16-49 | title, symptoms and the fixed procedure, in that order |
| Runbook.ProcedureHeadings | triage_toolkit/runbook.py:26-49 | the procedure's section headings and their positions |
| Runbook.RunbookHeadings | triage_toolkit/runbook.py:26-49 | the five procedure headings sit at fixed distances from the end |
| Runbook.BuildRunbook | triage_toolkit/runbook.py:51 | the document is non-empty and ends with a newline |
| Gate.DropRatio | triage_toolkit/cli.py:94-99 | 0 for no lines, otherwise dropped over total |
| Gate.StrictParseError | triage_toolkit/cli.py:102-113 | nothing parsed exactly when parsed is 0; a pass exactly when something parsed and the ratio is within the limit; otherwise the ratio and the limit are reported |
| Gate.BuiltSummaryRatio | triage_toolkit/cli.py:94-99 | recomputing the ratio from the summary's counts gives the summary's ratio, which lies in [0, 1] |
| Gate.DefaultLimitRejectsOnlyEmpty | triage_toolkit/cli.py:125-131 | under the default limit 1.0 the gate fails exactly when nothing parsed |
| Gate.BoundaryPasses | triage_toolkit/cli.py:107 | a ratio equal to the limit passes |
| Gate.LimitMonotone | triage_toolkit/cli.py:107 | raising the limit never turns a pass into a failure |
| Gate.ZeroLimitDemandsNoDrops | triage_toolkit/cli.py:107 | limit 0 passes exactly when every line parsed and there was at least one |

Four helpers model source lines but have no row, because their ensures only restate their bodies: `Events.ToDict` (triage_toolkit/models.py:17-24), `JsonValues.DictGet` (triage_toolkit/parser.py:55), `LineParser.Combine` (triage_toolkit/parser.py:130-132) and `Gate.ParseGate` (triage_toolkit/cli.py:135). What they compute is stated by the rows for ToDictDeterminesEvent, GetFirst, Route and StrictParseError.

## Left out

- File and console I/O: `parse_file`, `parse_file_with_summary`, `read_text`, `splitlines` and the typer commands of `cli.py` other than the gate. The model starts from the list of lines.
- `json.loads` is the `loads` field of `JsonValues.Host`, an opaque decoder. `str()` of a decoded value is the `show` field. Which texts decode to what is not modelled.
- Output serialisation: `json.dumps` of events and summaries, and the text of the gate's failure messages. `Gate.StrictParseError` returns which check failed, with the ratio and the limit.
- `round(drop_ratio, 6)` and float arithmetic: the ratio is an exact rational number.
- Gate.StrictParseError: compares exact ratios, not their binary floating-point approximations.
- `datetime.fromisoformat` accepts more than the modelled grammar. The model covers `YYYY-MM-DD(T| )HH:MM:SS[.f+][Z|±HH:MM]`. Other forms (week dates, compact forms, seconds in offsets) are treated as rejected.
- The naive `strptime` formats accept more than the grammar too: their literals match case-insensitively (`2025-01-01t00:00:01z`), numeric fields may have a single digit (`2025-1-1T0:0:1`), and a space in the format matches a run of whitespace. The model rejects these.
- The Python version modelled is 3.11 or later, whose `fromisoformat` reads a fraction of any number of digits, keeping the first six, and a trailing offset such as `…01.5+02:00`. Earlier versions reject some of these values; the naive `strptime` formats take at most six fraction digits, so a longer fraction reaches `fromisoformat`.
- Timestamps.ParseTimestamp: its ensures state validity and the date and time fields. They do not state the fraction and the offset. Those are covered by Timestamps.FractionDigitsParse, Timestamps.RenderParses and Timestamps.OffsetShiftsInstant.
- JsonValues.Truthy: a number is falsy exactly when its mantissa digits are all zero. Float underflow is not modelled: Python decodes `1e-400` to `0.0`, which is falsy, while the model treats it as truthy. A `correlation_id` of `1e-400` therefore falls through to `cid` in Python but is kept by `LineParser.CorrelationField`.
- Non-ASCII text: `strip`, `lower`, `upper`, `\s`, `\d` and `isspace` are modelled on ASCII only.
- Signatures.ScrubIds: its own ensures only cover text with no match. What the substitution does is stated by the lemmas Signatures.ScrubIdsCopies, Signatures.ScrubIdsAtFirstMatch and Signatures.ScrubIdsLeavesNoMatch.
- Signatures.CollapseDigits: its own ensures say only that no digit survives. That each maximal digit run becomes a single `#` is the lemma Signatures.CollapseDigitsRun.
- `Signatures.Normalize` has no ensures of its own. Its properties are the `Normalize…` lemmas.
- `build_timeline`'s empty-input document is the constant `Timeline.EmptyTimeline`. It is split into lines so that `Timeline.TimelineLines` can state the if-and-only-if.
- Runbook.BuildRunbook: stated through its line list (RunbookLayout). The joined string is described only as ending with a newline.
- Timeline.BuildTimeline: stated through its line list (TimelineLayout). The joined string is described only as ending with a newline.

## Where the code and its documentation differ

The model follows the code:

- A text line whose timestamp carries a `+HH:MM` offset does not match the text-line pattern. It is dropped as `unrecognized_text`, not parsed.
- `parse_timestamp` keeps a non-zero UTC offset; it does not convert to UTC. Ordering still uses the instant.
- `extract_correlation_id` is case-sensitive.
- A parsed event's `raw` is the fully stripped line: `lstrip` in `parse_line_with_reason`, then `rstrip` in the sub-parser.
- The timeline's correlation-id pattern is compiled with `IGNORECASE`. It is applied to already lower-cased text, so case-sensitive matching gives the same result.
- Level and component cells of the timeline table are not escaped; only the message is.

=== FILE: correlation.dfy ===
/** `extract_correlation_id` of triage_toolkit/utils.py: a first-match search
    for `(?:correlation_id|cid)=([A-Za-z0-9-]+)`, case-sensitive. */
module Correlation {
  import opened Wrappers
  import opened Text

  const CorrelationMarker: string := "correlation_id="
  const CidMarker: string := "cid="

  predicate IsTokenChar(c: char) {
    'A' <= c <= 'Z' || 'a' <= c <= 'z' || '0' <= c <= '9' || c == '-'
  }

  /** `m` is written in `s` starting at index `i`. */
  predicate MarkerAt(s: string, i: int, m: string) {
    0 <= i && i + |m| <= |s| && s[i..i + |m|] == m
  }

  /** The pattern matches at `i`: a marker, then at least one token character. */
  predicate MatchesAt(s: string, i: int) {
    || (MarkerAt(s, i, CorrelationMarker) && i + 15 < |s| && IsTokenChar(s[i + 15]))
    || (MarkerAt(s, i, CidMarker) && i + 4 < |s| && IsTokenChar(s[i + 4]))
  }

  /** Where the token of a match at `i` starts. */
  function TokenStart(s: string, i: int): int {
    if MarkerAt(s, i, CorrelationMarker) then i + 15 else i + 4
  }

  /** `tok` is the longest run of token characters starting at `j`. */
  predicate MaximalTokenAt(s: string, j: int, tok: string) {
    && tok != []
    && 0 <= j && j + |tok| <= |s|
    && s[j..j + |tok|] == tok
    && (forall k :: 0 <= k < |tok| ==> IsTokenChar(tok[k]))
    && (j + |tok| == |s| || !IsTokenChar(s[j + |tok|]))
  }

  /** The regular expression tried at index `i`: the token span, if it matches.
      The alternation tries `correlation_id` before `cid`; the two cannot both
      start at one index. */
  function MatchAt(s: string, i: nat): (r: Option<(nat, nat)>)
    requires i <= |s|
    ensures r.Some? <==> MatchesAt(s, i)
    ensures r.Some? ==> r.value.0 == TokenStart(s, i) && r.value.0 <= r.value.1 <= |s|
                        && MaximalTokenAt(s, r.value.0, s[r.value.0..r.value.1])
  {
    var j := if StartsWith(s[i..], CorrelationMarker) then i + 15
             else if StartsWith(s[i..], CidMarker) then i + 4
             else i;
    StartsWithMarker(s, i, CorrelationMarker);
    StartsWithMarker(s, i, CidMarker);
    MarkerSecondChar(s, i);
    if j == i then None
    else
      var e := RunEnd(s, j, IsTokenChar);
      if e > j then
        assert s[j..e][..] == s[j..j + |s[j..e]|];
        Some((j, e))
      else None
  }

  lemma StartsWithMarker(s: string, i: nat, m: string)
    requires i <= |s|
    ensures StartsWith(s[i..], m) <==> MarkerAt(s, i, m)
  {
    if i + |m| <= |s| {
      assert s[i..][..|m|] == s[i..i + |m|];
    }
  }

  /** The two markers differ in their second character, so they never start
      at the same index. */
  lemma MarkerSecondChar(s: string, i: nat)
    ensures MarkerAt(s, i, CorrelationMarker) ==> s[i + 1] == 'o'
    ensures MarkerAt(s, i, CidMarker) ==> s[i + 1] == 'i'
  {
    if MarkerAt(s, i, CorrelationMarker) {
      assert s[i..i + 15][1] == s[i + 1];
    }
    if MarkerAt(s, i, CidMarker) {
      assert s[i..i + 4][1] == s[i + 1];
    }
  }

  /** The first match at or after index `i`, as Python's `re.search` finds it. */
  function FirstMatch(s: string, i: nat): (r: Option<string>)
    requires i <= |s|
    ensures r.None? <==> forall k :: i <= k <= |s| ==> !MatchesAt(s, k)
    ensures r.Some? ==> exists k :: i <= k <= |s| && MatchesAt(s, k)
                                    && (forall k' :: i <= k' < k ==> !MatchesAt(s, k'))
                                    && MaximalTokenAt(s, TokenStart(s, k), r.value)
    decreases |s| - i
  {
    match MatchAt(s, i)
    case Some((j, e)) => Some(s[j..e])
    case None =>
      if i == |s| then None
      else
        var r := FirstMatch(s, i + 1);
        assert forall k :: i <= k < i + 1 ==> !MatchesAt(s, k);
        r
  }

  /** `extract_correlation_id(message)`: the token after the first marker that
      is followed by a token character, or nothing. */
  function ExtractCorrelationId(message: string): (r: Option<string>)
    ensures r.None? <==> forall k :: 0 <= k <= |message| ==> !MatchesAt(message, k)
    ensures r.Some? ==> exists k :: 0 <= k <= |message| && MatchesAt(message, k)
                                    && (forall k' :: 0 <= k' < k ==> !MatchesAt(message, k'))
                                    && MaximalTokenAt(message, TokenStart(message, k), r.value)
  {
    FirstMatch(message, 0)
  }

  /** Every match starts with a lower-case `c`: both markers do. */
  lemma MatchStartsWithC(s: string, i: int)
    ensures MatchesAt(s, i) ==> 0 <= i < |s| && s[i] == 'c'
  {
    if MarkerAt(s, i, CorrelationMarker) {
      assert s[i..i + 15][0] == s[i];
    }
    if MarkerAt(s, i, CidMarker) {
      assert s[i..i + 4][0] == s[i];
    }
  }

  /** Past its first character a marker holds no `c`. */
  lemma MarkerInterior(s: string, i: int, m: string, t: int)
    requires m == CorrelationMarker || m == CidMarker
    requires MarkerAt(s, i, m) && 1 <= t < |m|
    ensures s[i + t] != 'c'
  {
    assert s[i + t] == s[i..i + |m|][t] == m[t];
  }

  /** Whether a match starts at an index depends only on the text from there
      on: a prefix moves matches without changing them. */
  lemma MatchesAtShift(a: string, b: string, k: int)
    requires 0 <= k
    ensures MatchesAt(a + b, |a| + k) <==> MatchesAt(b, k)
  {
    var s := a + b;
    if k + 15 <= |b| {
      assert s[|a| + k..|a| + k + 15] == b[k..k + 15];
    }
    if k + 4 <= |b| {
      assert s[|a| + k..|a| + k + 4] == b[k..k + 4];
    }
    if k + 15 < |b| {
      assert s[|a| + k + 15] == b[k + 15];
    }
    if k + 4 < |b| {
      assert s[|a| + k + 4] == b[k + 4];
    }
  }

  /** Matching is case-sensitive: once upper-cased, no text holds a marker. */
  lemma UpperCaseMarkerIgnored(message: string)
    ensures ExtractCorrelationId(Upper(message)) == None
  {
    var u := Upper(message);
    forall k | 0 <= k <= |u| ensures !MatchesAt(u, k) {
      MatchStartsWithC(u, k);
    }
  }
}

=== FILE: events.dfy ===
/** `LogEvent` of triage_toolkit/models.py: a frozen record, here an
    immutable datatype, and its `to_dict` projection. */
module Events {
  import opened Wrappers
  import opened Timestamps
  import opened JsonValues

  datatype LogEvent = LogEvent(
    timestamp: Stamp,
    level: string,
    component: string,
    message: string,
    correlationId: Option<Json>,
    raw: string)

  /** The keys `to_dict` emits, in order. */
  const DictKeys: seq<string> := ["timestamp", "level", "component", "message", "correlation_id"]

  /** `to_dict()`: the five public fields as ordered (key, JSON value) pairs. */
  function ToDict(e: LogEvent): (d: seq<(string, Json)>)
    ensures |d| == 5 && forall i :: 0 <= i < 5 ==> d[i].0 == DictKeys[i]
    ensures d[0].1 == JString(IsoFormat(e.timestamp))
    ensures d[1].1 == JString(e.level)
    ensures d[2].1 == JString(e.component)
    ensures d[3].1 == JString(e.message)
    ensures d[4].1 == e.correlationId.GetOr(JNull)
  {
    [ (DictKeys[0], JString(IsoFormat(e.timestamp))),
      (DictKeys[1], JString(e.level)),
      (DictKeys[2], JString(e.component)),
      (DictKeys[3], JString(e.message)),
      (DictKeys[4], e.correlationId.GetOr(JNull)) ]
  }

  /** The serialised timestamp reads back as the event's timestamp. */
  lemma ToDictTimestampReadsBack(e: LogEvent)
    ensures ToDict(e)[0].1.JString?
    ensures ParseTimestamp(ToDict(e)[0].1.s) == Some(e.timestamp)
  {
    IsoFormatRoundTrip(e.timestamp);
  }

  /** No key of the projection is `raw`. */
  lemma ToDictOmitsRaw(e: LogEvent)
    ensures forall i :: 0 <= i < |ToDict(e)| ==> ToDict(e)[i].0 != "raw"
  {
    forall i | 0 <= i < 5 ensures DictKeys[i] != "raw" {
      assert |"raw"| == 3 && |DictKeys[i]| != 3;
    }
  }

  /** The projection loses only `raw`, and the difference between no
      correlation id and a JSON `null` one: `isoformat()` text names one
      timestamp. */
  lemma ToDictDeterminesEvent(a: LogEvent, b: LogEvent)
    ensures ToDict(a) == ToDict(b) <==>
              && a.(raw := b.raw, correlationId := b.correlationId) == b
              && a.correlationId.GetOr(JNull) == b.correlationId.GetOr(JNull)
    ensures a.correlationId != Some(JNull) && b.correlationId != Some(JNull) ==>
              (ToDict(a) == ToDict(b) <==> a.(raw := b.raw) == b)
  {
    if ToDict(a) == ToDict(b) {
      IsoFormatRoundTrip(a.timestamp);
      IsoFormatRoundTrip(b.timestamp);
      assert ToDict(a)[0] == ToDict(b)[0];
    }
  }

  /** `raw` never reaches the projection: events differing only in `raw`
      serialise identically. */
  lemma ToDictIgnoresRaw(e: LogEvent, raw: string)
    ensures ToDict(e.(raw := raw)) == ToDict(e)
  {
  }
}

=== FILE: gate.dfy ===
/** The strict parse-quality gate of the `parse` command (`_drop_ratio` and
    `_strict_parse_error` in triage_toolkit/cli.py). */
module Gate {
  import opened Wrappers
  import opened LineParser
  import opened Summary

  /** `_drop_ratio(summary)`: dropped over total lines, and 0 for no lines. */
  function DropRatio(s: ParseSummary): (r: real)
    ensures s.totalLines == 0 ==> r == 0.0
    ensures s.totalLines > 0 ==> r * (s.totalLines as real) == s.droppedLines as real
  {
    if s.totalLines == 0 then 0.0 else s.droppedLines as real / s.totalLines as real
  }

  /** Why the gate fails; the message text is not modelled. */
  datatype GateFailure = NothingParsed | RatioExceeded(ratio: real, limit: real)

  /** `_strict_parse_error(summary, max_drop_ratio)`: nothing parsed fails
      first; otherwise a ratio strictly above the limit fails. */
  function StrictParseError(s: ParseSummary, maxDropRatio: real): (r: Option<GateFailure>)
    ensures r == Some(NothingParsed) <==> s.parsedLines == 0
    ensures r.None? <==> s.parsedLines > 0 && DropRatio(s) <= maxDropRatio
    ensures r.Some? && r.value.RatioExceeded? ==> r.value == RatioExceeded(DropRatio(s), maxDropRatio)
  {
    if s.parsedLines == 0 then Some(NothingParsed)
    else
      var ratio := DropRatio(s);
      if ratio > maxDropRatio then Some(RatioExceeded(ratio, maxDropRatio)) else None
  }

  /** The `parse` command consults the gate only with `--strict`. */
  function ParseGate(strict: bool, s: ParseSummary, maxDropRatio: real): (r: Option<GateFailure>)
    ensures !strict ==> r.None?
    ensures strict ==> r == StrictParseError(s, maxDropRatio)
  {
    if strict then StrictParseError(s, maxDropRatio) else None
  }

  /** The gate reads the same ratio the summary reports (before rounding),
      and for a built summary it lies between 0 and 1. */
  lemma BuiltSummaryRatio(total: nat, parsed: nat, counts: map<Reason, nat>)
    requires parsed <= total
    ensures DropRatio(BuildParseSummary(total, parsed, counts)) == BuildParseSummary(total, parsed, counts).dropRatio
    ensures 0.0 <= DropRatio(BuildParseSummary(total, parsed, counts)) <= 1.0
  {
    var s := BuildParseSummary(total, parsed, counts);
    if total > 0 {
      var t := total as real;
      assert s.dropRatio * t == DropRatio(s) * t;
      assert 0.0 <= s.droppedLines as real <= t;
    }
  }

  /** With the default limit of 1.0 the gate fails only when nothing parsed. */
  lemma DefaultLimitRejectsOnlyEmpty(total: nat, parsed: nat, counts: map<Reason, nat>)
    requires parsed <= total
    ensures StrictParseError(BuildParseSummary(total, parsed, counts), 1.0).Some? <==> parsed == 0
  {
    BuiltSummaryRatio(total, parsed, counts);
  }

  /** A ratio equal to the limit passes: the comparison is strict. */
  lemma BoundaryPasses(s: ParseSummary)
    requires s.parsedLines > 0
    ensures StrictParseError(s, DropRatio(s)) == None
  {
  }

  /** Raising the limit never turns a pass into a failure. */
  lemma LimitMonotone(s: ParseSummary, limit: real, higher: real)
    requires limit <= higher
    requires StrictParseError(s, limit).None?
    ensures StrictParseError(s, higher).None?
  {
  }

  /** A zero limit passes exactly the inputs where every line parsed. */
  lemma ZeroLimitDemandsNoDrops(total: nat, parsed: nat, counts: map<Reason, nat>)
    requires parsed <= total
    ensures StrictParseError(BuildParseSummary(total, parsed, counts), 0.0).None? <==> 0 < parsed == total
  {
    var s := BuildParseSummary(total, parsed, counts);
    BuiltSummaryRatio(total, parsed, counts);
    if total > 0 {
      assert DropRatio(s) * (total as real) == (total - parsed) as real;
    }
  }
}

=== FILE: json.dfy ===
/** The decoded JSON value the parser inspects, and the two pieces of Python it
    calls without the model looking inside: `json.loads` and `str()` of a
    non-string value. */
module JsonValues {
  import opened Wrappers
  import opened Text

  /** A value as `json.loads` returns it.  A number keeps its lexeme; an object
      is a dict (the decoder settles duplicate keys). */
  datatype Json =
    | JNull
    | JBool(b: bool)
    | JNumber(lexeme: string)
    | JString(s: string)
    | JArray(items: seq<Json>)
    | JObject(fields: map<string, Json>)

  /** `loads` is `json.loads` (nothing when it raises `JSONDecodeError`);
      `show` is `str()` applied to a value that is not a string. */
  datatype Host = Host(loads: string -> Option<Json>, show: Json -> string)

  /** The part of a number lexeme before its exponent. */
  function Mantissa(lexeme: string): (m: string)
    ensures |m| <= |lexeme| && m == lexeme[..|m|]
    ensures forall i :: 0 <= i < |m| ==> m[i] != 'e' && m[i] != 'E'
    ensures |m| == |lexeme| || lexeme[|m|] == 'e' || lexeme[|m|] == 'E'
  {
    if lexeme == [] || lexeme[0] == 'e' || lexeme[0] == 'E' then []
    else [lexeme[0]] + Mantissa(lexeme[1..])
  }

  /** A number is zero when its mantissa has digits and all of them are `0`;
      `NaN` and `Infinity` have no digits and are not zero. */
  predicate IsZeroNumber(lexeme: string) {
    var m := Mantissa(lexeme);
    && (exists i :: 0 <= i < |m| && IsDigit(m[i]))
    && (forall i :: 0 <= i < |m| && IsDigit(m[i]) ==> m[i] == '0')
  }

  /** Python truthiness of a decoded value. */
  predicate Truthy(v: Json) {
    match v
    case JNull => false
    case JBool(b) => b
    case JNumber(lexeme) => !IsZeroNumber(lexeme)
    case JString(s) => s != []
    case JArray(items) => items != []
    case JObject(fields) => fields != map[]
  }

  /** `payload.get(key)`: nothing when the key is absent or holds `null`. */
  function DictGet(fields: map<string, Json>, key: string): (r: Option<Json>)
    ensures r.Some? <==> key in fields && fields[key] != JNull
    ensures r.Some? ==> r.value == fields[key]
  {
    if key in fields && fields[key] != JNull then Some(fields[key]) else None
  }

  /** `str(v)`: a string is itself; anything else is rendered by the host. */
  function PyStr(host: Host, v: Json): string {
    if v.JString? then v.s else host.show(v)
  }
}

=== FILE: lineparser.dfy ===
/** Parsing one log line (triage_toolkit/parser.py): JSON objects and plain
    text lines become `LogEvent`s; anything else is dropped with a reason. */
module LineParser {
  import opened Wrappers
  import opened Text
  import opened Timestamps
  import opened Correlation
  import opened JsonValues
  import opened Events
  import opened Patterns

  /** Why a line was dropped. */
  datatype Reason =
    | BlankLine
    | InvalidJson
    | JsonNotObject
    | MissingTimestamp
    | InvalidTimestamp
    | UnrecognizedText
    | Unknown
  {
    /** The key the reason is counted under in a parse summary. */
    function Name(): string {
      match this
      case BlankLine => "blank_line"
      case InvalidJson => "invalid_json"
      case JsonNotObject => "json_not_object"
      case MissingTimestamp => "missing_timestamp"
      case InvalidTimestamp => "invalid_timestamp"
      case UnrecognizedText => "unrecognized_text"
      case Unknown => "unknown"
    }
  }

  /** What a sub-parser returns: the Python pair `(event, reason)`. */
  datatype Attempt = Attempt(event: Option<LogEvent>, reason: Option<Reason>)

  /** The outcome for one line. */
  datatype LineResult = Parsed(event: LogEvent) | Dropped(reason: Reason)

  const TimestampKeys: seq<string> := ["timestamp", "time", "ts"]
  const LevelKeys: seq<string> := ["level", "severity", "lvl"]
  const ComponentKeys: seq<string> := ["component", "service", "logger"]
  const MessageKeys: seq<string> := ["message", "msg", "event"]

  // ---------------------------------------------------------------------------
  // JSON lines

  /** `key in data and data[key] not in (None, "")`. */
  predicate Present(fields: map<string, Json>, key: string) {
    key in fields && fields[key] != JNull && fields[key] != JString("")
  }

  /** `_get_first(data, keys)`: `str()` of the value under the first key that
      is present and neither null nor the empty string. */
  function GetFirst(host: Host, fields: map<string, Json>, keys: seq<string>): (r: Option<string>)
    ensures r.None? <==> forall i :: 0 <= i < |keys| ==> !Present(fields, keys[i])
    ensures r.Some? ==> exists i :: && 0 <= i < |keys| && Present(fields, keys[i])
                                    && (forall j :: 0 <= j < i ==> !Present(fields, keys[j]))
                                    && r.value == PyStr(host, fields[keys[i]])
  {
    if keys == [] then None
    else if Present(fields, keys[0]) then
      Some(PyStr(host, fields[keys[0]]))
    else
      var r := GetFirst(host, fields, keys[1..]);
      assert forall i :: 1 <= i < |keys| ==> keys[i] == keys[1..][i - 1];
      if r.Some? then
        assert exists i :: && 0 <= i < |keys| && Present(fields, keys[i])
                           && (forall j :: 0 <= j < i ==> !Present(fields, keys[j]))
                           && r.value == PyStr(host, fields[keys[i]]) by {
          var i :| && 0 <= i < |keys| - 1 && Present(fields, keys[1..][i])
                   && (forall j :: 0 <= j < i ==> !Present(fields, keys[1..][j]))
                   && r.value == PyStr(host, fields[keys[1..][i]]);
          assert forall j :: 1 <= j < i + 1 ==> keys[j] == keys[1..][j - 1];
        }
        r
      else
        r
  }

  /** `_get_first(data, keys, default) or default`. */
  function FieldOr(host: Host, fields: map<string, Json>, keys: seq<string>, default: string): (r: string)
    ensures r != [] || default == []
    ensures (forall i :: 0 <= i < |keys| ==> !Present(fields, keys[i])) ==> r == default
    ensures r != default ==> GetFirst(host, fields, keys) == Some(r)
  {
    var v := GetFirst(host, fields, keys).GetOr(default);
    if v == [] then default else v
  }

  /** `payload.get("correlation_id") or payload.get("cid")`, and when that is
      `None` the ID found in the message. */
  function CorrelationField(fields: map<string, Json>, message: string): (r: Option<Json>)
    ensures r.Some? ==> r.value != JNull
    ensures DictGet(fields, "correlation_id").Some? && Truthy(fields["correlation_id"]) ==>
              r == DictGet(fields, "correlation_id")
    ensures !(DictGet(fields, "correlation_id").Some? && Truthy(fields["correlation_id"])) ==>
              r == if DictGet(fields, "cid").Some? then DictGet(fields, "cid")
                   else match ExtractCorrelationId(message) case Some(id) => Some(JString(id)) case None => None
  {
    var first := DictGet(fields, "correlation_id");
    var chosen := if first.Some? && Truthy(first.value) then first else DictGet(fields, "cid");
    if chosen.Some? then chosen
    else match ExtractCorrelationId(message)
         case Some(id) => Some(JString(id))
         case None => None
  }

  /** `_parse_json_line_with_reason(line)`.  Reasons have a fixed priority:
      undecodable, not an object, no timestamp, unparseable timestamp. */
  function ParseJsonLine(host: Host, line: string): (r: Attempt)
    ensures r.event.Some? <==> r.reason.None?
    ensures r.reason == Some(InvalidJson) <==> host.loads(line).None?
    ensures r.reason == Some(JsonNotObject) <==> host.loads(line).Some? && !host.loads(line).value.JObject?
    ensures host.loads(line).Some? && host.loads(line).value.JObject? ==>
              var fields := host.loads(line).value.fields;
              var ts := FieldOr(host, fields, TimestampKeys, "");
              && (r.reason == Some(MissingTimestamp) <==> ts == [])
              && (r.reason == Some(InvalidTimestamp) <==> ts != [] && ParseTimestamp(ts).None?)
              && (r.event.Some? ==>
                    var e := r.event.value;
                    && Some(e.timestamp) == ParseTimestamp(ts)
                    && e.level == Upper(FieldOr(host, fields, LevelKeys, "INFO"))
                    && e.component == FieldOr(host, fields, ComponentKeys, "unknown")
                    && e.message == FieldOr(host, fields, MessageKeys, "")
                    && e.correlationId == CorrelationField(fields, e.message)
                    && e.raw == RStrip(line))
  {
    match host.loads(line)
    case None => Attempt(None, Some(InvalidJson))
    case Some(payload) =>
      if !payload.JObject? then Attempt(None, Some(JsonNotObject))
      else
        var fields := payload.fields;
        var ts := FieldOr(host, fields, TimestampKeys, "");
        if ts == [] then Attempt(None, Some(MissingTimestamp))
        else match ParseTimestamp(ts)
          case None => Attempt(None, Some(InvalidTimestamp))
          case Some(t) =>
            var message := FieldOr(host, fields, MessageKeys, "");
            var e := LogEvent(
              t,
              Upper(FieldOr(host, fields, LevelKeys, "INFO")),
              FieldOr(host, fields, ComponentKeys, "unknown"),
              message,
              CorrelationField(fields, message),
              RStrip(line));
            Attempt(Some(e), None)
  }

  // ---------------------------------------------------------------------------
  // Plain-text lines

  /** The optional level after the timestamp: `(level, remainder)`, with the
      level `INFO` when the level pattern does not match. */
  function SplitLevel(rest: string): (r: (string, string))
    requires Strip(rest) == rest
    ensures r.0 == "INFO" || (r.0 != [] && AllUpper(r.0))
    ensures MatchLevel(rest).None? ==> r == ("INFO", rest)
    ensures MatchLevel(rest).Some? ==> r == (MatchLevel(rest).value.0, Strip(MatchLevel(rest).value.1))
    ensures Strip(r.1) == r.1
  {
    match MatchLevel(rest)
    case Some((tok, tail)) =>
      StripIdempotent(tail);
      (tok, Strip(tail))
    case None => ("INFO", rest)
  }

  /** The optional `component:` prefix: `(component, message)`, with the
      component `unknown` when the component pattern does not match. */
  function SplitComponent(rest: string): (r: (string, string))
    requires Strip(rest) == rest
    ensures r.0 == "unknown" || (r.0 != [] && forall p :: 0 <= p < |r.0| ==> IsComponentChar(r.0[p]))
    ensures MatchComponent(rest).None? ==> r == ("unknown", rest)
    ensures MatchComponent(rest).Some? ==> r.0 == MatchComponent(rest).value.0 && r.0 == rest[..|r.0|]
    ensures MatchComponent(rest).Some? ==> r.1 == Strip(MatchComponent(rest).value.1)
    ensures Strip(r.1) == r.1
  {
    match MatchComponent(rest)
    case Some((c, m)) =>
      MatchComponentHead(rest);
      StripIdempotent(m);
      (c, Strip(m))
    case None => ("unknown", rest)
  }

  /** `TIMESTAMP [LEVEL] component: message` after the timestamp pattern has
      matched: `(level, component, message)`, the message trimmed. */
  function TextFields(rest: string): (r: (string, string, string))
    ensures r.0 == "INFO" || (r.0 != [] && AllUpper(r.0))
    ensures r.1 == "unknown" || (r.1 != [] && forall p :: 0 <= p < |r.1| ==> IsComponentChar(r.1[p]))
    ensures Strip(r.2) == r.2
    ensures var t := Strip(rest);
            var level := MatchLevel(t);
            var afterLevel := if level.Some? then Strip(level.value.1) else t;
            var comp := MatchComponent(afterLevel);
            && r.0 == (if level.Some? then level.value.0 else "INFO")
            && r.1 == (if comp.Some? then comp.value.0 else "unknown")
            && r.2 == (if comp.Some? then Strip(comp.value.1) else afterLevel)
  {
    StripIdempotent(rest);
    var (level, rest2) := SplitLevel(Strip(rest));
    var (component, message) := SplitComponent(rest2);
    (level, component, message)
  }

  /** `_parse_text_line_with_reason(line)`. */
  function ParseTextLine(line: string): (r: Attempt)
    ensures r.event.Some? <==> r.reason.None?
    ensures r.reason == Some(UnrecognizedText) <==> forall n, q, e :: !TextMatch(line, n, q, e)
    ensures r.reason == Some(InvalidTimestamp) <==>
              MatchTextLine(line).Some? && ParseTimestamp(MatchTextLine(line).value.0).None?
    ensures r.reason == None || r.reason == Some(UnrecognizedText) || r.reason == Some(InvalidTimestamp)
    ensures r.event.Some? ==>
              var e := r.event.value;
              && Some(e.timestamp) == ParseTimestamp(MatchTextLine(line).value.0)
              && (e.level, e.component, e.message) == TextFields(MatchTextLine(line).value.1)
              && e.correlationId == (match ExtractCorrelationId(e.message) case Some(id) => Some(JString(id)) case None => None)
              && e.raw == RStrip(line)
  {
    match MatchTextLine(line)
    case None => Attempt(None, Some(UnrecognizedText))
    case Some((ts, rest)) =>
      match ParseTimestamp(ts)
      case None => Attempt(None, Some(InvalidTimestamp))
      case Some(t) =>
        var (level, component, message) := TextFields(rest);
        var cid := match ExtractCorrelationId(message) case Some(id) => Some(JString(id)) case None => None;
        Attempt(Some(LogEvent(t, level, component, message, cid, RStrip(line))), None)
  }

  /** A text line whose timestamp carries a numeric UTC offset is never
      recognised: the pattern admits only an optional `Z` before the space. */
  lemma OffsetTextLineUnrecognized(line: string, j: nat)
    requires DatePrefix(line) && 11 <= j < |line|
    requires forall p :: 11 <= p < j ==> IsClockChar(line[p])
    requires line[j] == '+' || line[j] == '-'
    ensures ParseTextLine(line).reason == Some(UnrecognizedText)
  {
    OffsetNeverMatches(line, j);
  }

  // ---------------------------------------------------------------------------
  // Any line

  /** What both sub-parsers promise: an event or a reason, never both; never
      the blank-line or fallback reason; `raw` is the right-trimmed line. */
  predicate SubParserResult(a: Attempt, line: string) {
    && (a.event.Some? <==> a.reason.None?)
    && a.reason != Some(BlankLine) && a.reason != Some(Unknown)
    && (a.event.Some? ==> a.event.value.raw == RStrip(line))
  }

  lemma JsonAttemptShape(host: Host, line: string)
    ensures SubParserResult(ParseJsonLine(host, line), line)
    ensures ParseJsonLine(host, line).reason != Some(UnrecognizedText)
  {
  }

  lemma TextAttemptShape(line: string)
    ensures SubParserResult(ParseTextLine(line), line)
  {
  }

  /** `if event: return event, None` / `return None, drop_reason or "unknown"`. */
  function Combine(a: Attempt): (r: LineResult)
    ensures a.event.Some? ==> r == Parsed(a.event.value)
    ensures a.event.None? && a.reason.Some? ==> r == Dropped(a.reason.value)
    ensures a.event.None? && a.reason.None? ==> r == Dropped(Unknown)
  {
    match a.event
    case Some(e) => Parsed(e)
    case None => Dropped(a.reason.GetOr(Unknown))
  }

  /** The routing step of `parse_line_with_reason` on an already left-stripped
      line: empty is blank, `{` goes to the JSON parser, anything else to the
      text parser. */
  function Route(host: Host, stripped: string): (r: LineResult)
    ensures r == Dropped(BlankLine) <==> stripped == []
    ensures r != Dropped(Unknown)
    ensures r.Parsed? ==> r.event.raw == RStrip(stripped)
    ensures stripped != [] && stripped[0] == '{' ==> r == Combine(ParseJsonLine(host, stripped))
    ensures stripped != [] && stripped[0] != '{' ==> r == Combine(ParseTextLine(stripped))
  {
    if stripped == [] then Dropped(BlankLine)
    else
      var a := if stripped[0] == '{' then ParseJsonLine(host, stripped) else ParseTextLine(stripped);
      assert SubParserResult(a, stripped) by {
        if stripped[0] == '{' { JsonAttemptShape(host, stripped); } else { TextAttemptShape(stripped); }
      }
      Combine(a)
  }

  /** `parse_line_with_reason(line)`: leading whitespace is dropped, then the
      line is routed. */
  function ParseLine(host: Host, line: string): (r: LineResult)
    ensures r == Dropped(BlankLine) <==> AllSpace(line)
    ensures r != Dropped(Unknown)
    ensures r.Parsed? ==> r.event.raw == Strip(line)
    ensures !AllSpace(line) && LStrip(line)[0] == '{' ==> r == Combine(ParseJsonLine(host, LStrip(line)))
    ensures !AllSpace(line) && LStrip(line)[0] != '{' ==> r == Combine(ParseTextLine(LStrip(line)))
  {
    Route(host, LStrip(line))
  }

  /** Routing: the JSON reasons arise only for lines starting with `{`, the
      text reason only for the others. */
  lemma ReasonsFollowRouting(host: Host, line: string)
    ensures ParseLine(host, line) in {Dropped(InvalidJson), Dropped(JsonNotObject), Dropped(MissingTimestamp)} ==>
              !AllSpace(line) && LStrip(line)[0] == '{'
    ensures ParseLine(host, line) == Dropped(UnrecognizedText) ==>
              !AllSpace(line) && LStrip(line)[0] != '{'
  {
    RouteReasons(host, LStrip(line));
  }

  /** `ReasonsFollowRouting` for the routing step alone. */
  lemma RouteReasons(host: Host, stripped: string)
    ensures Route(host, stripped) in {Dropped(InvalidJson), Dropped(JsonNotObject), Dropped(MissingTimestamp)} ==>
              stripped != [] && stripped[0] == '{'
    ensures Route(host, stripped) == Dropped(UnrecognizedText) ==> stripped != [] && stripped[0] != '{'
  {
    if stripped != [] {
      if stripped[0] == '{' {
        JsonAttemptShape(host, stripped);
      } else {
        TextAttemptShape(stripped);
      }
    }
  }

  /** Indentation never changes the outcome. */
  lemma LeadingWhitespaceIgnored(host: Host, pad: string, line: string)
    requires AllSpace(pad)
    ensures ParseLine(host, pad + line) == ParseLine(host, line)
  {
    LStripSpacePrefix(pad, line);
  }
}

=== FILE: ordering.dfy ===
/** The collection operations the report builders rely on, stated once and
    generically: Python's stable `sorted(..., key=...)`, grouping into a dict
    of lists (keys in first-insertion order), `Counter.most_common(n)`, and
    `min`/`max` with a key. */
module Ordering {

  // ---------------------------------------------------------------------------
  // Selecting by key

  /** The elements whose key is `k`, in order. */
  function FilterKey<K(==), T>(xs: seq<T>, f: T -> K, k: K): (r: seq<T>)
    ensures |r| <= |xs|
    ensures forall i :: 0 <= i < |r| ==> f(r[i]) == k
    ensures forall x :: x in r ==> x in xs
  {
    if xs == [] then []
    else (if f(xs[0]) == k then [xs[0]] else []) + FilterKey(xs[1..], f, k)
  }

  lemma {:induction false} FilterKeyAppend<K, T>(a: seq<T>, b: seq<T>, f: T -> K, k: K)
    ensures FilterKey(a + b, f, k) == FilterKey(a, f, k) + FilterKey(b, f, k)
    decreases |a|
  {
    if a == [] {
      assert a + b == b;
    } else {
      var h := if f(a[0]) == k then [a[0]] else [];
      assert (a + b)[0] == a[0];
      assert (a + b)[1..] == a[1..] + b;
      assert FilterKey(a + b, f, k) == h + FilterKey(a[1..] + b, f, k);
      FilterKeyAppend(a[1..], b, f, k);
      assert FilterKey(a, f, k) == h + FilterKey(a[1..], f, k);
    }
  }

  /** Each element with key `k` is kept as often as it occurs, every other
      element dropped. */
  lemma {:induction false} FilterKeyCounts<K, T>(xs: seq<T>, f: T -> K, k: K, x: T)
    ensures multiset(FilterKey(xs, f, k))[x] == if f(x) == k then multiset(xs)[x] else 0
    decreases |xs|
  {
    if xs != [] {
      FilterKeyCounts(xs[1..], f, k, x);
      assert xs == [xs[0]] + xs[1..];
    }
  }

  /** Reordering does not change how many elements have a key. */
  lemma {:induction false} FilterKeyPermutation<K, T>(a: seq<T>, b: seq<T>, f: T -> K, k: K)
    requires multiset(a) == multiset(b)
    ensures |FilterKey(a, f, k)| == |FilterKey(b, f, k)|
    decreases |a|
  {
    if a == [] {
      assert |b| == |multiset(b)| == 0;
    } else {
      var i := RemoveFirst(a, b);
      var rest := b[..i] + b[i + 1..];
      var tail := [b[i]] + b[i + 1..];
      FilterKeyPermutation(a[1..], rest, f, k);
      FilterKeyAppend(b[..i], b[i + 1..], f, k);
      FilterKeyAppend(b[..i], tail, f, k);
      FilterKeyAppend([b[i]], b[i + 1..], f, k);
      assert FilterKey([b[i]], f, k) == if f(b[i]) == k then [b[i]] else [];
    }
  }

  /** Where the first element of `a` sits in a reordering `b` of it; what is
      left of the two are again reorderings of each other. */
  lemma RemoveFirst<T>(a: seq<T>, b: seq<T>) returns (i: nat)
    requires a != [] && multiset(a) == multiset(b)
    ensures i < |b| && b[i] == a[0]
    ensures b == b[..i] + ([b[i]] + b[i + 1..])
    ensures multiset(a[1..]) == multiset(b[..i] + b[i + 1..])
  {
    assert a[0] in multiset(b);
    i :| 0 <= i < |b| && b[i] == a[0];
    MultisetTail(a);
    MultisetSplice(b, i);
  }

  lemma MultisetTail<T>(a: seq<T>)
    requires a != []
    ensures multiset(a[1..]) == multiset(a) - multiset{a[0]}
  {
    assert a == [a[0]] + a[1..];
  }

  lemma MultisetSplice<T>(b: seq<T>, i: nat)
    requires i < |b|
    ensures b == b[..i] + ([b[i]] + b[i + 1..])
    ensures multiset(b[..i] + b[i + 1..]) == multiset(b) - multiset{b[i]}
  {
    var p, q := b[..i], b[i + 1..];
    assert b == p + ([b[i]] + q);
    assert multiset(b) == multiset(p) + multiset{b[i]} + multiset(q);
    assert multiset(p + q) == multiset(p) + multiset(q);
  }

  lemma {:induction false} FilterKeyNonEmpty<K, T>(xs: seq<T>, f: T -> K, i: nat)
    requires i < |xs|
    ensures xs[i] in FilterKey(xs, f, f(xs[i]))
    decreases i
  {
    if i > 0 {
      FilterKeyNonEmpty(xs[1..], f, i - 1);
    }
  }

  // ---------------------------------------------------------------------------
  // Stable sorting

  predicate SortedBy<T>(s: seq<T>, key: T -> int) {
    forall i, j :: 0 <= i < j < |s| ==> key(s[i]) <= key(s[j])
  }

  /** Insert `x` before the first element whose key is not smaller. */
  function Insert<T>(x: T, s: seq<T>, key: T -> int): (r: seq<T>)
    ensures |r| == |s| + 1
    ensures multiset(r) == multiset(s) + multiset{x}
  {
    if s == [] || key(x) <= key(s[0]) then [x] + s
    else
      assert s == [s[0]] + s[1..];
      [s[0]] + Insert(x, s[1..], key)
  }

  lemma {:induction false} InsertSorted<T>(x: T, s: seq<T>, key: T -> int)
    requires SortedBy(s, key)
    ensures SortedBy(Insert(x, s, key), key)
    decreases |s|
  {
    if s != [] && key(x) > key(s[0]) {
      InsertSorted(x, s[1..], key);
      var t := Insert(x, s[1..], key);
      InsertAbove(x, s[1..], key, key(s[0]));
      var r := [s[0]] + t;
      forall i, j | 0 <= i < j < |r| ensures key(r[i]) <= key(r[j]) {
        assert r[j] == t[j - 1];
        if i > 0 { assert r[i] == t[i - 1]; }
      }
    }
  }

  /** Inserting keeps a lower bound every key already meets. */
  lemma {:induction false} InsertAbove<T>(x: T, s: seq<T>, key: T -> int, lo: int)
    requires lo <= key(x)
    requires forall i :: 0 <= i < |s| ==> lo <= key(s[i])
    ensures forall j :: 0 <= j < |Insert(x, s, key)| ==> lo <= key(Insert(x, s, key)[j])
    decreases |s|
  {
    if s != [] && key(x) > key(s[0]) {
      InsertAbove(x, s[1..], key, lo);
      var t := Insert(x, s[1..], key);
      assert forall j :: 0 < j < |t| + 1 ==> ([s[0]] + t)[j] == t[j - 1];
    }
  }

  /** `sorted(s, key=key)`: insertion sort, which is stable. */
  function SortBy<T>(s: seq<T>, key: T -> int): (r: seq<T>)
    ensures |r| == |s|
    ensures multiset(r) == multiset(s)
    ensures SortedBy(r, key)
  {
    if s == [] then []
    else
      assert s == [s[0]] + s[1..];
      InsertSorted(s[0], SortBy(s[1..], key), key);
      Insert(s[0], SortBy(s[1..], key), key)
  }

  lemma {:induction false} InsertKeepsKeyOrder<T>(x: T, s: seq<T>, key: T -> int, k: int)
    ensures FilterKey(Insert(x, s, key), key, k) == (if key(x) == k then [x] else []) + FilterKey(s, key, k)
    decreases |s|
  {
    if s == [] || key(x) <= key(s[0]) {
      assert ([x] + s)[1..] == s;
    } else {
      InsertKeepsKeyOrder(x, s[1..], key, k);
      var t := [s[0]] + Insert(x, s[1..], key);
      assert t[1..] == Insert(x, s[1..], key);
    }
  }

  /** Stability: elements with equal keys keep their input order. */
  lemma {:induction false} SortByIsStable<T>(s: seq<T>, key: T -> int, k: int)
    ensures FilterKey(SortBy(s, key), key, k) == FilterKey(s, key, k)
    decreases |s|
  {
    if s != [] {
      SortByIsStable(s[1..], key, k);
      InsertKeepsKeyOrder(s[0], SortBy(s[1..], key), key, k);
    }
  }

  // ---------------------------------------------------------------------------
  // Extremes

  /** `min(s, key=key)`: the index of the first element with the least key. */
  function MinIndex<T>(s: seq<T>, key: T -> int): (i: nat)
    requires s != []
    ensures i < |s|
    ensures forall j :: 0 <= j < |s| ==> key(s[i]) <= key(s[j])
    ensures forall j :: 0 <= j < i ==> key(s[j]) > key(s[i])
  {
    if |s| == 1 then 0
    else
      var m := MinIndex(s[1..], key) + 1;
      assert forall j :: 1 <= j < |s| ==> s[j] == s[1..][j - 1];
      if key(s[0]) <= key(s[m]) then 0 else m
  }

  /** `max(s, key=key)`: the index of the first element with the greatest key. */
  function MaxIndex<T>(s: seq<T>, key: T -> int): (i: nat)
    requires s != []
    ensures i < |s|
    ensures forall j :: 0 <= j < |s| ==> key(s[j]) <= key(s[i])
    ensures forall j :: 0 <= j < i ==> key(s[j]) < key(s[i])
  {
    if |s| == 1 then 0
    else
      var m := MaxIndex(s[1..], key) + 1;
      assert forall j :: 1 <= j < |s| ==> s[j] == s[1..][j - 1];
      if key(s[0]) >= key(s[m]) then 0 else m
  }

  // ---------------------------------------------------------------------------
  // Grouping

  /** One entry of a dict of lists: a key and the elements filed under it. */
  datatype Bucket<K, T> = Bucket(key: K, items: seq<T>)

  function Keys<K, T>(bs: seq<Bucket<K, T>>): (r: seq<K>)
    ensures |r| == |bs| && forall i :: 0 <= i < |bs| ==> r[i] == bs[i].key
  {
    seq(|bs|, i requires 0 <= i < |bs| => bs[i].key)
  }

  /** The distinct values of `s` in order of first occurrence. */
  function Distinct<K(==,!new)>(s: seq<K>): (r: seq<K>)
    ensures forall x :: x in r <==> x in s
    ensures forall i, j :: 0 <= i < j < |r| ==> r[i] != r[j]
  {
    if s == [] then []
    else
      var d := Distinct(s[..|s| - 1]);
      assert forall x :: x in s <==> x in s[..|s| - 1] || x == s[|s| - 1];
      if s[|s| - 1] in d then d else d + [s[|s| - 1]]
  }

  /** Where key `k` is filed, or `|bs|` when it is not. */
  function IndexOfKey<K(==), T>(bs: seq<Bucket<K, T>>, k: K): (i: nat)
    ensures i <= |bs|
    ensures i < |bs| ==> bs[i].key == k
    ensures forall j :: 0 <= j < i ==> bs[j].key != k
  {
    if bs == [] then 0
    else if bs[0].key == k then 0
    else
      assert forall j :: 1 <= j < |bs| ==> bs[j] == bs[1..][j - 1];
      IndexOfKey(bs[1..], k) + 1
  }

  predicate DistinctKeys<K(==), T>(bs: seq<Bucket<K, T>>) {
    forall i, j :: 0 <= i < j < |bs| ==> bs[i].key != bs[j].key
  }

  /** `grouped[k].append(x)` on a dict of lists. */
  function AddTo<K(==), T>(bs: seq<Bucket<K, T>>, k: K, x: T): (r: seq<Bucket<K, T>>)
    requires DistinctKeys(bs)
    ensures DistinctKeys(r)
    ensures Keys(r) == if k in Keys(bs) then Keys(bs) else Keys(bs) + [k]
    ensures forall i :: 0 <= i < |bs| ==> r[i].items == bs[i].items + (if bs[i].key == k then [x] else [])
    ensures k !in Keys(bs) ==> r[|bs|] == Bucket(k, [x])
  {
    var i := IndexOfKey(bs, k);
    if i < |bs| then
      assert Keys(bs)[i] == k;
      var r := bs[i := Bucket(k, bs[i].items + [x])];
      assert Keys(r) == Keys(bs);
      r
    else
      assert k !in Keys(bs);
      var r := bs + [Bucket(k, [x])];
      assert Keys(r) == Keys(bs) + [k];
      r
  }

  /** `[f(x) for x in xs]`. */
  function Map<K, T>(xs: seq<T>, f: T -> K): (r: seq<K>)
    ensures |r| == |xs| && forall i :: 0 <= i < |xs| ==> r[i] == f(xs[i])
  {
    if xs == [] then [] else Map(xs[..|xs| - 1], f) + [f(xs[|xs| - 1])]
  }

  /** Files each element under `f` of it, keys in first-insertion order. */
  function GroupBy<K(==), T>(xs: seq<T>, f: T -> K): (bs: seq<Bucket<K, T>>)
    ensures DistinctKeys(bs)
  {
    if xs == [] then []
    else AddTo(GroupBy(xs[..|xs| - 1], f), f(xs[|xs| - 1]), xs[|xs| - 1])
  }

  /** The keys are the distinct values of `f`, in order of first occurrence. */
  lemma {:induction false} GroupByKeys<K(!new), T>(xs: seq<T>, f: T -> K)
    ensures Keys(GroupBy(xs, f)) == Distinct(Map(xs, f))
    decreases |xs|
  {
    if xs != [] {
      var prefix := xs[..|xs| - 1];
      GroupByKeys(prefix, f);
      assert Map(xs, f)[..|xs| - 1] == Map(prefix, f);
    }
  }

  /** Each bucket holds exactly the elements with its key, in input order. */
  lemma {:induction false} GroupByItems<K(!new), T>(xs: seq<T>, f: T -> K)
    ensures var bs := GroupBy(xs, f);
            forall i :: 0 <= i < |bs| ==> bs[i].items == FilterKey(xs, f, bs[i].key)
    decreases |xs|
  {
    if xs != [] {
      var prefix := xs[..|xs| - 1];
      var x := xs[|xs| - 1];
      assert xs == prefix + [x];
      var bs := GroupBy(prefix, f);
      GroupByItems(prefix, f);
      GroupByKeys(prefix, f);
      forall j | 0 <= j < |prefix| ensures f(prefix[j]) in Keys(bs) {
        assert Map(prefix, f)[j] == f(prefix[j]);
      }
      var r := GroupBy(xs, f);
      assert r == AddTo(bs, f(x), x);
      forall i | 0 <= i < |r| ensures r[i].items == FilterKey(xs, f, r[i].key) {
        AddToItems(bs, prefix, x, f, i);
      }
    }
  }

  /** One step of `GroupByItems`: filing `x` keeps every bucket equal to the
      elements with its key. */
  lemma AddToItems<K, T>(bs: seq<Bucket<K, T>>, prefix: seq<T>, x: T, f: T -> K, i: nat)
    requires DistinctKeys(bs)
    requires forall j :: 0 <= j < |bs| ==> bs[j].items == FilterKey(prefix, f, bs[j].key)
    requires forall j :: 0 <= j < |prefix| ==> f(prefix[j]) in Keys(bs)
    requires i < |AddTo(bs, f(x), x)|
    ensures var r := AddTo(bs, f(x), x);
            r[i].items == FilterKey(prefix + [x], f, r[i].key)
  {
    var r := AddTo(bs, f(x), x);
    var k := r[i].key;
    FilterKeyAppend(prefix, [x], f, k);
    assert FilterKey([x], f, k) == if f(x) == k then [x] else [] by {
      assert [x][1..] == [];
    }
    assert Keys(r)[i] == k;
    if i < |bs| {
      assert Keys(bs)[i] == bs[i].key;
    } else {
      assert k == f(x) && k !in Keys(bs);
      NoKeyNoneFiltered(prefix, f, k);
    }
  }

  lemma {:induction false} NoKeyNoneFiltered<K, T>(xs: seq<T>, f: T -> K, k: K)
    requires forall j :: 0 <= j < |xs| ==> f(xs[j]) != k
    ensures FilterKey(xs, f, k) == []
    decreases |xs|
  {
    if xs != [] {
      NoKeyNoneFiltered(xs[1..], f, k);
    }
  }

  /** The number of elements filed. */
  function TotalItems<K, T>(bs: seq<Bucket<K, T>>): nat {
    if bs == [] then 0 else |bs[0].items| + TotalItems(bs[1..])
  }

  lemma {:induction false} TotalItemsAppend<K, T>(a: seq<Bucket<K, T>>, b: seq<Bucket<K, T>>)
    ensures TotalItems(a + b) == TotalItems(a) + TotalItems(b)
    decreases |a|
  {
    if a == [] {
      assert a + b == b;
    } else {
      assert (a + b)[1..] == a[1..] + b;
      TotalItemsAppend(a[1..], b);
    }
  }

  lemma {:induction false} TotalItemsUpdate<K, T>(bs: seq<Bucket<K, T>>, i: nat, b: Bucket<K, T>)
    requires i < |bs|
    ensures TotalItems(bs[i := b]) == TotalItems(bs) - |bs[i].items| + |b.items|
    decreases i
  {
    if i > 0 {
      assert bs[i := b][1..] == bs[1..][i - 1 := b];
      TotalItemsUpdate(bs[1..], i - 1, b);
    }
  }

  /** Every element is filed exactly once. */
  lemma {:induction false} GroupByFilesEverything<K, T>(xs: seq<T>, f: T -> K)
    ensures TotalItems(GroupBy(xs, f)) == |xs|
    decreases |xs|
  {
    if xs != [] {
      var bs := GroupBy(xs[..|xs| - 1], f);
      GroupByFilesEverything(xs[..|xs| - 1], f);
      var k := f(xs[|xs| - 1]);
      var i := IndexOfKey(bs, k);
      if i < |bs| {
        TotalItemsUpdate(bs, i, Bucket(k, bs[i].items + [xs[|xs| - 1]]));
      } else {
        TotalItemsAppend(bs, [Bucket(k, [xs[|xs| - 1]])]);
      }
    }
  }

  /** No bucket is empty. */
  lemma GroupByNonEmpty<K(!new), T>(xs: seq<T>, f: T -> K)
    ensures forall b :: b in GroupBy(xs, f) ==> b.items != []
  {
    var bs := GroupBy(xs, f);
    GroupByKeys(xs, f);
    GroupByItems(xs, f);
    forall b | b in bs ensures b.items != [] {
      var i :| 0 <= i < |bs| && bs[i] == b;
      assert Keys(bs)[i] == b.key;
      assert b.key in Map(xs, f);
      var j :| 0 <= j < |xs| && Map(xs, f)[j] == b.key;
      FilterKeyNonEmpty(xs, f, j);
    }
  }

  /** A ranking is a reordering, so its sizes add up the same. */
  lemma {:induction false} TotalItemsPermutation<K, T>(a: seq<Bucket<K, T>>, b: seq<Bucket<K, T>>)
    requires multiset(a) == multiset(b)
    ensures TotalItems(a) == TotalItems(b)
    decreases |a|
  {
    if a == [] {
      assert |b| == |multiset(b)| == 0;
    } else {
      var i := RemoveFirst(a, b);
      var rest := b[..i] + b[i + 1..];
      var tail := [b[i]] + b[i + 1..];
      TotalItemsPermutation(a[1..], rest);
      TotalItemsAppend(b[..i], tail);
      TotalItemsAppend(b[..i], b[i + 1..]);
      assert tail[1..] == b[i + 1..];
      assert TotalItems(tail) == |b[i].items| + TotalItems(b[i + 1..]);
    }
  }

  // ---------------------------------------------------------------------------
  // Ranking

  function NegSize<K, T>(b: Bucket<K, T>): int {
    -|b.items|
  }

  /** `sorted(buckets, key=len, reverse=True)` and `Counter.most_common()`:
      largest first, ties in their original order. */
  function Rank<K, T>(bs: seq<Bucket<K, T>>): (r: seq<Bucket<K, T>>)
    ensures |r| == |bs| && multiset(r) == multiset(bs)
    ensures forall i, j :: 0 <= i < j < |r| ==> |r[i].items| >= |r[j].items|
  {
    var r := SortBy(bs, NegSize);
    assert forall i, j :: 0 <= i < j < |r| ==> NegSize(r[i]) <= NegSize(r[j]);
    r
  }

  /** `most_common(n)`: the first `n` buckets of the ranking. */
  function Top<K(!new), T(!new)>(bs: seq<Bucket<K, T>>, n: nat): (r: seq<Bucket<K, T>>)
    ensures |r| == if n < |bs| then n else |bs|
    ensures r == Rank(bs)[..|r|]
    ensures forall b :: b in r ==> b in bs
  {
    var ranked := Rank(bs);
    var r := if n < |ranked| then ranked[..n] else ranked;
    assert forall b :: b in r ==> b in multiset(ranked);
    r
  }

  /** Nothing left out of `most_common(n)` is larger than what it lists. */
  lemma TopDominates<K(!new), T(!new)>(bs: seq<Bucket<K, T>>, n: nat, i: nat, j: nat)
    requires i < |Top(bs, n)| <= j < |bs|
    ensures |Top(bs, n)[i].items| >= |Rank(bs)[j].items|
  {
  }

  /** Equal-sized buckets keep their order in the ranking. */
  lemma RankIsStable<K, T>(bs: seq<Bucket<K, T>>, size: int)
    ensures FilterKey(Rank(bs), NegSize, -size) == FilterKey(bs, NegSize, -size)
  {
    SortByIsStable(bs, NegSize, -size);
  }

  lemma {:induction false} NoRepeatCount<T>(s: seq<T>, x: T)
    requires forall i, j :: 0 <= i < j < |s| ==> s[i] != s[j]
    ensures multiset(s)[x] <= 1
    decreases |s|
  {
    if s != [] {
      var init := s[..|s| - 1];
      assert s == init + [s[|s| - 1]];
      NoRepeatCount(init, x);
      if x == s[|s| - 1] {
        assert x !in init;
      }
    }
  }

  /** An element counted once cannot sit at two positions. */
  lemma CountOneNoRepeat<T>(s: seq<T>, i: nat, j: nat)
    requires i < j < |s| && multiset(s)[s[i]] <= 1
    ensures s[i] != s[j]
  {
    assert s == s[..j] + [s[j]] + s[j + 1..];
    assert s[i] in s[..j];
    assert multiset(s)[s[i]] == multiset(s[..j])[s[i]] + multiset([s[j]])[s[i]] + multiset(s[j + 1..])[s[i]];
    assert multiset([s[j]])[s[i]] == 0;
  }

  /** Each bucket of a ranked grouping holds exactly the elements with its
      key, and none is empty. */
  lemma RankedItems<K(!new), T(!new)>(xs: seq<T>, f: T -> K)
    ensures var r := Rank(GroupBy(xs, f));
            forall i :: 0 <= i < |r| ==> r[i].items == FilterKey(xs, f, r[i].key) && r[i].items != []
  {
    var bs := GroupBy(xs, f);
    var r := Rank(bs);
    forall i | 0 <= i < |r| ensures r[i].items == FilterKey(xs, f, r[i].key) && r[i].items != [] {
      assert r[i] in multiset(bs);
      var p :| 0 <= p < |bs| && bs[p] == r[i];
      GroupByAt(xs, f, p);
    }
  }

  /** One bucket of a grouping: its items are the elements with its key. */
  lemma GroupByAt<K(!new), T(!new)>(xs: seq<T>, f: T -> K, p: nat)
    requires p < |GroupBy(xs, f)|
    ensures GroupBy(xs, f)[p].items == FilterKey(xs, f, GroupBy(xs, f)[p].key)
    ensures GroupBy(xs, f)[p].items != []
  {
    var bs := GroupBy(xs, f);
    GroupByItems(xs, f);
    GroupByNonEmpty(xs, f);
    assert bs[p] in bs;
  }

  /** One ranked bucket: its items are the elements with its key. */
  lemma RankedItemsAt<K(!new), T(!new)>(xs: seq<T>, f: T -> K, i: nat)
    requires i < |Rank(GroupBy(xs, f))|
    ensures Rank(GroupBy(xs, f))[i].items == FilterKey(xs, f, Rank(GroupBy(xs, f))[i].key)
    ensures Rank(GroupBy(xs, f))[i].items != []
  {
    RankedItems(xs, f);
  }

  /** One ranked bucket is not empty. */
  lemma RankedNonEmptyAt<K(!new), T(!new)>(xs: seq<T>, f: T -> K, i: nat)
    requires i < |Rank(GroupBy(xs, f))|
    ensures Rank(GroupBy(xs, f))[i].items != []
  {
    RankedNonEmpty(xs, f);
    assert Rank(GroupBy(xs, f))[i] in Rank(GroupBy(xs, f));
  }

  /** Two ranked buckets have different keys. */
  lemma RankedKeysDifferAt<K(!new), T(!new)>(xs: seq<T>, f: T -> K, i: nat, j: nat)
    requires i < j < |Rank(GroupBy(xs, f))|
    ensures Rank(GroupBy(xs, f))[i].key != Rank(GroupBy(xs, f))[j].key
  {
    RankedKeysDistinct(xs, f);
  }

  /** No ranked bucket is empty. */
  lemma RankedNonEmpty<K(!new), T(!new)>(xs: seq<T>, f: T -> K)
    ensures forall b :: b in Rank(GroupBy(xs, f)) ==> b.items != []
  {
    GroupByNonEmpty(xs, f);
    forall b | b in Rank(GroupBy(xs, f)) ensures b.items != [] {
      assert b in multiset(GroupBy(xs, f));
    }
  }

  /** No key is ranked twice. */
  lemma RankedKeysDistinct<K(!new), T(!new)>(xs: seq<T>, f: T -> K)
    ensures DistinctKeys(Rank(GroupBy(xs, f)))
  {
    var bs := GroupBy(xs, f);
    var r := Rank(bs);
    RankedItems(xs, f);
    assert forall a, b :: 0 <= a < b < |bs| ==> bs[a] != bs[b];
    forall i, j | 0 <= i < j < |r| ensures r[i].key != r[j].key {
      NoRepeatCount(bs, r[i]);
      CountOneNoRepeat(r, i, j);
    }
  }

  /** Every element's key is ranked. */
  lemma RankedCovers<K(!new), T(!new)>(xs: seq<T>, f: T -> K, n: nat)
    requires n < |xs|
    ensures exists i :: 0 <= i < |Rank(GroupBy(xs, f))| && Rank(GroupBy(xs, f))[i].key == f(xs[n])
  {
    var bs := GroupBy(xs, f);
    var p := KeyIsGrouped(xs, f, n);
    var q := Relocate(bs, Rank(bs), p);
  }

  /** Where the bucket of the `n`-th element sits in the grouping. */
  lemma KeyIsGrouped<K(!new), T>(xs: seq<T>, f: T -> K, n: nat) returns (p: nat)
    requires n < |xs|
    ensures p < |GroupBy(xs, f)| && GroupBy(xs, f)[p].key == f(xs[n])
  {
    var bs := GroupBy(xs, f);
    GroupByKeys(xs, f);
    assert Map(xs, f)[n] == f(xs[n]);
    assert f(xs[n]) in Keys(bs);
    p :| 0 <= p < |bs| && Keys(bs)[p] == f(xs[n]);
  }

  /** Where an element of `a` sits in a reordering `b` of it. */
  lemma Relocate<T>(a: seq<T>, b: seq<T>, p: nat) returns (q: nat)
    requires multiset(a) == multiset(b) && p < |a|
    ensures q < |b| && b[q] == a[p]
  {
    assert a[p] in multiset(b);
    q :| 0 <= q < |b| && b[q] == a[p];
  }

  /** Some element means some bucket. */
  lemma RankedSomeWhenAny<K, T>(xs: seq<T>, f: T -> K)
    requires xs != []
    ensures Rank(GroupBy(xs, f)) != []
  {
    RankedTotal(xs, f);
  }

  /** A ranked grouping files every element exactly once. */
  lemma RankedTotal<K, T>(xs: seq<T>, f: T -> K)
    ensures TotalItems(Rank(GroupBy(xs, f))) == |xs|
  {
    GroupByFilesEverything(xs, f);
    TotalItemsPermutation(Rank(GroupBy(xs, f)), GroupBy(xs, f));
  }
}

=== FILE: patterns.dfy ===
/** The three regular expressions of triage_toolkit/parser.py that split a
    plain-text log line, each as a scanner with a declarative statement of what
    Python's backtracking matcher returns.

      timestamp: ^(\d{4}-\d{2}-\d{2}[T ][0-9:.]{8,}Z?)\s+(.*)$
      level:     ^(?:\[([A-Z]+)\]|([A-Z]+))\s+(.*)$
      component: ^([A-Za-z0-9_.-]+):\s*(.*)$

    Each is a head followed by a tail `\s+(.*)$` or `\s*(.*)$`.  In every head
    the repeated class cannot contain the character that follows it, so at
    most one head length can be followed by the tail; among the ways to match
    the tail, Python keeps the longest whitespace run and then the longest
    capture. */
module Patterns {
  import opened Wrappers
  import opened Text

  // ---------------------------------------------------------------------------
  // The tail `\s+(.*)$` / `\s*(.*)$`

  /** The tail can match from `k` with the whitespace run ending at `q` and the
      capture `s[q..e]`: `.` excludes a line feed, and `$` holds at the end of
      the string or just before a final line feed. */
  predicate TailAt(s: string, k: int, q: int, e: int, atLeastOne: bool) {
    && 0 <= k <= q <= e <= |s|
    && (atLeastOne ==> k < q)
    && (forall p :: k <= p < q ==> IsSpace(s[p]))
    && (forall p :: q <= p < e ==> s[p] != '\n')
    && (e == |s| || (e == |s| - 1 && s[e] == '\n'))
  }

  /** The capture Python returns for the tail at `k`. */
  function MatchTail(s: string, k: nat, atLeastOne: bool): (r: Option<string>)
    requires k <= |s|
    ensures r.None? <==> forall q, e :: !TailAt(s, k, q, e, atLeastOne)
    ensures r.Some? ==> exists q, e :: && TailAt(s, k, q, e, atLeastOne)
                                       && r.value == s[q..e]
                                       && forall q', e' :: TailAt(s, k, q', e', atLeastOne) ==> q' < q || (q' == q && e' <= e)
  {
    var q := RunEnd(s, k, IsSpace);
    var e := if q < |s| && s[|s| - 1] == '\n' then |s| - 1 else |s|;
    assert q <= e;
    if atLeastOne && q == k then
      assert forall q', e' :: !TailAt(s, k, q', e', atLeastOne) by {
        forall q', e' | TailAt(s, k, q', e', atLeastOne) ensures false {
        }
      }
      None
    else if exists p :: q <= p < e && s[p] == '\n' then
      var p :| q <= p < e && s[p] == '\n';
      assert forall q', e' :: !TailAt(s, k, q', e', atLeastOne) by {
        forall q', e' | TailAt(s, k, q', e', atLeastOne) ensures false {
        }
      }
      None
    else
      assert TailAt(s, k, q, e, atLeastOne);
      assert forall q', e' :: TailAt(s, k, q', e', atLeastOne) ==> q' < q || (q' == q && e' <= e) by {
        forall q', e' | TailAt(s, k, q', e', atLeastOne)
          ensures q' < q || (q' == q && e' <= e)
        {
          RunEndMaximal(s, k, IsSpace, q');
        }
      }
      Some(s[q..e])
  }

  // ---------------------------------------------------------------------------
  // Timestamp prefix

  predicate IsClockChar(c: char) {
    IsDigit(c) || c == ':' || c == '.'
  }

  /** `\d{4}-\d{2}-\d{2}[T ]` at the start of `s`. */
  predicate DatePrefix(s: string) {
    && |s| >= 11
    && IsDigit(s[0]) && IsDigit(s[1]) && IsDigit(s[2]) && IsDigit(s[3]) && s[4] == '-'
    && IsDigit(s[5]) && IsDigit(s[6]) && s[7] == '-'
    && IsDigit(s[8]) && IsDigit(s[9]) && (s[10] == 'T' || s[10] == ' ')
  }

  /** `ts` belongs to `\d{4}-\d{2}-\d{2}[T ][0-9:.]{8,}Z?`. */
  predicate StampShape(ts: string) {
    var z := if ts != [] && ts[|ts| - 1] == 'Z' then 1 else 0;
    && |ts| >= 19 + z
    && DatePrefix(ts)
    && (forall p :: 11 <= p < |ts| - z ==> IsClockChar(ts[p]))
  }

  /** The timestamp pattern can match `s` with `ts = s[..n]` and `rest = s[q..e]`. */
  predicate TextMatch(s: string, n: int, q: int, e: int) {
    0 <= n <= |s| && StampShape(s[..n]) && TailAt(s, n, q, e, true)
  }

  /** A timestamp head followed by whitespace ends where the clock run (and
      an optional `Z`) ends. */
  lemma StampHeadEnds(s: string, n: nat)
    requires n < |s| && IsSpace(s[n]) && StampShape(s[..n])
    ensures var j := RunEnd(s, 11, IsClockChar);
            j - 11 >= 8 && n == (if j < |s| && s[j] == 'Z' then j + 1 else j)
  {
    var ts := s[..n];
    var z := if ts[|ts| - 1] == 'Z' then 1 else 0;
    forall p | 11 <= p < n - z ensures IsClockChar(s[p]) {
      assert s[p] == ts[p];
    }
    RunEndMaximal(s, 11, IsClockChar, n - z);
  }

  /** A date followed by at least eight clock characters, then a `Z`, has
      the timestamp shape. */
  lemma ZuluClockIsStamp(s: string, j: nat)
    requires DatePrefix(s) && 19 <= j < |s| && s[j] == 'Z'
    requires forall p :: 11 <= p < j ==> IsClockChar(s[p])
    ensures StampShape(s[..j + 1])
  {
    var ts := s[..j + 1];
    assert ts[j] == 'Z';
    forall p | 11 <= p < j ensures IsClockChar(ts[p]) {
      assert ts[p] == s[p];
    }
  }

  /** A date followed by at least eight clock characters has the timestamp
      shape. */
  lemma PlainClockIsStamp(s: string, j: nat)
    requires DatePrefix(s) && 19 <= j <= |s|
    requires forall p :: 11 <= p < j ==> IsClockChar(s[p])
    ensures StampShape(s[..j])
  {
    var ts := s[..j];
    assert ts[j - 1] == s[j - 1] && IsClockChar(s[j - 1]);
    forall p | 11 <= p < j ensures IsClockChar(ts[p]) {
      assert ts[p] == s[p];
    }
  }

  /** The only end a timestamp head followed by whitespace can have. */
  function StampEnd(s: string): (r: Option<nat>)
    ensures r.Some? ==> r.value <= |s| && StampShape(s[..r.value])
    ensures forall n :: 0 <= n < |s| && IsSpace(s[n]) && StampShape(s[..n]) ==> r == Some(n)
  {
    if !DatePrefix(s) then
      assert forall n :: 0 <= n < |s| && StampShape(s[..n]) ==> false by {
        forall n | 0 <= n < |s| && StampShape(s[..n]) ensures false {
        }
      }
      None
    else
      var j := RunEnd(s, 11, IsClockChar);
      var n := if j < |s| && s[j] == 'Z' then j + 1 else j;
      assert forall n' :: 0 <= n' < |s| && IsSpace(s[n']) && StampShape(s[..n']) ==> j - 11 >= 8 && n' == n by {
        forall n' | 0 <= n' < |s| && IsSpace(s[n']) && StampShape(s[..n'])
          ensures j - 11 >= 8 && n' == n
        {
          StampHeadEnds(s, n');
        }
      }
      if j - 11 < 8 then
        None
      else
        if n == j + 1 then
          ZuluClockIsStamp(s, j);
          Some(n)
        else
          PlainClockIsStamp(s, j);
          Some(n)
  }

  /** A timestamp match is a tail match after the one possible head end. */
  lemma TextMatchAtStampEnd(s: string)
    ensures forall n, q, e :: TextMatch(s, n, q, e) <==>
              StampEnd(s).Some? && n == StampEnd(s).value && TailAt(s, n, q, e, true)
  {
  }

  /** `_TEXT_TS_RE.match(s)`: the `ts` and `rest` groups. */
  function MatchTextLine(s: string): (r: Option<(string, string)>)
    ensures r.None? <==> forall n, q, e :: !TextMatch(s, n, q, e)
    ensures r.Some? ==> exists n, q, e :: && TextMatch(s, n, q, e)
                                          && r.value == (s[..n], s[q..e])
                                          && forall n', q', e' :: TextMatch(s, n', q', e') ==> n' == n && (q' < q || (q' == q && e' <= e))
  {
    TextMatchAtStampEnd(s);
    match StampEnd(s)
    case None => None
    case Some(n) =>
      match MatchTail(s, n, true)
      case None => None
      case Some(rest) => Some((s[..n], rest))
  }

  /** A text line whose clock digits run into a `+HH:MM` or `-HH:MM` offset
      never matches: the head must be followed by whitespace. */
  lemma OffsetNeverMatches(s: string, j: nat)
    requires DatePrefix(s) && 11 <= j < |s|
    requires forall p :: 11 <= p < j ==> IsClockChar(s[p])
    requires s[j] == '+' || s[j] == '-'
    ensures MatchTextLine(s).None?
  {
    RunEndMaximal(s, 11, IsClockChar, j);
    assert RunEnd(s, 11, IsClockChar) == j;
    assert RunEnd(s, j, IsSpace) == j;
  }

  // ---------------------------------------------------------------------------
  // Level prefix

  predicate AllUpper(s: string) {
    forall p :: 0 <= p < |s| ==> IsUpper(s[p])
  }

  /** `s[..n]` is `[LEVEL]` or `LEVEL` with `tok` the upper-case letters. */
  predicate LevelHead(s: string, n: int, tok: string) {
    && 0 < n <= |s|
    && tok != [] && AllUpper(tok)
    && (|| (s[0] == '[' && n >= 3 && s[n - 1] == ']' && tok == s[1..n - 1])
        || tok == s[..n])
  }

  /** The level pattern can match `s` with level `tok` and `rest = s[q..e]`. */
  predicate LevelMatch(s: string, n: int, tok: string, q: int, e: int) {
    LevelHead(s, n, tok) && TailAt(s, n, q, e, true)
  }

  /** A bracketed level head followed by whitespace closes where the run of
      capitals ends. */
  lemma BracketLevelEnds(s: string, n: nat, tok: string)
    requires s != [] && s[0] == '['
    requires LevelHead(s, n, tok) && n < |s| && IsSpace(s[n])
    ensures var j := RunEnd(s, 1, IsUpper); n == j + 1 && tok == s[1..j]
  {
    assert !IsUpper(s[0]);
    assert tok == s[1..n - 1];
    forall p | 1 <= p < n - 1 ensures IsUpper(s[p]) { assert s[p] == tok[p - 1]; }
    RunEndMaximal(s, 1, IsUpper, n - 1);
  }

  /** A bare level head followed by whitespace is the run of capitals. */
  lemma BareLevelEnds(s: string, n: nat, tok: string)
    requires s != [] && s[0] != '['
    requires LevelHead(s, n, tok) && n < |s| && IsSpace(s[n])
    ensures var j := RunEnd(s, 0, IsUpper); n == j && tok == s[..j]
  {
    assert tok == s[..n];
    forall p | 0 <= p < n ensures IsUpper(s[p]) { assert s[p] == tok[p]; }
    RunEndMaximal(s, 0, IsUpper, n);
  }

  /** The only (end, token) a level head followed by whitespace can have. */
  function LevelEnd(s: string): (r: Option<(nat, string)>)
    ensures r.Some? ==> r.value.0 <= |s| && LevelHead(s, r.value.0, r.value.1)
    ensures forall n, tok :: LevelHead(s, n, tok) && n < |s| && IsSpace(s[n]) ==> r == Some((n, tok))
  {
    if s == [] then None
    else if s[0] == '[' then
      var j := RunEnd(s, 1, IsUpper);
      assert forall n, tok :: LevelHead(s, n, tok) && n < |s| && IsSpace(s[n]) ==> n == j + 1 && tok == s[1..j] by {
        forall n, tok | LevelHead(s, n, tok) && n < |s| && IsSpace(s[n]) ensures n == j + 1 && tok == s[1..j] {
          BracketLevelEnds(s, n, tok);
        }
      }
      if j > 1 && j < |s| && s[j] == ']' then
        assert forall p :: 0 <= p < |s[1..j]| ==> s[1..j][p] == s[p + 1];
        Some((j + 1, s[1..j]))
      else None
    else
      var j := RunEnd(s, 0, IsUpper);
      assert forall n, tok :: LevelHead(s, n, tok) && n < |s| && IsSpace(s[n]) ==> n == j && tok == s[..j] by {
        forall n, tok | LevelHead(s, n, tok) && n < |s| && IsSpace(s[n]) ensures n == j && tok == s[..j] {
          BareLevelEnds(s, n, tok);
        }
      }
      if j > 0 then
        assert forall p :: 0 <= p < j ==> s[..j][p] == s[p];
        Some((j, s[..j]))
      else None
  }

  /** A level match is a tail match after the one possible head. */
  lemma LevelMatchAtLevelEnd(s: string)
    ensures forall n, tok, q, e :: LevelMatch(s, n, tok, q, e) <==>
              LevelEnd(s).Some? && n == LevelEnd(s).value.0 && tok == LevelEnd(s).value.1 && TailAt(s, n, q, e, true)
  {
  }

  /** The match Python picks once the head has ended at `n`. */
  lemma LevelMatchChosen(s: string, n: nat, tok: string, rest: string)
    requires LevelEnd(s) == Some((n, tok))
    requires n <= |s| && MatchTail(s, n, true) == Some(rest)
    ensures exists q, e :: && LevelMatch(s, n, tok, q, e) && rest == s[q..e]
                           && forall n', tok', q', e' :: LevelMatch(s, n', tok', q', e') ==>
                                n' == n && tok' == tok && (q' < q || (q' == q && e' <= e))
  {
    LevelMatchAtLevelEnd(s);
    var q, e :| && TailAt(s, n, q, e, true) && rest == s[q..e]
                && forall q', e' :: TailAt(s, n, q', e', true) ==> q' < q || (q' == q && e' <= e);
    assert LevelMatch(s, n, tok, q, e);
  }

  /** `_LEVEL_RE.match(s)`: the level token (whichever alternative matched)
      and the `rest` group. */
  function MatchLevel(s: string): (r: Option<(string, string)>)
    ensures r.None? <==> forall n, tok, q, e :: !LevelMatch(s, n, tok, q, e)
    ensures r.Some? ==> exists n, q, e :: && LevelMatch(s, n, r.value.0, q, e)
                                          && r.value.1 == s[q..e]
                                          && forall n', tok', q', e' :: LevelMatch(s, n', tok', q', e') ==>
                                               n' == n && tok' == r.value.0 && (q' < q || (q' == q && e' <= e))
  {
    LevelMatchAtLevelEnd(s);
    match LevelEnd(s)
    case None => None
    case Some((n, tok)) =>
      match MatchTail(s, n, true)
      case None => None
      case Some(rest) =>
        LevelMatchChosen(s, n, tok, rest);
        Some((tok, rest))
  }

  // ---------------------------------------------------------------------------
  // Component prefix

  predicate IsComponentChar(c: char) {
    'A' <= c <= 'Z' || 'a' <= c <= 'z' || '0' <= c <= '9' || c == '_' || c == '.' || c == '-'
  }

  /** The component pattern can match `s` with component `s[..n]` and message
      `s[q..e]`. */
  predicate ComponentMatch(s: string, n: int, q: int, e: int) {
    && 0 < n < |s|
    && (forall p :: 0 <= p < n ==> IsComponentChar(s[p]))
    && s[n] == ':'
    && TailAt(s, n + 1, q, e, false)
  }

  /** The only length a component head followed by `:` can have. */
  function ComponentEnd(s: string): (r: Option<nat>)
    ensures r.Some? ==> 0 < r.value < |s| && s[r.value] == ':'
                        && forall p :: 0 <= p < r.value ==> IsComponentChar(s[p])
    ensures forall n :: 0 < n < |s| && s[n] == ':' && (forall p :: 0 <= p < n ==> IsComponentChar(s[p])) ==> r == Some(n)
  {
    var j := RunEnd(s, 0, IsComponentChar);
    assert forall n :: 0 < n < |s| && s[n] == ':' && (forall p :: 0 <= p < n ==> IsComponentChar(s[p])) ==> n == j by {
      forall n | 0 < n < |s| && s[n] == ':' && (forall p :: 0 <= p < n ==> IsComponentChar(s[p])) ensures n == j {
        RunEndMaximal(s, 0, IsComponentChar, n);
      }
    }
    if j > 0 && j < |s| && s[j] == ':' then Some(j) else None
  }

  /** A component match is a tail match after the one possible head. */
  lemma ComponentMatchAtComponentEnd(s: string)
    ensures forall n, q, e :: ComponentMatch(s, n, q, e) <==>
              ComponentEnd(s).Some? && n == ComponentEnd(s).value && TailAt(s, n + 1, q, e, false)
  {
  }

  /** The match Python picks once the head has ended at `n`. */
  lemma ComponentMatchChosen(s: string, n: nat, message: string)
    requires ComponentEnd(s) == Some(n)
    requires MatchTail(s, n + 1, false) == Some(message)
    ensures exists q, e :: && ComponentMatch(s, n, q, e) && (s[..n], message) == (s[..n], s[q..e])
                           && forall n', q', e' :: ComponentMatch(s, n', q', e') ==> n' == n && (q' < q || (q' == q && e' <= e))
  {
    ComponentMatchAtComponentEnd(s);
    var k := n + 1;
    var q, e :| && TailAt(s, k, q, e, false) && message == s[q..e]
                && forall q', e' :: TailAt(s, k, q', e', false) ==> q' < q || (q' == q && e' <= e);
    assert ComponentMatch(s, n, q, e);
  }

  /** `_COMPONENT_RE.match(s)`: the `component` and `message` groups. */
  function MatchComponent(s: string): (r: Option<(string, string)>)
    ensures r.None? <==> forall n, q, e :: !ComponentMatch(s, n, q, e)
    ensures r.Some? ==> exists n, q, e :: && ComponentMatch(s, n, q, e)
                                          && r.value == (s[..n], s[q..e])
                                          && forall n', q', e' :: ComponentMatch(s, n', q', e') ==> n' == n && (q' < q || (q' == q && e' <= e))
  {
    ComponentMatchAtComponentEnd(s);
    match ComponentEnd(s)
    case None => None
    case Some(n) =>
      var k := n + 1;
      match MatchTail(s, k, false)
      case None => None
      case Some(message) =>
        ComponentMatchChosen(s, n, message);
        Some((s[..n], message))
  }

  /** A matched component is a non-empty prefix of component characters. */
  lemma MatchComponentHead(s: string)
    requires MatchComponent(s).Some?
    ensures var c := MatchComponent(s).value.0;
            && c != [] && |c| < |s| && c == s[..|c|]
            && forall p :: 0 <= p < |c| ==> IsComponentChar(c[p])
  {
    var n, q, e :| && ComponentMatch(s, n, q, e)
                   && MatchComponent(s).value == (s[..n], s[q..e])
                   && forall n', q', e' :: ComponentMatch(s, n', q', e') ==> n' == n && (q' < q || (q' == q && e' <= e));
    assert forall p :: 0 <= p < n ==> s[..n][p] == s[p];
  }
}

=== FILE: runbook.dfy ===
/** `build_runbook` of triage_toolkit/runbook.py: a Markdown runbook whose
    Symptoms section is drawn from the events and whose other sections are
    fixed. */
module Runbook {
  import opened Text
  import opened Timestamps
  import opened Events
  import opened Ordering
  import opened Signatures
  import opened Timeline

  const TopComponentLimit: nat := 3

  /** `[component for component, _ in Counter(...).most_common(3)]`. */
  function TopComponents(errors: seq<LogEvent>): (r: seq<string>)
    ensures |r| <= TopComponentLimit
    ensures |r| == |Top(GroupBy(errors, ComponentOf), TopComponentLimit)|
    ensures forall i :: 0 <= i < |r| ==> r[i] == ComponentRanking(errors)[i].key
  {
    Keys(Top(GroupBy(errors, ComponentOf), TopComponentLimit))
  }

  /** The runbook names the same components, in the same order, as the
      first three suspects of the timeline. */
  lemma TopComponentsAreLeadingSuspects(errors: seq<LogEvent>)
    ensures |TopComponents(errors)| == if |Suspects(errors)| < 3 then |Suspects(errors)| else 3
    ensures forall i :: 0 <= i < |TopComponents(errors)| ==> TopComponents(errors)[i] == Suspects(errors)[i].component
  {
  }

  /** There are suspected components exactly when there are errors. */
  lemma TopComponentsWhenErrors(errors: seq<LogEvent>)
    ensures TopComponents(errors) == [] <==> errors == []
  {
    if errors != [] {
      RankedSomeWhenAny(errors, ComponentOf);
    }
  }

  function FirstObserved(ordered: seq<LogEvent>): seq<string> {
    if ordered != [] then ["- First observed: `" + IsoFormat(ordered[0].timestamp) + "`"] else []
  }

  function ErrorCountLine(errors: seq<LogEvent>, total: nat): seq<string> {
    if errors != [] then ["- Error events: " + NatToString(|errors|) + " of " + NatToString(total) + " total"] else []
  }

  function SuspectedLine(top: seq<string>): seq<string> {
    if top != [] then ["- Suspected components: " + Join(top, ", ")] else []
  }

  function NoEventsLine(events: seq<LogEvent>): seq<string> {
    if events == [] then ["- No events parsed from input."] else []
  }

  /** The bullet points of the Symptoms section. */
  function Symptoms(events: seq<LogEvent>): seq<string> {
    var ordered := Chronological(events);
    var errors := ErrorsOf(ordered);
    FirstObserved(ordered) + ErrorCountLine(errors, |events|) + SuspectedLine(TopComponents(errors))
    + NoEventsLine(events)
  }

  /** With no events the Symptoms section is the placeholder alone. */
  lemma SymptomsWithoutEvents()
    ensures Symptoms([]) == ["- No events parsed from input."]
  {
    assert Chronological([]) == [];
    assert ErrorsOf([]) == [];
    TopComponentsWhenErrors([]);
  }

  /** Otherwise it opens with the first observed timestamp, T0. */
  lemma SymptomsFirstObserved(events: seq<LogEvent>)
    requires events != []
    ensures Symptoms(events)[0] == "- First observed: `" + IsoFormat(Chronological(events)[0].timestamp) + "`"
    ensures |Symptoms(events)| == 1 + |ErrorCountLine(ErrorsOf(Chronological(events)), |events|)|
                                    + |SuspectedLine(TopComponents(ErrorsOf(Chronological(events))))|
  {
    var ordered := Chronological(events);
    var errors := ErrorsOf(ordered);
    var a := FirstObserved(ordered);
    var b := ErrorCountLine(errors, |events|);
    var c := SuspectedLine(TopComponents(errors));
    assert Symptoms(events) == a + b + c + NoEventsLine(events);
    assert NoEventsLine(events) == [] && |a| == 1;
    HeadOfParts(a, b, c, []);
  }

  /** The head and length of a four-part concatenation whose last part is empty. */
  lemma HeadOfParts<T>(a: seq<T>, b: seq<T>, c: seq<T>, d: seq<T>)
    requires |a| == 1 && d == []
    ensures (a + b + c + d)[0] == a[0]
    ensures |a + b + c + d| == 1 + |b| + |c|
  {
  }

  /** With errors it then gives their count against the total and the top
      components; without errors it says nothing more. */
  lemma SymptomsErrors(events: seq<LogEvent>)
    requires events != []
    ensures var errors := ErrorsOf(Chronological(events));
            && |Symptoms(events)| == (if errors == [] then 1 else 3)
            && (errors != [] ==>
                  && Symptoms(events)[1] == "- Error events: " + NatToString(|errors|) + " of " + NatToString(|events|) + " total"
                  && Symptoms(events)[2] == "- Suspected components: " + Join(TopComponents(errors), ", "))
  {
    var ordered := Chronological(events);
    var errors := ErrorsOf(ordered);
    SymptomsFirstObserved(events);
    TopComponentsWhenErrors(errors);
    var a := FirstObserved(ordered);
    var b := ErrorCountLine(errors, |events|);
    var c := SuspectedLine(TopComponents(errors));
    if errors != [] {
      assert Symptoms(events) == a + b + c + NoEventsLine(events);
      assert NoEventsLine(events) == [];
      SingleParts(a, b, c, []);
    }
  }

  /** The elements of a concatenation of three singletons and an empty part. */
  lemma SingleParts<T>(a: seq<T>, b: seq<T>, c: seq<T>, d: seq<T>)
    requires |a| == 1 && |b| == 1 && |c| == 1 && d == []
    ensures |a + b + c + d| == 3 && (a + b + c + d)[1] == b[0] && (a + b + c + d)[2] == c[0]
  {
  }

  /** The error count is the number of error events in the input, whatever
      their order. */
  lemma ErrorCountOrderFree(events: seq<LogEvent>)
    ensures |ErrorsOf(Chronological(events))| == |FilterKey(events, IsError, true)|
    ensures |ErrorsOf(Chronological(events))| <= |events|
  {
    FilterKeyPermutation(Chronological(events), events, IsError, true);
  }

  /** The sections after Symptoms, which do not depend on the events. */
  const Procedure: seq<string> := [
    "",
    "## Checks",
    "- Review recent deployments or config changes for suspected components.",
    "- Validate health endpoints and dependency connectivity.",
    "- Inspect logs for correlation IDs tied to failures.",
    "",
    "## Workaround",
    "- Reduce traffic or disable the failing feature if possible.",
    "- Roll back or restart the affected service to restore stability.",
    "",
    "## Fix/Escalation",
    "- Identify the root cause from error signatures and stack traces.",
    "- Escalate to the owning team with a timeline and sample logs.",
    "",
    "## Verification",
    "- Confirm error rate returns to baseline.",
    "- Re-run critical user flows and verify healthy responses.",
    "",
    "## Notes",
    "- Add incident-specific observations, links, and decisions here."
  ]

  /** The lines of the runbook, before they are joined. */
  function RunbookLines(events: seq<LogEvent>, title: string): seq<string> {
    ["# " + title, "", "## Symptoms"] + Symptoms(events) + Procedure
  }

  lemma ConcatThree<T>(a: seq<T>, b: seq<T>, c: seq<T>)
    ensures var s := a + b + c;
            && |s| == |a| + |b| + |c|
            && s[..|a|] == a && s[|a|..|a| + |b|] == b && s[|a| + |b|..] == c
  {
  }

  /** Every runbook opens with its title and the Symptoms heading, lists
      the symptoms, and ends with the same five fixed sections. */
  lemma RunbookLayout(events: seq<LogEvent>, title: string)
    ensures var lines := RunbookLines(events, title);
            var n := |Symptoms(events)|;
            && |lines| == 3 + n + 20
            && lines[..3] == ["# " + title, "", "## Symptoms"]
            && lines[3..3 + n] == Symptoms(events)
            && lines[3 + n..] == Procedure
  {
    ConcatThree(["# " + title, "", "## Symptoms"], Symptoms(events), Procedure);
  }

  lemma ProcedureHeadings()
    ensures |Procedure| == 20
    ensures Procedure[1] == "## Checks" && Procedure[6] == "## Workaround" && Procedure[10] == "## Fix/Escalation"
    ensures Procedure[14] == "## Verification" && Procedure[18] == "## Notes"
  {
  }

  /** The five headings after Symptoms, counted from the end. */
  lemma RunbookHeadings(events: seq<LogEvent>, title: string)
    ensures var lines := RunbookLines(events, title);
            && lines[|lines| - 19] == "## Checks"
            && lines[|lines| - 14] == "## Workaround"
            && lines[|lines| - 10] == "## Fix/Escalation"
            && lines[|lines| - 6] == "## Verification"
            && lines[|lines| - 2] == "## Notes"
  {
    RunbookLayout(events, title);
    var lines := RunbookLines(events, title);
    var n := |lines| - 20;
    ProcedureHeadings();
    assert lines[n..] == Procedure;
    assert lines[n + 1] == Procedure[1] && lines[n + 6] == Procedure[6] && lines[n + 10] == Procedure[10];
    assert lines[n + 14] == Procedure[14] && lines[n + 18] == Procedure[18];
  }

  /** `build_runbook(events, title)`. */
  function BuildRunbook(events: seq<LogEvent>, title: string): (doc: string)
    ensures doc != [] && doc[|doc| - 1] == '\n'
  {
    Join(RunbookLines(events, title), "\n") + "\n"
  }
}

=== FILE: signatures.dfy ===
/** Error classification and message signatures (`is_error`,
    `_normalize_message` and `_escape_markdown` of triage_toolkit/timeline.py). */
module Signatures {
  import opened Text
  import opened Correlation
  import opened Events

  const ErrorLevels: set<string> := {"ERROR", "CRITICAL", "FATAL"}

  /** `is_error(event)`: an error level, whatever its case, or the word
      `error` anywhere in the message, whatever its case. */
  function IsError(e: LogEvent): (b: bool)
    ensures b <==> Upper(e.level) in ErrorLevels || Contains(Lower(e.message), "error")
  {
    Upper(e.level) in ErrorLevels || HasInfix(Lower(e.message), "error")
  }

  /** The case of the level and of the message never matters. */
  lemma IsErrorIgnoresCase(e: LogEvent)
    ensures IsError(e.(level := Lower(e.level))) == IsError(e)
    ensures IsError(e.(message := Upper(e.message))) == IsError(e)
  {
    LowerForgetsCase(e.level);
    LowerForgetsCase(e.message);
  }

  /** `error` inside any word of the message is enough. */
  lemma ErrorWordMakesError(e: LogEvent, i: nat)
    requires InfixAt(Lower(e.message), "error", i)
    ensures IsError(e)
  {
  }

  // ---------------------------------------------------------------------------
  // Signatures

  const IdPlaceholder: string := "cid=<id>"

  /** `_CORR_RE.sub("cid=<id>", text)` from index `i`: each correlation
      marker with its token, found left to right, becomes the placeholder. */
  function ScrubIds(s: string, i: nat): (r: string)
    requires i <= |s|
    ensures (forall k :: i <= k <= |s| ==> !MatchesAt(s, k)) ==> r == s[i..]
    decreases |s| - i
  {
    if i == |s| then []
    else match MatchAt(s, i)
      case Some((_, e)) => IdPlaceholder + ScrubIds(s, e)
      case None =>
        var r := [s[i]] + ScrubIds(s, i + 1);
        assert s[i..] == [s[i]] + s[i + 1..];
        r
  }

  /** Scrubbing copies characters or writes the lower-case placeholder. */
  lemma {:induction false} ScrubIdsNoUpper(s: string, i: nat)
    requires i <= |s|
    requires forall k :: i <= k < |s| ==> !IsUpper(s[k])
    ensures forall k :: 0 <= k < |ScrubIds(s, i)| ==> !IsUpper(ScrubIds(s, i)[k])
    decreases |s| - i
  {
    if i < |s| {
      match MatchAt(s, i)
      case Some((_, e)) =>
        ScrubIdsNoUpper(s, e);
        assert NoUpper(IdPlaceholder);
        NoUpperAppend(IdPlaceholder, ScrubIds(s, e));
        assert ScrubIds(s, i) == IdPlaceholder + ScrubIds(s, e);
      case None =>
        ScrubIdsNoUpper(s, i + 1);
        NoUpperAppend([s[i]], ScrubIds(s, i + 1));
        assert ScrubIds(s, i) == [s[i]] + ScrubIds(s, i + 1);
    }
  }

  predicate NoUpper(s: string) {
    forall k :: 0 <= k < |s| ==> !IsUpper(s[k])
  }

  lemma NoUpperAppend(a: string, b: string)
    requires NoUpper(a) && NoUpper(b)
    ensures NoUpper(a + b)
  {
    assert forall k :: |a| <= k < |a + b| ==> (a + b)[k] == b[k - |a|];
  }

  /** `_DIGIT_RE.sub("#", text)`: each maximal run of digits becomes `#`. */
  function CollapseDigits(s: string): (r: string)
    ensures forall k :: 0 <= k < |r| ==> !IsDigit(r[k])
    ensures (forall k :: 0 <= k < |s| ==> !IsDigit(s[k])) ==> r == s
  {
    if s == [] then []
    else if IsDigit(s[0]) then "#" + CollapseDigits(s[RunEnd(s, 0, IsDigit)..])
    else
      assert s == [s[0]] + s[1..];
      [s[0]] + CollapseDigits(s[1..])
  }

  lemma {:induction false} CollapseDigitsNoUpper(s: string)
    requires NoUpper(s)
    ensures NoUpper(CollapseDigits(s))
    decreases |s|
  {
    if s != [] {
      if IsDigit(s[0]) {
        var j := RunEnd(s, 0, IsDigit);
        CollapseDigitsNoUpper(s[j..]);
        NoUpperAppend("#", CollapseDigits(s[j..]));
      } else {
        CollapseDigitsNoUpper(s[1..]);
        NoUpperAppend([s[0]], CollapseDigits(s[1..]));
      }
    }
  }

  /** `_normalize_message(message)`: the signature errors are grouped by. */
  function Normalize(message: string): string {
    CollapseDigits(ScrubIds(Strip(Lower(message)), 0))
  }

  lemma StripNoUpper(s: string)
    requires NoUpper(s)
    ensures NoUpper(Strip(s))
  {
    var ls := LStrip(s);
    assert NoUpper(ls) by {
      assert forall k :: 0 <= k < |ls| ==> ls[k] == s[|s| - |ls| + k];
    }
    assert Strip(s) == RStrip(ls);
    assert forall k :: 0 <= k < |RStrip(ls)| ==> RStrip(ls)[k] == ls[k];
  }

  /** A signature has neither upper-case letters nor digits. */
  lemma NormalizeShape(message: string)
    ensures NoUpper(Normalize(message))
    ensures forall k :: 0 <= k < |Normalize(message)| ==> !IsDigit(Normalize(message)[k])
  {
    var text := Strip(Lower(message));
    StripNoUpper(Lower(message));
    ScrubIdsNoUpper(text, 0);
    CollapseDigitsNoUpper(ScrubIds(text, 0));
  }

  /** Neither end is whitespace. */
  predicate Trimmed(s: string) {
    s == [] || (!IsSpace(s[0]) && !IsSpace(s[|s| - 1]))
  }

  /** Scrubbing starts with the placeholder or the first character. */
  lemma ScrubIdsFirst(s: string, i: nat)
    requires i < |s|
    ensures ScrubIds(s, i) != [] && (ScrubIds(s, i)[0] == 'c' || ScrubIds(s, i)[0] == s[i])
  {
  }

  /** Scrubbing ends with the placeholder or the last character. */
  lemma {:induction false} ScrubIdsLast(s: string, i: nat)
    requires i < |s|
    ensures var r := ScrubIds(s, i); r != [] && (r[|r| - 1] == '>' || r[|r| - 1] == s[|s| - 1])
    decreases |s| - i
  {
    match MatchAt(s, i)
    case Some((_, e)) =>
      var rest := ScrubIds(s, e);
      assert ScrubIds(s, i) == IdPlaceholder + rest;
      if e < |s| {
        ScrubIdsLast(s, e);
      } else {
        assert rest == [];
      }
      assert IdPlaceholder[|IdPlaceholder| - 1] == '>';
      LastOfAppend(IdPlaceholder, rest);
    case None =>
      var rest := ScrubIds(s, i + 1);
      assert ScrubIds(s, i) == [s[i]] + rest;
      if i + 1 < |s| {
        ScrubIdsLast(s, i + 1);
      } else {
        assert rest == [];
      }
      LastOfAppend([s[i]], rest);
  }

  /** The last element of a concatenation with a non-empty first part. */
  lemma LastOfAppend<T>(a: seq<T>, b: seq<T>)
    requires a != []
    ensures a + b != [] && (a + b)[|a + b| - 1] == if b != [] then b[|b| - 1] else a[|a| - 1]
  {
  }

  /** Collapsing digits ends with `#` or the last character. */
  lemma {:induction false} CollapseDigitsLast(s: string)
    requires s != []
    ensures var r := CollapseDigits(s); r != [] && (r[|r| - 1] == '#' || r[|r| - 1] == s[|s| - 1])
    decreases |s|
  {
    if IsDigit(s[0]) {
      var j := RunEnd(s, 0, IsDigit);
      var rest := CollapseDigits(s[j..]);
      assert CollapseDigits(s) == "#" + rest;
      if j < |s| {
        CollapseDigitsLast(s[j..]);
        assert s[j..][|s[j..]| - 1] == s[|s| - 1];
      } else {
        assert rest == [];
      }
      LastOfAppend("#", rest);
    } else {
      var rest := CollapseDigits(s[1..]);
      assert CollapseDigits(s) == [s[0]] + rest;
      if |s| > 1 {
        CollapseDigitsLast(s[1..]);
        assert s[1..][|s[1..]| - 1] == s[|s| - 1];
      } else {
        assert rest == [];
      }
      LastOfAppend([s[0]], rest);
    }
  }

  /** A signature is trimmed: the message is stripped first, and neither
      substitution writes whitespace at either end. */
  lemma NormalizeTrimmed(message: string)
    ensures Trimmed(Normalize(message))
  {
    var text := Strip(Lower(message));
    assert Normalize(message) == CollapseDigits(ScrubIds(text, 0));
    if text != [] {
      assert Trimmed(text);
      SubstitutionsKeepTrimmed(text);
    } else {
      assert ScrubIds(text, 0) == [];
      assert CollapseDigits([]) == [];
    }
  }

  lemma SubstitutionsKeepTrimmed(text: string)
    requires text != [] && Trimmed(text)
    ensures Trimmed(CollapseDigits(ScrubIds(text, 0)))
  {
    ScrubKeepsTrimmed(text);
    CollapseKeepsTrimmed(ScrubIds(text, 0));
  }

  lemma ScrubKeepsTrimmed(text: string)
    requires text != [] && Trimmed(text)
    ensures ScrubIds(text, 0) != [] && Trimmed(ScrubIds(text, 0))
  {
    ScrubIdsFirst(text, 0);
    ScrubIdsLast(text, 0);
  }

  lemma CollapseKeepsTrimmed(s: string)
    requires s != [] && Trimmed(s)
    ensures Trimmed(CollapseDigits(s))
  {
    CollapseDigitsFirst(s);
    CollapseDigitsLast(s);
  }

  /** Collapsing digits starts with `#` or the first character. */
  lemma CollapseDigitsFirst(s: string)
    requires s != []
    ensures var r := CollapseDigits(s); r != [] && (r[0] == '#' || r[0] == s[0])
  {
  }

  /** Messages that differ only in letter case share a signature. */
  lemma NormalizeIgnoresCase(message: string)
    ensures Normalize(Upper(message)) == Normalize(message)
  {
    LowerForgetsCase(message);
  }

  /** Whitespace around a message does not change its signature. */
  lemma NormalizeIgnoresPadding(a: string, message: string, b: string)
    requires AllSpace(a) && AllSpace(b)
    ensures Normalize(a + message + b) == Normalize(message)
  {
    LowerAppend(a + message, b);
    LowerAppend(a, message);
    LowerKeepsSpace(a);
    LowerKeepsSpace(b);
    StripPadded(Lower(a), Lower(message), Lower(b));
  }

  // ---------------------------------------------------------------------------
  // What the two substitutions do

  /** Up to the first match, scrubbing copies the text unchanged. */
  lemma {:induction false} ScrubIdsCopies(s: string, i: nat, p: nat)
    requires i <= p <= |s|
    requires forall k :: i <= k < p ==> !MatchesAt(s, k)
    ensures ScrubIds(s, i) == s[i..p] + ScrubIds(s, p)
    decreases p - i
  {
    if i < p {
      assert MatchAt(s, i).None?;
      assert ScrubIds(s, i) == [s[i]] + ScrubIds(s, i + 1);
      ScrubIdsCopies(s, i + 1, p);
      SliceCons(s, i, p);
      AppendAssoc([s[i]], s[i + 1..p], ScrubIds(s, p));
    } else {
      assert s[i..p] == [];
    }
  }

  /** The leftmost match is replaced, marker and whole token, by the
      placeholder; the text before it is kept and scrubbing resumes after the
      token. */
  lemma ScrubIdsAtFirstMatch(s: string, i: nat, p: nat)
    requires i <= p <= |s| && MatchesAt(s, p)
    requires forall k :: i <= k < p ==> !MatchesAt(s, k)
    ensures MatchAt(s, p).Some?
    ensures ScrubIds(s, i) == s[i..p] + IdPlaceholder + ScrubIds(s, MatchAt(s, p).value.1)
  {
    ScrubIdsCopies(s, i, p);
  }

  /** The first index in `[a, b)` where a match starts, or `b`. */
  function FirstMatchIn(s: string, a: nat, b: nat): (q: nat)
    requires a <= b <= |s|
    ensures a <= q <= b
    ensures forall k :: a <= k < q ==> !MatchesAt(s, k)
    ensures q < b ==> MatchesAt(s, q)
    decreases b - a
  {
    if a == b || MatchesAt(s, a) then a else FirstMatchIn(s, a + 1, b)
  }

  /** A copied character that starts no match starts none in the output
      either: the shortest output that could hold marker `m` and a token
      character is copied from the input unless a match intervenes, and a
      placeholder's `c` then lands where `m` has no `c`, or right after a
      whole `m`, which the input then matched already. */
  lemma HeadNoMatchWith(s: string, i: nat, m: string)
    requires m == CorrelationMarker || m == CidMarker
    requires i < |s| && !MatchesAt(s, i)
    ensures var r := ScrubIds(s, i); !(MarkerAt(r, 0, m) && |m| < |r| && IsTokenChar(r[|m|]))
  {
    var b := if i + |m| + 1 <= |s| then i + |m| + 1 else |s|;
    var q := FirstMatchIn(s, i, b);
    var r, t := ScrubIds(s, i), ScrubIds(s, q);
    ScrubIdsCopies(s, i, q);
    if q < b {
      ScrubIdsAtFirstMatch(s, q, q);
      assert t[0] == 'c';
    }
    HeadCases(s, i, m, q, r, t);
  }

  /** The cases of `HeadNoMatchWith`, once the output is known to be the
      input up to `q` followed by `t`. */
  lemma HeadCases(s: string, i: nat, m: string, q: nat, r: string, t: string)
    requires m == CorrelationMarker || m == CidMarker
    requires i < q <= |s| && !MatchesAt(s, i)
    requires q <= i + |m| + 1
    requires q < i + |m| + 1 && q < |s| ==> MatchesAt(s, q) && t != [] && t[0] == 'c'
    requires q == |s| ==> t == []
    requires r == s[i..q] + t
    ensures !(MarkerAt(r, 0, m) && |m| < |r| && IsTokenChar(r[|m|]))
  {
    if q < i + |m| + 1 && q < |s| {
      PlaceholderInsideMarker(s, i, q, m, r, t);
    } else if q == i + |m| + 1 {
      CopiedMarker(s, i, m, r, t);
    }
  }

  /** A match at `q`, within a marker's length of `i`, puts the placeholder's
      `c` into the output where marker `m` written at the output's start
      would have no `c`, or right after it. */
  lemma PlaceholderInsideMarker(s: string, i: nat, q: nat, m: string, r: string, t: string)
    requires m == CorrelationMarker || m == CidMarker
    requires i < q <= i + |m| && q < |s| && MatchesAt(s, q) && !MatchesAt(s, i)
    requires t != [] && t[0] == 'c' && r == s[i..q] + t
    ensures !(MarkerAt(r, 0, m) && |m| < |r| && IsTokenChar(r[|m|]))
  {
    assert r[q - i] == 'c';
    MatchStartsWithC(s, q);
    if MarkerAt(r, 0, m) {
      if q - i < |m| {
        MarkerInterior(r, 0, m, q - i);
      } else {
        assert s[i..i + |m|] == r[0..|m|];
      }
    }
  }

  /** Output whose first `|m| + 1` characters are copied from the input holds
      `m` and a token character there only if the input does. */
  lemma CopiedMarker(s: string, i: nat, m: string, r: string, t: string)
    requires m == CorrelationMarker || m == CidMarker
    requires i + |m| + 1 <= |s| && !MatchesAt(s, i)
    requires r == s[i..i + |m| + 1] + t
    ensures !(MarkerAt(r, 0, m) && |m| < |r| && IsTokenChar(r[|m|]))
  {
    if MarkerAt(r, 0, m) {
      assert s[i..i + |m|] == r[0..|m|] && s[i + |m|] == r[|m|];
    }
  }

  /** The placeholder starts no match: it ends its marker with `<`, and holds
      no other `c`. */
  lemma PlaceholderNoMatch(rest: string, k: nat)
    requires k < |IdPlaceholder|
    ensures !MatchesAt(IdPlaceholder + rest, k)
  {
    var r := IdPlaceholder + rest;
    MatchStartsWithC(r, k);
    MarkerSecondChar(r, 0);
    assert r[1] == 'i' && r[4] == '<';
  }

  /** No match starts anywhere in `r`. */
  predicate NoMatchIn(r: string) {
    forall k :: 0 <= k <= |r| ==> !MatchesAt(r, k)
  }

  /** Scrubbing leaves nothing to scrub: no match starts anywhere in its
      output. */
  lemma {:induction false} ScrubIdsLeavesNoMatch(s: string, i: nat)
    requires i <= |s|
    ensures forall k :: 0 <= k <= |ScrubIds(s, i)| ==> !MatchesAt(ScrubIds(s, i), k)
    decreases |s| - i
  {
    if i < |s| {
      match MatchAt(s, i)
      case Some((_, e)) =>
        ScrubIdsLeavesNoMatch(s, e);
        PlaceholderThenNoMatch(ScrubIds(s, e));
      case None =>
        ScrubIdsLeavesNoMatch(s, i + 1);
        HeadNoMatchWith(s, i, CorrelationMarker);
        HeadNoMatchWith(s, i, CidMarker);
        HeadThenNoMatch(s[i], ScrubIds(s, i + 1));
    }
  }

  /** The placeholder in front of text without matches adds none. */
  lemma PlaceholderThenNoMatch(rest: string)
    requires NoMatchIn(rest)
    ensures NoMatchIn(IdPlaceholder + rest)
  {
    var r := IdPlaceholder + rest;
    forall k | 0 <= k <= |r| ensures !MatchesAt(r, k) {
      if k < |IdPlaceholder| {
        PlaceholderNoMatch(rest, k);
      } else {
        MatchesAtShift(IdPlaceholder, rest, k - |IdPlaceholder|);
      }
    }
  }

  /** A character that starts no match, in front of text without matches,
      adds none. */
  lemma HeadThenNoMatch(c: char, rest: string)
    requires !MatchesAt([c] + rest, 0) && NoMatchIn(rest)
    ensures NoMatchIn([c] + rest)
  {
    var r := [c] + rest;
    forall k | 1 <= k <= |r| ensures !MatchesAt(r, k) {
      MatchesAtShift([c], rest, k - 1);
    }
  }

  /** So no correlation id survives normalisation's scrubbing. */
  lemma ScrubbedHasNoId(s: string)
    ensures ExtractCorrelationId(ScrubIds(s, 0)).None?
  {
    ScrubIdsLeavesNoMatch(s, 0);
  }

  /** A run of `p` characters that ends inside `s` ends there whatever follows. */
  lemma {:induction false} RunEndPrefix(s: string, t: string, i: nat, p: char -> bool)
    requires i <= |s| && RunEnd(s, i, p) < |s|
    ensures RunEnd(s + t, i, p) == RunEnd(s, i, p)
    decreases |s| - i
  {
    assert (s + t)[i] == s[i];
    if p(s[i]) {
      RunEndPrefix(s, t, i + 1, p);
    }
  }

  /** The digits a run must stand between. */
  predicate RunBounds(a: string, d: string, b: string) {
    && d != [] && (forall k :: 0 <= k < |d| ==> IsDigit(d[k]))
    && (a == [] || !IsDigit(a[|a| - 1]))
    && (b == [] || !IsDigit(b[0]))
  }

  /** A whole run of digits becomes one `#`, and the text around it is
      collapsed on its own. */
  lemma {:induction false} CollapseDigitsRun(a: string, d: string, b: string)
    requires d != [] && forall k :: 0 <= k < |d| ==> IsDigit(d[k])
    requires a == [] || !IsDigit(a[|a| - 1])
    requires b == [] || !IsDigit(b[0])
    ensures CollapseDigits(a + d + b) == CollapseDigits(a) + "#" + CollapseDigits(b)
    decreases |a|, 1
  {
    if a == [] {
      LeadingRun(d, b);
      assert a + d + b == d + b;
    } else if IsDigit(a[0]) {
      RunAfterDigits(a, d, b);
    } else {
      RunAfterChar(a, d, b);
    }
  }

  lemma LeadingRun(d: string, b: string)
    requires RunBounds([], d, b)
    ensures CollapseDigits(d + b) == "#" + CollapseDigits(b)
  {
    var s := d + b;
    RunEndMaximal(s, 0, IsDigit, |d|);
    assert RunEnd(s, 0, IsDigit) == |d| by {
      if b != [] {
        assert s[|d|] == b[0];
      }
    }
    assert s[|d|..] == b;
  }

  lemma {:induction false} RunAfterDigits(a: string, d: string, b: string)
    requires RunBounds(a, d, b) && a != [] && IsDigit(a[0])
    ensures CollapseDigits(a + d + b) == CollapseDigits(a) + "#" + CollapseDigits(b)
    decreases |a|, 0
  {
    var s := a + d + b;
    var j := RunEnd(a, 0, IsDigit);
    assert j < |a|;
    RunEndPrefix(a, d + b, 0, IsDigit);
    AppendAssoc(a, d, b);
    assert s[j..] == a[j..] + d + b;
    CollapseDigitsRun(a[j..], d, b);
    var x, y := CollapseDigits(a[j..]), CollapseDigits(b);
    assert CollapseDigits(s) == "#" + ((x + "#") + y);
    assert CollapseDigits(a) == "#" + x;
    PrependRegroup("#", x, y);
  }

  lemma {:induction false} RunAfterChar(a: string, d: string, b: string)
    requires RunBounds(a, d, b) && a != [] && !IsDigit(a[0])
    ensures CollapseDigits(a + d + b) == CollapseDigits(a) + "#" + CollapseDigits(b)
    decreases |a|, 0
  {
    var s := a + d + b;
    assert s[1..] == a[1..] + d + b;
    CollapseDigitsRun(a[1..], d, b);
    var x, y := CollapseDigits(a[1..]), CollapseDigits(b);
    assert CollapseDigits(s) == [a[0]] + ((x + "#") + y);
    assert CollapseDigits(a) == [a[0]] + x;
    PrependRegroup([a[0]], x, y);
  }

  lemma PrependRegroup(h: string, x: string, y: string)
    ensures h + ((x + "#") + y) == ((h + x) + "#") + y
  {
  }

  // ---------------------------------------------------------------------------
  // Messages that differ only in their digits

  /** `a` and `b` agree except that a digit may stand for another digit. */
  predicate DigitEquiv(a: string, b: string) {
    |a| == |b| && forall k :: 0 <= k < |a| ==> a[k] == b[k] || (IsDigit(a[k]) && IsDigit(b[k]))
  }

  lemma {:induction false} RunEndDigitEquiv(a: string, b: string, i: nat, p: char -> bool)
    requires DigitEquiv(a, b) && i <= |a|
    requires forall c :: IsDigit(c) ==> p(c)
    ensures RunEnd(a, i, p) == RunEnd(b, i, p)
    decreases |a| - i
  {
    if i < |a| {
      RunEndDigitEquiv(a, b, i + 1, p);
    }
  }

  lemma {:induction false} CollapseDigitsEquiv(a: string, b: string)
    requires DigitEquiv(a, b)
    ensures CollapseDigits(a) == CollapseDigits(b)
    decreases |a|
  {
    if a != [] {
      if IsDigit(a[0]) {
        RunEndDigitEquiv(a, b, 0, IsDigit);
        var j := RunEnd(a, 0, IsDigit);
        CollapseDigitsEquiv(a[j..], b[j..]);
      } else {
        CollapseDigitsEquiv(a[1..], b[1..]);
      }
    }
  }

  /** A marker has no digits, so it is found at the same places. */
  lemma MarkerAtDigitEquiv(a: string, b: string, i: nat, m: string)
    requires DigitEquiv(a, b) && i <= |a|
    requires forall k :: 0 <= k < |m| ==> !IsDigit(m[k])
    ensures MarkerAt(a, i, m) <==> MarkerAt(b, i, m)
  {
    if i + |m| <= |a| {
      if MarkerAt(a, i, m) {
        forall k | 0 <= k < |m| ensures b[i + k] == m[k] {
          assert a[i..i + |m|][k] == a[i + k];
        }
        assert b[i..i + |m|] == m;
      }
      if MarkerAt(b, i, m) {
        forall k | 0 <= k < |m| ensures a[i + k] == m[k] {
          assert b[i..i + |m|][k] == b[i + k];
        }
        assert a[i..i + |m|] == m;
      }
    }
  }

  lemma MatchAtDigitEquiv(a: string, b: string, i: nat)
    requires DigitEquiv(a, b) && i <= |a|
    ensures MatchAt(a, i) == MatchAt(b, i)
  {
    MarkerAtDigitEquiv(a, b, i, CorrelationMarker);
    MarkerAtDigitEquiv(a, b, i, CidMarker);
    if MatchAt(a, i).Some? || MatchAt(b, i).Some? {
      var j := TokenStart(a, i);
      assert j == TokenStart(b, i);
      RunEndDigitEquiv(a, b, j, IsTokenChar);
    }
  }

  lemma DigitEquivAppend(a: string, b: string, a': string, b': string)
    requires DigitEquiv(a, a') && DigitEquiv(b, b')
    ensures DigitEquiv(a + b, a' + b')
  {
    forall k | 0 <= k < |a + b|
      ensures (a + b)[k] == (a' + b')[k] || (IsDigit((a + b)[k]) && IsDigit((a' + b')[k]))
    {
      if k >= |a| {
        assert (a + b)[k] == b[k - |a|] && (a' + b')[k] == b'[k - |a|];
      }
    }
  }

  lemma {:induction false} ScrubIdsDigitEquiv(a: string, b: string, i: nat)
    requires DigitEquiv(a, b) && i <= |a|
    ensures DigitEquiv(ScrubIds(a, i), ScrubIds(b, i))
    decreases |a| - i
  {
    if i < |a| {
      MatchAtDigitEquiv(a, b, i);
      var m := MatchAt(a, i);
      if m.Some? {
        var e := m.value.1;
        assert ScrubIds(a, i) == IdPlaceholder + ScrubIds(a, e);
        assert ScrubIds(b, i) == IdPlaceholder + ScrubIds(b, e);
        ScrubIdsDigitEquiv(a, b, e);
        DigitEquivAppend(IdPlaceholder, ScrubIds(a, e), IdPlaceholder, ScrubIds(b, e));
      } else {
        assert ScrubIds(a, i) == [a[i]] + ScrubIds(a, i + 1);
        assert ScrubIds(b, i) == [b[i]] + ScrubIds(b, i + 1);
        ScrubIdsDigitEquiv(a, b, i + 1);
        DigitEquivAppend([a[i]], ScrubIds(a, i + 1), [b[i]], ScrubIds(b, i + 1));
      }
    }
  }

  lemma {:induction false} StripDigitEquiv(a: string, b: string)
    requires DigitEquiv(a, b)
    ensures DigitEquiv(Strip(a), Strip(b))
  {
    LStripDigitEquiv(a, b);
    RStripDigitEquiv(LStrip(a), LStrip(b));
  }

  lemma {:induction false} LStripDigitEquiv(a: string, b: string)
    requires DigitEquiv(a, b)
    ensures DigitEquiv(LStrip(a), LStrip(b))
    decreases |a|
  {
    if a != [] && IsSpace(a[0]) {
      assert IsSpace(b[0]);
      DigitEquivSlice(a, b, 1, |a|);
      LStripDigitEquiv(a[1..], b[1..]);
      assert LStrip(a) == LStrip(a[1..]) && LStrip(b) == LStrip(b[1..]);
    } else {
      assert b == [] || !IsSpace(b[0]);
      assert LStrip(a) == a && LStrip(b) == b;
    }
  }

  lemma DigitEquivSlice(a: string, b: string, i: nat, j: nat)
    requires DigitEquiv(a, b) && i <= j <= |a|
    ensures DigitEquiv(a[i..j], b[i..j])
  {
    forall k | 0 <= k < j - i ensures a[i..j][k] == a[i + k] && b[i..j][k] == b[i + k] {
    }
  }

  lemma {:induction false} RStripDigitEquiv(a: string, b: string)
    requires DigitEquiv(a, b)
    ensures DigitEquiv(RStrip(a), RStrip(b))
    decreases |a|
  {
    if a != [] && IsSpace(a[|a| - 1]) {
      assert IsSpace(b[|b| - 1]);
      DigitEquivSlice(a, b, 0, |a| - 1);
      assert a[..|a| - 1] == a[0..|a| - 1] && b[..|b| - 1] == b[0..|b| - 1];
      RStripDigitEquiv(a[..|a| - 1], b[..|b| - 1]);
      assert RStrip(a) == RStrip(a[..|a| - 1]) && RStrip(b) == RStrip(b[..|b| - 1]);
    } else {
      assert b == [] || !IsSpace(b[|b| - 1]);
      assert RStrip(a) == a && RStrip(b) == b;
    }
  }

  /** Messages that differ only in their numbers share a signature. */
  lemma NormalizeIgnoresDigits(a: string, b: string)
    requires DigitEquiv(a, b)
    ensures Normalize(a) == Normalize(b)
  {
    assert DigitEquiv(Lower(a), Lower(b));
    StripDigitEquiv(Lower(a), Lower(b));
    ScrubIdsDigitEquiv(Strip(Lower(a)), Strip(Lower(b)), 0);
    CollapseDigitsEquiv(ScrubIds(Strip(Lower(a)), 0), ScrubIds(Strip(Lower(b)), 0));
  }

  // ---------------------------------------------------------------------------
  // Table cells

  /** `text.replace("|", "\\|")`. */
  function Escape(text: string): (r: string)
    ensures forall k :: 0 <= k < |r| && r[k] == '|' ==> k > 0 && r[k - 1] == '\\'
    ensures r == [] || r[0] != '|'
    ensures (forall k :: 0 <= k < |text| ==> text[k] != '\n') ==> forall k :: 0 <= k < |r| ==> r[k] != '\n'
  {
    if text == [] then []
    else
      var rest := Escape(text[1..]);
      var head := if text[0] == '|' then "\\|" else [text[0]];
      var r := head + rest;
      assert forall k :: |head| <= k < |r| ==> r[k] == rest[k - |head|];
      r
  }

  /** Reads an escaped cell back: `\|` is a pipe, anything else itself. */
  function Unescape(s: string): string {
    if s == [] then []
    else if |s| >= 2 && s[0] == '\\' && s[1] == '|' then "|" + Unescape(s[2..])
    else [s[0]] + Unescape(s[1..])
  }

  /** Escaping loses nothing. */
  lemma {:induction false} EscapeRoundTrip(text: string)
    ensures Unescape(Escape(text)) == text
  {
    if text != [] {
      EscapeRoundTrip(text[1..]);
      var rest := Escape(text[1..]);
      if text[0] == '|' {
        assert Escape(text) == "\\|" + rest;
        assert ("\\|" + rest)[2..] == rest;
      } else {
        assert Escape(text) == [text[0]] + rest;
        assert ([text[0]] + rest)[1..] == rest;
      }
    }
  }

  /** `message.replace("\n", " ")`. */
  function FlattenLines(message: string): (r: string)
    ensures |r| == |message|
    ensures forall k :: 0 <= k < |r| ==> r[k] != '\n' && (message[k] != '\n' ==> r[k] == message[k])
  {
    seq(|message|, k requires 0 <= k < |message| => if message[k] == '\n' then ' ' else message[k])
  }
}

=== FILE: summary.dfy ===
/** Parsing many lines and summarising the outcome
    (`parse_lines_with_summary` and `_build_parse_summary` of
    triage_toolkit/parser.py). */
module Summary {
  import opened Wrappers
  import opened Text
  import opened JsonValues
  import opened Events
  import opened LineParser

  /** The summary dict.  `droppedReasons` holds the (reason, count) entries in
      the order the dict is built: sorted by reason name. */
  datatype ParseSummary = ParseSummary(
    totalLines: nat,
    parsedLines: nat,
    droppedLines: int,
    dropRatio: real,
    droppedReasons: seq<(string, nat)>)

  // ---------------------------------------------------------------------------
  // Ordering of reason names

  /** Python's `<` on strings: code-point lexicographic order. */
  predicate LexLess(a: string, b: string)
    decreases |a|
  {
    if a == [] then b != []
    else if b == [] then false
    else if a[0] != b[0] then a[0] < b[0]
    else LexLess(a[1..], b[1..])
  }

  /** Strings ordered by their first difference. */
  lemma {:induction false} LexLessAtIndex(a: string, b: string, k: nat)
    requires k < |a| && k < |b| && a[..k] == b[..k] && a[k] < b[k]
    ensures LexLess(a, b)
    decreases k
  {
    if k > 0 {
      assert a[0] == a[..k][0] && b[0] == b[..k][0];
      assert a[1..][..k - 1] == a[..k][1..] && b[1..][..k - 1] == b[..k][1..];
      LexLessAtIndex(a[1..], b[1..], k - 1);
    }
  }

  lemma {:induction false} LexLessTransitive(a: string, b: string, c: string)
    requires LexLess(a, b) && LexLess(b, c)
    ensures LexLess(a, c)
    decreases |a|
  {
    if a != [] && b != [] && c != [] && a[0] == b[0] && b[0] == c[0] {
      LexLessTransitive(a[1..], b[1..], c[1..]);
    }
  }

  lemma {:induction false} LexLessIrreflexive(a: string)
    ensures !LexLess(a, a)
    decreases |a|
  {
    if a != [] {
      LexLessIrreflexive(a[1..]);
    }
  }

  /** Names ascending pair by pair are ascending throughout. */
  lemma {:induction false} ChainAscending(n: seq<string>, i: nat, j: nat)
    requires forall k :: 0 <= k < |n| - 1 ==> LexLess(n[k], n[k + 1])
    requires i < j < |n|
    ensures LexLess(n[i], n[j])
    decreases j - i
  {
    if i + 1 < j {
      ChainAscending(n, i + 1, j);
      LexLessTransitive(n[i], n[i + 1], n[j]);
    }
  }

  /** Every reason, in ascending order of name: the order `sorted()` puts
      the Counter's keys in. */
  const ReasonsByName: seq<Reason> :=
    [BlankLine, InvalidJson, InvalidTimestamp, JsonNotObject, MissingTimestamp, Unknown, UnrecognizedText]

  function ReasonNames(): (n: seq<string>)
    ensures |n| == |ReasonsByName| && forall i :: 0 <= i < |n| ==> n[i] == ReasonsByName[i].Name()
  {
    seq(|ReasonsByName|, i requires 0 <= i < |ReasonsByName| => ReasonsByName[i].Name())
  }

  lemma ReasonsByNameComplete()
    ensures forall r: Reason :: r in ReasonsByName
  {
    forall r: Reason ensures r in ReasonsByName {
      match r
      case BlankLine => assert ReasonsByName[0] == r;
      case InvalidJson => assert ReasonsByName[1] == r;
      case InvalidTimestamp => assert ReasonsByName[2] == r;
      case JsonNotObject => assert ReasonsByName[3] == r;
      case MissingTimestamp => assert ReasonsByName[4] == r;
      case Unknown => assert ReasonsByName[5] == r;
      case UnrecognizedText => assert ReasonsByName[6] == r;
    }
  }

  lemma ReasonsByNameDistinct()
    ensures forall i, j :: 0 <= i < j < |ReasonsByName| ==> ReasonsByName[i] != ReasonsByName[j]
  {
    ReasonsByNameAscending();
    forall i, j | 0 <= i < j < |ReasonsByName| ensures ReasonsByName[i] != ReasonsByName[j] {
      LexLessIrreflexive(ReasonsByName[i].Name());
    }
  }

  lemma ReasonsByNameAscending()
    ensures NamesAscending(ReasonsByName)
  {
    var n := ReasonNames();
    LexLessAtIndex(n[0], n[1], 0);
    assert n[1][..8] == n[2][..8] by { assert n[1][..8] == "invalid_" == n[2][..8]; }
    LexLessAtIndex(n[1], n[2], 8);
    LexLessAtIndex(n[2], n[3], 0);
    LexLessAtIndex(n[3], n[4], 0);
    LexLessAtIndex(n[4], n[5], 0);
    assert n[5][..2] == n[6][..2] by { assert n[5][..2] == "un" == n[6][..2]; }
    LexLessAtIndex(n[5], n[6], 2);
    forall i, j | 0 <= i < j < |n| ensures LexLess(n[i], n[j]) {
      ChainAscending(n, i, j);
    }
  }

  // ---------------------------------------------------------------------------
  // Building the summary

  /** The keys of the Counter, in the order of `order`. */
  function KeysInOrder(counts: map<Reason, nat>, order: seq<Reason>): (r: seq<Reason>)
    ensures forall x :: x in r <==> x in order && x in counts
  {
    if order == [] then []
    else if order[0] in counts then [order[0]] + KeysInOrder(counts, order[1..])
    else KeysInOrder(counts, order[1..])
  }

  /** Reasons listed in strictly ascending order of name. */
  predicate NamesAscending(rs: seq<Reason>) {
    forall i, j :: 0 <= i < j < |rs| ==> LexLess(rs[i].Name(), rs[j].Name())
  }

  /** Keys taken in an ascending order of names stay ascending. */
  lemma {:induction false} KeysAscending(counts: map<Reason, nat>, order: seq<Reason>)
    requires NamesAscending(order)
    ensures NamesAscending(KeysInOrder(counts, order))
    decreases |order|
  {
    if order != [] {
      var tail := order[1..];
      TailAscending(order);
      KeysAscending(counts, tail);
      var rest := KeysInOrder(counts, tail);
      if order[0] in counts {
        forall j | 0 <= j < |rest| ensures LexLess(order[0].Name(), rest[j].Name()) {
          HeadBelowTail(order, rest[j]);
        }
        AscendingCons(order[0], rest);
      }
    }
  }

  lemma TailAscending(order: seq<Reason>)
    requires order != [] && NamesAscending(order)
    ensures NamesAscending(order[1..])
  {
    var tail := order[1..];
    forall i, j | 0 <= i < j < |tail| ensures LexLess(tail[i].Name(), tail[j].Name()) {
      assert tail[i] == order[i + 1] && tail[j] == order[j + 1];
    }
  }

  /** In an ascending list the head's name is below every later name. */
  lemma HeadBelowTail(order: seq<Reason>, y: Reason)
    requires order != [] && NamesAscending(order) && y in order[1..]
    ensures LexLess(order[0].Name(), y.Name())
  {
    var k :| 0 <= k < |order[1..]| && order[1..][k] == y;
    assert order[k + 1] == y;
  }

  /** A name below every name of an ascending list extends it at the front. */
  lemma AscendingCons(x: Reason, rest: seq<Reason>)
    requires NamesAscending(rest)
    requires forall j :: 0 <= j < |rest| ==> LexLess(x.Name(), rest[j].Name())
    ensures NamesAscending([x] + rest)
  {
    var r := [x] + rest;
    forall i, j | 0 <= i < j < |r| ensures LexLess(r[i].Name(), r[j].Name()) {
      assert r[j] == rest[j - 1];
      if i > 0 { assert r[i] == rest[i - 1]; }
    }
  }

  /** `e` is a Counter entry: some reason's name with its count. */
  ghost predicate EntryOf(counts: map<Reason, nat>, e: (string, nat)) {
    exists x :: x in counts && e == (x.Name(), counts[x])
  }

  /** `{reason: counter[reason] for reason in sorted(counter)}`. */
  function SortedCounts(counts: map<Reason, nat>): (r: seq<(string, nat)>)
    ensures forall i, j :: 0 <= i < j < |r| ==> LexLess(r[i].0, r[j].0)
    ensures forall x :: x in counts ==> (x.Name(), counts[x]) in r
    ensures forall i :: 0 <= i < |r| ==> EntryOf(counts, r[i])
  {
    var keys := KeysInOrder(counts, ReasonsByName);
    ReasonsByNameComplete();
    ReasonsByNameAscending();
    KeysAscending(counts, ReasonsByName);
    var entries := seq(|keys|, i requires 0 <= i < |keys| => (keys[i].Name(), counts[keys[i]]));
    assert forall x :: x in counts ==> (x.Name(), counts[x]) in entries by {
      forall x | x in counts ensures (x.Name(), counts[x]) in entries {
        var i :| 0 <= i < |keys| && keys[i] == x;
        assert entries[i] == (x.Name(), counts[x]);
      }
    }
    assert forall i :: 0 <= i < |entries| ==> EntryOf(counts, entries[i]) by {
      forall i | 0 <= i < |entries| ensures EntryOf(counts, entries[i]) {
        assert keys[i] in keys;
        assert keys[i] in counts && entries[i] == (keys[i].Name(), counts[keys[i]]);
      }
    }
    entries
  }

  /** `_build_parse_summary(total_lines=..., parsed_lines=..., dropped_reasons=...)`. */
  function BuildParseSummary(total: nat, parsed: nat, counts: map<Reason, nat>): (s: ParseSummary)
    ensures s.totalLines == total && s.parsedLines == parsed
    ensures s.parsedLines + s.droppedLines == s.totalLines
    ensures total == 0 ==> s.dropRatio == 0.0
    ensures total > 0 ==> s.dropRatio * (total as real) == s.droppedLines as real
    ensures s.droppedReasons == SortedCounts(counts)
  {
    var dropped := total - parsed;
    ParseSummary(total, parsed, dropped, if total == 0 then 0.0 else dropped as real / total as real, SortedCounts(counts))
  }

  // ---------------------------------------------------------------------------
  // Reference definitions over a sequence of lines

  /** The events of the lines that parse, in input order. */
  function ParsedEvents(host: Host, lines: seq<string>): seq<LogEvent> {
    if lines == [] then []
    else
      var prefix := ParsedEvents(host, lines[..|lines| - 1]);
      match ParseLine(host, lines[|lines| - 1])
      case Parsed(e) => prefix + [e]
      case Dropped(_) => prefix
  }

  lemma {:induction false} ParsedEventsBound(host: Host, lines: seq<string>)
    ensures |ParsedEvents(host, lines)| <= |lines|
    decreases |lines|
  {
    if lines != [] {
      ParsedEventsBound(host, lines[..|lines| - 1]);
    }
  }

  /** How many lines are dropped for reason `r`. */
  function Tally(host: Host, lines: seq<string>, r: Reason): nat {
    if lines == [] then 0
    else Tally(host, lines[..|lines| - 1], r) + (if ParseLine(host, lines[|lines| - 1]) == Dropped(r) then 1 else 0)
  }

  /** The Counter: reason to number of lines dropped for it, reasons that
      never occur absent. */
  function DropCounts(host: Host, lines: seq<string>): (m: map<Reason, nat>)
    ensures forall r :: r in m <==> Tally(host, lines, r) > 0
    ensures forall r :: r in m ==> m[r] == Tally(host, lines, r)
  {
    if lines == [] then map[]
    else Bump(DropCounts(host, lines[..|lines| - 1]), ParseLine(host, lines[|lines| - 1]))
  }

  /** `dropped_reasons[reason] += 1` for a dropped line; a parsed line leaves
      the counter alone. */
  function Bump(m: map<Reason, nat>, outcome: LineResult): (r: map<Reason, nat>)
    ensures outcome.Parsed? ==> r == m
    ensures outcome.Dropped? ==> r.Keys == m.Keys + {outcome.reason}
    ensures outcome.Dropped? ==> r[outcome.reason] == (if outcome.reason in m then m[outcome.reason] else 0) + 1
    ensures forall k :: k in m && (outcome.Parsed? || k != outcome.reason) ==> r[k] == m[k]
  {
    match outcome
    case Parsed(_) => m
    case Dropped(reason) => m[reason := (if reason in m then m[reason] else 0) + 1]
  }

  /** Total of the tallies over a list of reasons. */
  function TallySum(host: Host, lines: seq<string>, reasons: seq<Reason>): nat {
    if reasons == [] then 0 else Tally(host, lines, reasons[0]) + TallySum(host, lines, reasons[1..])
  }

  lemma {:induction false} TallySumEmpty(host: Host, reasons: seq<Reason>)
    ensures TallySum(host, [], reasons) == 0
    decreases |reasons|
  {
    if reasons != [] {
      TallySumEmpty(host, reasons[1..]);
    }
  }

  /** A single line adds one to the tally of its reason and nothing else. */
  lemma {:induction false} TallySumStep(host: Host, lines: seq<string>, reasons: seq<Reason>)
    requires lines != []
    requires forall i, j :: 0 <= i < j < |reasons| ==> reasons[i] != reasons[j]
    ensures var last := ParseLine(host, lines[|lines| - 1]);
            TallySum(host, lines, reasons) ==
              TallySum(host, lines[..|lines| - 1], reasons) + (if last.Dropped? && last.reason in reasons then 1 else 0)
    decreases |reasons|
  {
    if reasons != [] {
      TallySumStep(host, lines, reasons[1..]);
    }
  }

  /** Every line is either parsed or dropped for exactly one reason. */
  lemma {:induction false} EveryLineAccounted(host: Host, lines: seq<string>)
    ensures |ParsedEvents(host, lines)| + TallySum(host, lines, ReasonsByName) == |lines|
    decreases |lines|
  {
    if lines == [] {
      TallySumEmpty(host, ReasonsByName);
    } else {
      EveryLineAccounted(host, lines[..|lines| - 1]);
      ReasonsByNameComplete();
      ReasonsByNameDistinct();
      TallySumStep(host, lines, ReasonsByName);
      var prefix := lines[..|lines| - 1];
      assert |ParsedEvents(host, prefix)| + TallySum(host, prefix, ReasonsByName) == |prefix|;
      match ParseLine(host, lines[|lines| - 1])
      case Parsed(e) =>
        assert ParsedEvents(host, lines) == ParsedEvents(host, prefix) + [e];
        assert TallySum(host, lines, ReasonsByName) == TallySum(host, prefix, ReasonsByName);
      case Dropped(r) =>
        assert r in ReasonsByName;
        assert ParsedEvents(host, lines) == ParsedEvents(host, prefix);
        assert TallySum(host, lines, ReasonsByName) == TallySum(host, prefix, ReasonsByName) + 1;
    }
  }

  /** How many lines are whitespace only. */
  function SpaceOnlyLines(lines: seq<string>): nat {
    if lines == [] then 0
    else SpaceOnlyLines(lines[..|lines| - 1]) + (if AllSpace(lines[|lines| - 1]) then 1 else 0)
  }

  /** The fallback reason is never counted, and blank lines are counted
      exactly when they are whitespace only. */
  lemma {:induction false} TalliesOfSpecialReasons(host: Host, lines: seq<string>)
    ensures Tally(host, lines, Unknown) == 0
    ensures Tally(host, lines, BlankLine) == SpaceOnlyLines(lines)
    decreases |lines|
  {
    if lines != [] {
      TalliesOfSpecialReasons(host, lines[..|lines| - 1]);
    }
  }

  // ---------------------------------------------------------------------------
  // The counts add up

  /** The total of the counts in a list of (reason, count) entries. */
  function SumCounts(es: seq<(string, nat)>): nat {
    if es == [] then 0 else es[0].1 + SumCounts(es[1..])
  }

  /** The total of the Counter's values at `keys`, absent keys counting zero. */
  function SumAt(counts: map<Reason, nat>, keys: seq<Reason>): nat {
    if keys == [] then 0 else (if keys[0] in counts then counts[keys[0]] else 0) + SumAt(counts, keys[1..])
  }

  /** Entries listing the counts of `keys` one by one add up to their sum. */
  lemma {:induction false} SumCountsOfEntries(counts: map<Reason, nat>, keys: seq<Reason>, es: seq<(string, nat)>)
    requires |es| == |keys|
    requires forall i :: 0 <= i < |keys| ==> keys[i] in counts && es[i].1 == counts[keys[i]]
    ensures SumCounts(es) == SumAt(counts, keys)
    decreases |keys|
  {
    if keys != [] {
      SumCountsOfEntries(counts, keys[1..], es[1..]);
    }
  }

  /** Skipping the reasons the Counter lacks loses nothing. */
  lemma {:induction false} SumAtKeysInOrder(counts: map<Reason, nat>, order: seq<Reason>)
    ensures SumAt(counts, KeysInOrder(counts, order)) == SumAt(counts, order)
    decreases |order|
  {
    if order != [] {
      SumAtKeysInOrder(counts, order[1..]);
    }
  }

  /** The sorted entries hold all of the Counter's counts. */
  lemma SortedCountsSum(counts: map<Reason, nat>)
    ensures SumCounts(SortedCounts(counts)) == SumAt(counts, ReasonsByName)
  {
    var keys := KeysInOrder(counts, ReasonsByName);
    var es := SortedCounts(counts);
    assert |es| == |keys| && forall i :: 0 <= i < |keys| ==> es[i].1 == counts[keys[i]];
    assert forall i :: 0 <= i < |keys| ==> keys[i] in counts by {
      forall i | 0 <= i < |keys| ensures keys[i] in counts {
        assert keys[i] in keys;
      }
    }
    SumCountsOfEntries(counts, keys, es);
    SumAtKeysInOrder(counts, ReasonsByName);
  }

  /** Read at any list of reasons, the Counter gives their tallies. */
  lemma {:induction false} SumAtDropCounts(host: Host, lines: seq<string>, reasons: seq<Reason>)
    ensures SumAt(DropCounts(host, lines), reasons) == TallySum(host, lines, reasons)
    decreases |reasons|
  {
    if reasons != [] {
      SumAtDropCounts(host, lines, reasons[1..]);
    }
  }

  /** The per-reason counts of the summary add up to its dropped lines. */
  lemma DroppedReasonsAddUp(host: Host, lines: seq<string>)
    ensures var s := BuildParseSummary(|lines|, |ParsedEvents(host, lines)|, DropCounts(host, lines));
            SumCounts(s.droppedReasons) == s.droppedLines
  {
    SortedCountsSum(DropCounts(host, lines));
    SumAtDropCounts(host, lines, ReasonsByName);
    EveryLineAccounted(host, lines);
  }

  // ---------------------------------------------------------------------------
  // The loop

  /** One more line: its event is appended when it parses. */
  lemma EventsStep(host: Host, lines: seq<string>, i: nat)
    requires i < |lines|
    ensures var outcome := ParseLine(host, lines[i]);
            ParsedEvents(host, lines[..i + 1])
            == if outcome.Parsed? then ParsedEvents(host, lines[..i]) + [outcome.event] else ParsedEvents(host, lines[..i])
  {
    var ys := lines[..i + 1];
    assert ys[..|ys| - 1] == lines[..i] && ys[|ys| - 1] == lines[i];
  }

  /** One more line: its reason is counted when it is dropped. */
  lemma CountsStep(host: Host, lines: seq<string>, i: nat)
    requires i < |lines|
    ensures DropCounts(host, lines[..i + 1]) == Bump(DropCounts(host, lines[..i]), ParseLine(host, lines[i]))
  {
    var ys := lines[..i + 1];
    assert ys[..|ys| - 1] == lines[..i] && ys[|ys| - 1] == lines[i];
  }

  /** `parse_lines_with_summary(lines)`: the events in input order and the
      summary of what was dropped and why. */
  method ParseLinesWithSummary(host: Host, lines: seq<string>) returns (events: seq<LogEvent>, summary: ParseSummary)
    ensures events == ParsedEvents(host, lines)
    ensures summary == BuildParseSummary(|lines|, |events|, DropCounts(host, lines))
    ensures summary.totalLines == |lines| && summary.parsedLines == |events|
    ensures 0 <= summary.droppedLines <= |lines|
    ensures SumCounts(summary.droppedReasons) == summary.droppedLines
  {
    events := [];
    var counts: map<Reason, nat> := map[];
    var i := 0;
    while i < |lines|
      invariant 0 <= i <= |lines|
      invariant events == ParsedEvents(host, lines[..i])
      invariant counts == DropCounts(host, lines[..i])
    {
      var outcome := ParseLine(host, lines[i]);
      EventsStep(host, lines, i);
      CountsStep(host, lines, i);
      if outcome.Parsed? {
        events := events + [outcome.event];
      }
      counts := Bump(counts, outcome);
      i := i + 1;
    }
    assert lines[..i] == lines;
    ParsedEventsBound(host, lines);
    DroppedReasonsAddUp(host, lines);
    summary := BuildParseSummary(|lines|, |events|, counts);
  }
}

=== FILE: text.dfy ===
/** Character classes and string helpers shared by every part of the toolkit:
    Python's `str.strip`, `lower`, `upper`, substring search, `str(int)` and
    `", ".join`, restricted to ASCII. */
module Text {

  /** The ASCII characters for which Python's `str.isspace()` holds; the regular
      expression class `\s` matches the same set. */
  predicate IsSpace(c: char) {
    c == ' ' || c == '\t' || c == '\n' || c == '\r' || c == '\U{000B}' || c == '\U{000C}'
    || c == '\U{001C}' || c == '\U{001D}' || c == '\U{001E}' || c == '\U{001F}'
  }

  predicate IsDigit(c: char) { '0' <= c <= '9' }

  predicate IsUpper(c: char) { 'A' <= c <= 'Z' }

  predicate IsLower(c: char) { 'a' <= c <= 'z' }

  predicate AllSpace(s: string) {
    forall i :: 0 <= i < |s| ==> IsSpace(s[i])
  }

  predicate StartsWith(s: string, prefix: string) {
    |prefix| <= |s| && s[..|prefix|] == prefix
  }

  /** Python's `s.lstrip()`: the suffix left after dropping leading whitespace. */
  function LStrip(s: string): (r: string)
    ensures |r| <= |s| && r == s[|s| - |r|..]
    ensures r == [] || !IsSpace(r[0])
    ensures forall i :: 0 <= i < |s| - |r| ==> IsSpace(s[i])
  {
    if |s| > 0 && IsSpace(s[0]) then LStrip(s[1..]) else s
  }

  /** Python's `s.rstrip()`: the prefix left after dropping trailing whitespace. */
  function RStrip(s: string): (r: string)
    ensures |r| <= |s| && r == s[..|r|]
    ensures r == [] || !IsSpace(r[|r| - 1])
    ensures forall i :: |r| <= i < |s| ==> IsSpace(s[i])
  {
    if |s| > 0 && IsSpace(s[|s| - 1]) then RStrip(s[..|s| - 1]) else s
  }

  /** Python's `s.strip()`. */
  function Strip(s: string): (r: string)
    ensures r == [] || (!IsSpace(r[0]) && !IsSpace(r[|r| - 1]))
    ensures r == [] <==> AllSpace(s)
    ensures |r| <= |s|
  {
    var l := LStrip(s);
    var r := RStrip(l);
    if r == [] then
      assert l == [];
      r
    else
      assert r[0] == l[0];
      assert l != [] && !IsSpace(s[|s| - |l|]);
      r
  }

  lemma {:induction false} LStripSpacePrefix(a: string, x: string)
    requires AllSpace(a)
    ensures LStrip(a + x) == LStrip(x)
    decreases |a|
  {
    if a != [] {
      assert (a + x)[0] == a[0] && IsSpace(a[0]);
      assert (a + x)[1..] == a[1..] + x;
      LStripSpacePrefix(a[1..], x);
    } else {
      assert a + x == x;
    }
  }

  lemma {:induction false} RStripSpaceSuffix(x: string, b: string)
    requires AllSpace(b)
    ensures RStrip(x + b) == RStrip(x)
    decreases |b|
  {
    if b != [] {
      assert (x + b)[|x + b| - 1] == b[|b| - 1] && IsSpace(b[|b| - 1]);
      assert (x + b)[..|x + b| - 1] == x + b[..|b| - 1];
      RStripSpaceSuffix(x, b[..|b| - 1]);
    } else {
      assert x + b == x;
    }
  }

  lemma {:induction false} LStripAppend(s: string, b: string)
    ensures LStrip(s + b) == if AllSpace(s) then LStrip(b) else LStrip(s) + b
    decreases |s|
  {
    if s == [] {
      assert s + b == b;
    } else {
      assert (s + b)[0] == s[0];
      assert (s + b)[1..] == s[1..] + b;
      LStripAppend(s[1..], b);
      if IsSpace(s[0]) {
        assert AllSpace(s) <==> AllSpace(s[1..]) by {
          if AllSpace(s[1..]) {
            forall i | 0 <= i < |s| ensures IsSpace(s[i]) {
              if i > 0 { assert s[i] == s[1..][i - 1]; }
            }
          }
        }
      }
    }
  }

  /** A string that neither starts nor ends with whitespace is its own `strip()`. */
  lemma StripUnpadded(s: string)
    requires s == [] || (!IsSpace(s[0]) && !IsSpace(s[|s| - 1]))
    ensures Strip(s) == s
  {
  }

  /** Whitespace around a value never changes what `strip()` leaves of it. */
  lemma StripPadded(a: string, s: string, b: string)
    requires AllSpace(a) && AllSpace(b)
    ensures Strip(a + s + b) == Strip(s)
  {
    assert a + s + b == a + (s + b);
    LStripSpacePrefix(a, s + b);
    LStripAppend(s, b);
    if AllSpace(s) {
      assert LStrip(s) == [];
      assert LStrip(b) == [];
    } else {
      RStripSpaceSuffix(LStrip(s), b);
    }
  }

  /** `strip()` is idempotent. */
  lemma StripIdempotent(s: string)
    ensures Strip(Strip(s)) == Strip(s)
  {
    if Strip(s) != [] {
      StripUnpadded(Strip(s));
    }
  }

  function LowerChar(c: char): char {
    if IsUpper(c) then (c as int + 32) as char else c
  }

  function UpperChar(c: char): char {
    if IsLower(c) then (c as int - 32) as char else c
  }

  /** Python's `s.lower()` on ASCII letters. */
  function Lower(s: string): (r: string)
    ensures |r| == |s|
    ensures forall i :: 0 <= i < |s| ==> r[i] == LowerChar(s[i]) && !IsUpper(r[i])
  {
    seq(|s|, i requires 0 <= i < |s| => LowerChar(s[i]))
  }

  /** Python's `s.upper()` on ASCII letters. */
  function Upper(s: string): (r: string)
    ensures |r| == |s|
    ensures forall i :: 0 <= i < |s| ==> r[i] == UpperChar(s[i]) && !IsLower(r[i])
  {
    seq(|s|, i requires 0 <= i < |s| => UpperChar(s[i]))
  }

  /** Case folding forgets the original case. */
  lemma LowerForgetsCase(s: string)
    ensures Lower(Upper(s)) == Lower(s) && Lower(Lower(s)) == Lower(s)
    ensures Upper(Lower(s)) == Upper(s) && Upper(Upper(s)) == Upper(s)
  {
  }

  lemma LowerAppend(a: string, b: string)
    ensures Lower(a + b) == Lower(a) + Lower(b)
  {
  }

  /** Case folding keeps whitespace in place. */
  lemma LowerKeepsSpace(s: string)
    ensures forall i :: 0 <= i < |s| ==> (IsSpace(Lower(s)[i]) <==> IsSpace(s[i]))
  {
  }

  /** End of the maximal run of characters satisfying `p` that starts at `i`
      (a greedy `[...]*` in a regular expression). */
  function RunEnd(s: string, i: nat, p: char -> bool): (j: nat)
    requires i <= |s|
    ensures i <= j <= |s|
    ensures forall k :: i <= k < j ==> p(s[k])
    ensures j == |s| || !p(s[j])
    decreases |s| - i
  {
    if i < |s| && p(s[i]) then RunEnd(s, i + 1, p) else i
  }

  /** No run of `p` characters starting at `i` extends past `RunEnd`. */
  lemma {:induction false} RunEndMaximal(s: string, i: nat, p: char -> bool, j: nat)
    requires i <= j <= |s|
    requires forall k :: i <= k < j ==> p(s[k])
    ensures j <= RunEnd(s, i, p)
    decreases j - i
  {
    if i < j {
      RunEndMaximal(s, i + 1, p, j);
    }
  }

  /** A slice is its first element followed by the rest. */
  lemma SliceCons<T>(s: seq<T>, i: nat, p: nat)
    requires i < p <= |s|
    ensures s[i..p] == [s[i]] + s[i + 1..p]
  {
  }

  lemma AppendAssoc<T>(a: seq<T>, b: seq<T>, c: seq<T>)
    ensures (a + b) + c == a + (b + c)
  {
  }

  /** `needle` occurs in `hay` starting at index `i`. */
  predicate InfixAt(hay: string, needle: string, i: int) {
    0 <= i <= |hay| - |needle| && hay[i..i + |needle|] == needle
  }

  /** Python's `needle in hay` on strings, as a specification. */
  ghost predicate Contains(hay: string, needle: string) {
    exists i :: InfixAt(hay, needle, i)
  }

  /** A left-to-right search for `needle`, agreeing with `Contains`. */
  function HasInfix(hay: string, needle: string): (b: bool)
    ensures b <==> Contains(hay, needle)
    decreases |hay|
  {
    if |hay| < |needle| then false
    else if hay[..|needle|] == needle then
      assert InfixAt(hay, needle, 0);
      true
    else
      var rest := HasInfix(hay[1..], needle);
      if rest then
        var i :| InfixAt(hay[1..], needle, i);
        InfixShift(hay, needle, i);
        true
      else
        assert !Contains(hay, needle) by {
          forall i | InfixAt(hay, needle, i) ensures false {
            assert i != 0;
            InfixShift(hay, needle, i - 1);
          }
        }
        false
  }

  /** Dropping the first character moves every occurrence one to the left. */
  lemma InfixShift(hay: string, needle: string, i: nat)
    requires hay != []
    ensures InfixAt(hay, needle, i + 1) <==> InfixAt(hay[1..], needle, i)
  {
    if i + 1 + |needle| <= |hay| {
      assert hay[i + 1..i + 1 + |needle|] == hay[1..][i..i + |needle|];
    }
  }

  function DigitChar(d: int): char
    requires 0 <= d < 10
  {
    ('0' as int + d) as char
  }

  function DigitValue(c: char): int
    requires IsDigit(c)
  {
    c as int - '0' as int
  }

  predicate AllDigits(s: string) {
    forall i :: 0 <= i < |s| ==> IsDigit(s[i])
  }

  /** The number a string of decimal digits denotes (Python's `int(s)`). */
  function DecimalValue(s: string): nat
    requires AllDigits(s)
  {
    if s == [] then 0 else DecimalValue(s[..|s| - 1]) * 10 + DigitValue(s[|s| - 1])
  }

  /** Python's `str(n)` for a non-negative integer. */
  function NatToString(n: nat): (r: string)
    ensures r != []
    ensures AllDigits(r)
    ensures DecimalValue(r) == n
    ensures r[0] == '0' ==> n == 0
  {
    if n < 10 then [DigitChar(n)]
    else
      var r := NatToString(n / 10) + [DigitChar(n % 10)];
      assert r[..|r| - 1] == NatToString(n / 10);
      r
  }

  /** Python's `sep.join(parts)`. */
  function Join(parts: seq<string>, sep: string): string {
    if parts == [] then []
    else if |parts| == 1 then parts[0]
    else parts[0] + sep + Join(parts[1..], sep)
  }
}

=== FILE: timeline.dfy ===
/** `build_timeline` of triage_toolkit/timeline.py: the Markdown incident
    timeline, its notable-error groups and its suspected components. */
module Timeline {
  import opened Text
  import opened Timestamps
  import opened Events
  import opened Ordering
  import opened Signatures

  /** The sort key of an event: the instant its timestamp denotes. Python
      compares aware datetimes this way, whatever their offsets. */
  function EventKey(e: LogEvent): int {
    Instant(e.timestamp)
  }

  function Signature(e: LogEvent): string {
    Normalize(e.message)
  }

  function ComponentOf(e: LogEvent): string {
    e.component
  }

  /** `sorted(events, key=lambda event: event.timestamp)`. */
  function Chronological(events: seq<LogEvent>): (r: seq<LogEvent>)
    ensures |r| == |events| && multiset(r) == multiset(events)
    ensures forall i, j :: 0 <= i < j < |r| ==> EventKey(r[i]) <= EventKey(r[j])
  {
    SortBy(events, EventKey)
  }

  /** Events with the same instant keep their input order. */
  lemma ChronologicalIsStable(events: seq<LogEvent>, instant: int)
    ensures FilterKey(Chronological(events), EventKey, instant) == FilterKey(events, EventKey, instant)
  {
    SortByIsStable(events, EventKey, instant);
  }

  /** T0 is no later than any event. */
  lemma T0Earliest(events: seq<LogEvent>, e: LogEvent)
    requires e in events
    ensures EventKey(Chronological(events)[0]) <= EventKey(e)
  {
    var r := Chronological(events);
    assert e in multiset(r);
    var i :| 0 <= i < |r| && r[i] == e;
  }

  /** `[event for event in ordered if is_error(event)]`. */
  function ErrorsOf(ordered: seq<LogEvent>): (r: seq<LogEvent>)
    ensures forall i :: 0 <= i < |r| ==> IsError(r[i])
    ensures forall e :: e in ordered && IsError(e) ==> e in r
    ensures forall e :: e in r ==> e in ordered
    ensures forall e :: multiset(r)[e] == if IsError(e) then multiset(ordered)[e] else 0
  {
    var r := FilterKey(ordered, IsError, true);
    forall e ensures multiset(r)[e] == if IsError(e) then multiset(ordered)[e] else 0 {
      FilterKeyCounts(ordered, IsError, true, e);
    }
    assert forall e :: e in ordered && IsError(e) ==> e in r by {
      forall e | e in ordered && IsError(e) ensures e in r {
        var i :| 0 <= i < |ordered| && ordered[i] == e;
        FilterKeyNonEmpty(ordered, IsError, i);
      }
    }
    r
  }

  /** Filtering works piecewise and keeps one event exactly when it is an
      error; together these fix the order of the result as the input's. */
  lemma ErrorsOfPiecewise(a: seq<LogEvent>, b: seq<LogEvent>, e: LogEvent)
    ensures ErrorsOf(a + b) == ErrorsOf(a) + ErrorsOf(b)
    ensures ErrorsOf([e]) == if IsError(e) then [e] else []
  {
    FilterKeyAppend(a, b, IsError, true);
    assert [e][1..] == [];
  }

  // ---------------------------------------------------------------------------
  // Notable errors

  /** One line of the "Notable Errors" section before it is rendered. */
  datatype ErrorGroup = ErrorGroup(signature: string, count: nat, first: Stamp, last: Stamp)

  /** `items[i]` is what `min(items, key=timestamp)` returns: earliest, and
      the first of the earliest. */
  predicate EarliestAt(items: seq<LogEvent>, i: nat) {
    && i < |items|
    && (forall j :: 0 <= j < |items| ==> EventKey(items[i]) <= EventKey(items[j]))
    && (forall j :: 0 <= j < i ==> EventKey(items[j]) > EventKey(items[i]))
  }

  /** `items[i]` is what `max(items, key=timestamp)` returns. */
  predicate LatestAt(items: seq<LogEvent>, i: nat) {
    && i < |items|
    && (forall j :: 0 <= j < |items| ==> EventKey(items[j]) <= EventKey(items[i]))
    && (forall j :: 0 <= j < i ==> EventKey(items[j]) < EventKey(items[i]))
  }

  /** A group's count, first-seen and last-seen timestamps. */
  function Summarize(b: Bucket<string, LogEvent>): (g: ErrorGroup)
    requires b.items != []
    ensures g.signature == b.key && g.count == |b.items|
    ensures Instant(g.first) <= Instant(g.last)
  {
    var lo := MinIndex(b.items, EventKey);
    var hi := MaxIndex(b.items, EventKey);
    ErrorGroup(b.key, |b.items|, b.items[lo].timestamp, b.items[hi].timestamp)
  }

  /** First seen is the timestamp `min` picks and last seen the one `max`
      picks: the earliest and the latest event of the group, the first of
      each when several share the instant. */
  lemma GroupTimes(b: Bucket<string, LogEvent>)
    requires b.items != []
    ensures exists i: nat :: EarliestAt(b.items, i) && b.items[i].timestamp == Summarize(b).first
    ensures exists i: nat :: LatestAt(b.items, i) && b.items[i].timestamp == Summarize(b).last
  {
    assert EarliestAt(b.items, MinIndex(b.items, EventKey));
    assert LatestAt(b.items, MaxIndex(b.items, EventKey));
  }

  /** `grouped` sorted by size, largest first, ties in first-seen order. */
  function SignatureRanking(errors: seq<LogEvent>): seq<Bucket<string, LogEvent>> {
    Rank(GroupBy(errors, Signature))
  }

  /** One summary per bucket, in order. */
  function Summaries(ranked: seq<Bucket<string, LogEvent>>): (gs: seq<ErrorGroup>)
    requires forall i :: 0 <= i < |ranked| ==> ranked[i].items != []
    ensures |gs| == |ranked|
    ensures forall i :: 0 <= i < |gs| ==> gs[i].signature == ranked[i].key && gs[i].count == |ranked[i].items|
  {
    seq(|ranked|, i requires 0 <= i < |ranked| => Summarize(ranked[i]))
  }

  /** The error groups, one per ranked signature. */
  function ErrorGroups(errors: seq<LogEvent>): (gs: seq<ErrorGroup>)
    ensures |gs| == |SignatureRanking(errors)|
    ensures forall i :: 0 <= i < |gs| ==>
              gs[i].signature == SignatureRanking(errors)[i].key && gs[i].count == |SignatureRanking(errors)[i].items|
  {
    var ranked := SignatureRanking(errors);
    assert forall i :: 0 <= i < |ranked| ==> ranked[i].items != [] by {
      forall i | 0 <= i < |ranked| ensures ranked[i].items != [] {
        RankedNonEmptyAt(errors, Signature, i);
      }
    }
    Summaries(ranked)
  }

  function CountSum(gs: seq<ErrorGroup>): nat {
    if gs == [] then 0 else gs[0].count + CountSum(gs[1..])
  }

  lemma {:induction false} CountSumTotal(gs: seq<ErrorGroup>, bs: seq<Bucket<string, LogEvent>>)
    requires |gs| == |bs|
    requires forall i :: 0 <= i < |gs| ==> gs[i].count == |bs[i].items|
    ensures CountSum(gs) == TotalItems(bs)
    decreases |gs|
  {
    if gs != [] {
      CountSumTotal(gs[1..], bs[1..]);
    }
  }

  /** A notable-error group counts exactly the errors with its signature. */
  lemma ErrorGroupCounts(errors: seq<LogEvent>, i: nat)
    requires i < |ErrorGroups(errors)|
    ensures ErrorGroups(errors)[i].count == |FilterKey(errors, Signature, ErrorGroups(errors)[i].signature)|
    ensures ErrorGroups(errors)[i].count >= 1
  {
    RankedItemsAt(errors, Signature, i);
  }

  /** Groups are listed largest first, and no signature is listed twice. */
  lemma ErrorGroupsRanked(errors: seq<LogEvent>, i: nat, j: nat)
    requires i < j < |ErrorGroups(errors)|
    ensures ErrorGroups(errors)[i].count >= ErrorGroups(errors)[j].count
    ensures ErrorGroups(errors)[i].signature != ErrorGroups(errors)[j].signature
  {
    RankedKeysDifferAt(errors, Signature, i, j);
  }

  /** Between them the groups account for every error. */
  lemma ErrorGroupsTotal(errors: seq<LogEvent>)
    ensures CountSum(ErrorGroups(errors)) == |errors|
  {
    RankedTotal(errors, Signature);
    CountSumTotal(ErrorGroups(errors), SignatureRanking(errors));
  }

  /** Every error event is counted under its own signature. */
  lemma ErrorGroupsCover(errors: seq<LogEvent>, n: nat)
    requires n < |errors|
    ensures exists i :: 0 <= i < |ErrorGroups(errors)| && ErrorGroups(errors)[i].signature == Normalize(errors[n].message)
  {
    RankedCovers(errors, Signature, n);
    var i :| 0 <= i < |SignatureRanking(errors)| && SignatureRanking(errors)[i].key == Signature(errors[n]);
    assert ErrorGroups(errors)[i].signature == Signature(errors[n]);
  }

  /** `- {signature} (count: n, first: iso, last: iso)`. */
  function GroupLine(g: ErrorGroup): string {
    "- " + g.signature + " (count: " + NatToString(g.count) + ", first: " + IsoFormat(g.first)
    + ", last: " + IsoFormat(g.last) + ")"
  }

  /** A group line is never the "none detected" placeholder. */
  lemma GroupLineNotPlaceholder(g: ErrorGroup)
    ensures GroupLine(g) != "- None detected in parsed input."
  {
    var x := "- " + g.signature + " (count: " + NatToString(g.count) + ", first: " + IsoFormat(g.first)
             + ", last: " + IsoFormat(g.last);
    assert GroupLine(g) == x + ")";
    assert (x + ")")[|x|] == ')';
  }

  /** One line per group, in order. */
  function GroupLines(gs: seq<ErrorGroup>): (r: seq<string>)
    ensures |r| == |gs| && forall i :: 0 <= i < |r| ==> r[i] == GroupLine(gs[i])
  {
    seq(|gs|, i requires 0 <= i < |gs| => GroupLine(gs[i]))
  }

  /** The "Notable Errors" section: the placeholder exactly when there are
      no errors, otherwise one line per group, in ranked order. */
  function ErrorLines(errors: seq<LogEvent>): (r: seq<string>)
    ensures errors == [] <==> r == ["- None detected in parsed input."]
    ensures errors != [] ==> |r| == |ErrorGroups(errors)|
    ensures errors != [] ==> forall i :: 0 <= i < |r| ==> r[i] == GroupLine(ErrorGroups(errors)[i])
  {
    if errors == [] then ["- None detected in parsed input."]
    else
      RankedSomeWhenAny(errors, Signature);
      var gs := ErrorGroups(errors);
      GroupLineNotPlaceholder(gs[0]);
      GroupLines(gs)
  }

  // ---------------------------------------------------------------------------
  // Suspected components

  const SuspectLimit: nat := 5

  /** One line of the "Suspected Components" section before it is rendered. */
  datatype Suspect = Suspect(component: string, errors: nat)

  /** The `Counter` of error components, most common first. */
  function ComponentRanking(errors: seq<LogEvent>): seq<Bucket<string, LogEvent>> {
    Rank(GroupBy(errors, ComponentOf))
  }

  /** `Counter(event.component for event in errors).most_common(5)`. */
  function Suspects(errors: seq<LogEvent>): (r: seq<Suspect>)
    ensures |r| <= SuspectLimit && |r| <= |ComponentRanking(errors)|
    ensures |r| == |Top(GroupBy(errors, ComponentOf), SuspectLimit)|
    ensures forall i :: 0 <= i < |r| ==>
              r[i].component == ComponentRanking(errors)[i].key && r[i].errors == |ComponentRanking(errors)[i].items|
  {
    var top := Top(GroupBy(errors, ComponentOf), SuspectLimit);
    seq(|top|, i requires 0 <= i < |top| => Suspect(top[i].key, |top[i].items|))
  }

  /** A suspect's count is exactly the number of errors in its component. */
  lemma SuspectCounts(errors: seq<LogEvent>, i: nat)
    requires i < |Suspects(errors)|
    ensures Suspects(errors)[i].errors == |FilterKey(errors, ComponentOf, Suspects(errors)[i].component)|
    ensures Suspects(errors)[i].errors >= 1
  {
    RankedItemsAt(errors, ComponentOf, i);
  }

  /** Suspects are listed most errors first, and no component twice. */
  lemma SuspectsRanked(errors: seq<LogEvent>, i: nat, j: nat)
    requires i < j < |Suspects(errors)|
    ensures Suspects(errors)[i].errors >= Suspects(errors)[j].errors
    ensures Suspects(errors)[i].component != Suspects(errors)[j].component
  {
    RankedKeysDifferAt(errors, ComponentOf, i, j);
  }

  /** A component of some error that is not listed has no more errors than
      any listed one; so fewer than five are listed only when there are no
      others. */
  lemma SuspectsDominate(errors: seq<LogEvent>, n: nat)
    requires n < |errors|
    requires forall i :: 0 <= i < |Suspects(errors)| ==> Suspects(errors)[i].component != errors[n].component
    ensures |Suspects(errors)| == SuspectLimit
    ensures forall i :: 0 <= i < |Suspects(errors)| ==>
              Suspects(errors)[i].errors >= |FilterKey(errors, ComponentOf, errors[n].component)|
  {
    var bs := GroupBy(errors, ComponentOf);
    var ranked := ComponentRanking(errors);
    RankedItems(errors, ComponentOf);
    RankedCovers(errors, ComponentOf, n);
    var j :| 0 <= j < |ranked| && ranked[j].key == errors[n].component;
    var r := Suspects(errors);
    assert j >= |r|;
    forall i | 0 <= i < |r| ensures r[i].errors >= |FilterKey(errors, ComponentOf, errors[n].component)| {
      TopDominates(bs, SuspectLimit, i, j);
    }
  }

  /** `- {component} (errors: n)`. */
  function SuspectLine(s: Suspect): string {
    "- " + s.component + " (errors: " + NatToString(s.errors) + ")"
  }

  /** A suspect line is never the "no components" placeholder. */
  lemma SuspectLineNotPlaceholder(c: Suspect)
    ensures SuspectLine(c) != "- No components inferred."
  {
    var x := "- " + c.component + " (errors: " + NatToString(c.errors);
    assert SuspectLine(c) == x + ")";
    assert (x + ")")[|x|] == ')';
  }

  /** The "Suspected Components" section: the placeholder exactly when there
      are no errors, otherwise one line per suspect. */
  function SuspectLines(errors: seq<LogEvent>): (r: seq<string>)
    ensures errors == [] <==> r == ["- No components inferred."]
    ensures errors != [] ==> |r| == |Suspects(errors)|
    ensures errors != [] ==> forall i :: 0 <= i < |r| ==> r[i] == SuspectLine(Suspects(errors)[i])
  {
    if errors == [] then ["- No components inferred."]
    else
      var s := Suspects(errors);
      RankedSomeWhenAny(errors, ComponentOf);
      var r := seq(|s|, i requires 0 <= i < |s| => SuspectLine(s[i]));
      assert r[0] != "- No components inferred." by {
        SuspectLineNotPlaceholder(s[0]);
      }
      r
  }

  // ---------------------------------------------------------------------------
  // The document

  /** The table cell of a message: newlines flattened, pipes escaped. */
  function MessageCell(message: string): (cell: string)
    ensures forall k :: 0 <= k < |cell| ==> cell[k] != '\n'
    ensures forall k :: 0 <= k < |cell| && cell[k] == '|' ==> k > 0 && cell[k - 1] == '\\'
  {
    Escape(FlattenLines(message))
  }

  /** A message cell reads back as the message with its newlines flattened. */
  lemma MessageCellReadsBack(message: string)
    ensures Unescape(MessageCell(message)) == FlattenLines(message)
  {
    EscapeRoundTrip(FlattenLines(message));
  }

  /** `| time | level | component | message |`. */
  function EventRow(e: LogEvent): string {
    "| " + IsoFormat(e.timestamp) + " | " + e.level + " | " + e.component + " | " + MessageCell(e.message) + " |"
  }

  function Header(t0: Stamp): seq<string> {
    ["# Incident Timeline", "", "T0: `" + IsoFormat(t0) + "`", "", "## Events", "",
     "| Time (UTC) | Level | Component | Message |", "| --- | --- | --- | --- |"]
  }

  /** A report that opens with an events table is not the placeholder report. */
  lemma HeaderIsNotPlaceholder(h: seq<string>, rs: seq<string>, es: seq<string>, ss: seq<string>)
    requires |h| == 8 && h[6] == "| Time (UTC) | Level | Component | Message |"
    ensures h + rs + es + ss != EmptyTimeline
  {
    assert (h + rs + es + ss)[6][0] == '|';
    assert EmptyTimeline[6][0] == '_';
  }

  const EmptyTimeline: seq<string> :=
    ["# Incident Timeline", "", "T0: `n/a`", "", "## Events", "", "_No events parsed._", "",
     "## Notable Errors", "", "- None detected in parsed input.", "",
     "## Suspected Components", "", "- No components inferred."]

  /** One table row per event, in the order given. */
  function Rows(ordered: seq<LogEvent>): (r: seq<string>)
    ensures |r| == |ordered| && forall i :: 0 <= i < |r| ==> r[i] == EventRow(ordered[i])
  {
    seq(|ordered|, i requires 0 <= i < |ordered| => EventRow(ordered[i]))
  }

  function ErrorSection(errors: seq<LogEvent>): seq<string> {
    ["", "## Notable Errors"] + ErrorLines(errors)
  }

  function SuspectSection(errors: seq<LogEvent>): seq<string> {
    ["", "## Suspected Components"] + SuspectLines(errors)
  }

  /** The lines of the timeline, before they are joined: the placeholder
      report exactly when there are no events. */
  function TimelineLines(events: seq<LogEvent>): (lines: seq<string>)
    ensures lines == EmptyTimeline <==> events == []
  {
    if events == [] then EmptyTimeline
    else
      var ordered := Chronological(events);
      var errors := ErrorsOf(ordered);
      var h := Header(ordered[0].timestamp);
      var rs := Rows(ordered);
      var es := ErrorSection(errors);
      var ss := SuspectSection(errors);
      HeaderIsNotPlaceholder(h, rs, es, ss);
      h + rs + es + ss
  }

  /** Where each part of a non-empty timeline sits: the header with T0, one
      row per event in chronological order, then the two sections. */
  lemma TimelineLayout(events: seq<LogEvent>)
    requires events != []
    ensures var lines := TimelineLines(events);
            var ordered := Chronological(events);
            var n := |events|;
            var errors := ErrorsOf(ordered);
            var m := |ErrorSection(errors)|;
            && |lines| == 8 + n + m + |SuspectSection(errors)|
            && lines[..8] == Header(ordered[0].timestamp)
            && lines[8..8 + n] == Rows(ordered)
            && lines[8 + n..8 + n + m] == ErrorSection(errors)
            && lines[8 + n + m..] == SuspectSection(errors)
  {
    var ordered := Chronological(events);
    var errors := ErrorsOf(ordered);
    var h := Header(ordered[0].timestamp);
    var rs := Rows(ordered);
    var es := ErrorSection(errors);
    var ss := SuspectSection(errors);
    assert TimelineLines(events) == h + rs + es + ss;
    ConcatParts(h, rs, es, ss);
  }

  lemma ConcatParts<T>(a: seq<T>, b: seq<T>, c: seq<T>, d: seq<T>)
    ensures var s := a + b + c + d;
            && s[..|a|] == a && s[|a|..|a| + |b|] == b
            && s[|a| + |b|..|a| + |b| + |c|] == c && s[|a| + |b| + |c|..] == d
  {
  }

  /** The rows run from T0 forward: each row's instant is no earlier than the
      one before. */
  lemma RowsChronological(events: seq<LogEvent>, i: nat, j: nat)
    requires i < j < |events|
    ensures TimelineLines(events)[8 + i] == EventRow(Chronological(events)[i])
    ensures TimelineLines(events)[8 + j] == EventRow(Chronological(events)[j])
    ensures EventKey(Chronological(events)[i]) <= EventKey(Chronological(events)[j])
  {
    RowAt(events, i);
    RowAt(events, j);
  }

  /** Line `8 + i` of a non-empty timeline is the row of the `i`-th event in
      chronological order. */
  lemma RowAt(events: seq<LogEvent>, i: nat)
    requires i < |events|
    ensures |Chronological(events)| == |events|
    ensures 8 + i < |TimelineLines(events)|
    ensures TimelineLines(events)[8 + i] == EventRow(Chronological(events)[i])
  {
    var ordered := Chronological(events);
    var errors := ErrorsOf(ordered);
    var h := Header(ordered[0].timestamp);
    var rs := Rows(ordered);
    var es := ErrorSection(errors);
    var ss := SuspectSection(errors);
    assert TimelineLines(events) == h + rs + es + ss;
    IndexInSecond(h, rs, es, ss, i);
  }

  lemma IndexInSecond<T>(a: seq<T>, b: seq<T>, c: seq<T>, d: seq<T>, i: nat)
    requires i < |b|
    ensures |a| + i < |a + b + c + d| && (a + b + c + d)[|a| + i] == b[i]
  {
  }

  /** `build_timeline(events)`: the lines joined by newlines, with a final
      newline. */
  function BuildTimeline(events: seq<LogEvent>): (doc: string)
    ensures doc != [] && doc[|doc| - 1] == '\n'
  {
    Join(TimelineLines(events), "\n") + "\n"
  }

  /** When no event is an error both sections show their placeholders. */
  lemma NoErrorsPlaceholders(events: seq<LogEvent>)
    requires events != []
    requires forall i :: 0 <= i < |events| ==> !IsError(events[i])
    ensures ErrorSection(ErrorsOf(Chronological(events))) == ["", "## Notable Errors", "- None detected in parsed input."]
    ensures SuspectSection(ErrorsOf(Chronological(events))) == ["", "## Suspected Components", "- No components inferred."]
  {
    var ordered := Chronological(events);
    forall e | e in ordered ensures !IsError(e) {
      assert e in multiset(events);
    }
    NothingToKeep(ordered);
  }

  /** Without errors there is nothing to keep. */
  lemma NothingToKeep(ordered: seq<LogEvent>)
    requires forall e :: e in ordered ==> !IsError(e)
    ensures ErrorsOf(ordered) == []
  {
    var r := ErrorsOf(ordered);
    forall e ensures multiset(r)[e] == 0 {
      if IsError(e) {
        assert e !in ordered;
      }
    }
    assert multiset(r) == multiset{};
  }
}

=== FILE: timestamps.dfy ===
/** `parse_timestamp` of triage_toolkit/utils.py and the ISO-8601 rendering of
    its result.  The grammar accepted is
      YYYY-MM-DD(T| )HH:MM:SS[.f+][Z|(+|-)HH:MM]
    with real calendar validation.  A result keeps the wall-clock fields as
    written and the UTC offset in minutes; `Instant` is the point in time they
    denote, which is what Python compares when it orders aware datetimes. */
module Timestamps {
  import opened Wrappers
  import opened Text

  /** An offset-aware datetime: wall-clock fields plus minutes east of UTC. */
  datatype DateTime = DateTime(
    year: int, month: int, day: int,
    hour: int, minute: int, second: int, micro: int,
    offset: int)

  /** How the text ends after the seconds (and fraction). */
  datatype Zone = Naive | Zulu | Fixed(minutes: int)

  /** What Python can construct: a `datetime` with every field in range. */
  type Stamp = t: DateTime | Valid(t) witness DateTime(1970, 1, 1, 0, 0, 0, 0, 0)

  predicate IsLeapYear(y: int) {
    y % 4 == 0 && (y % 100 != 0 || y % 400 == 0)
  }

  function DaysInMonth(y: int, m: int): (n: int)
    requires 1 <= m <= 12
    ensures 28 <= n <= 31
  {
    if m == 2 then (if IsLeapYear(y) then 29 else 28)
    else if m == 4 || m == 6 || m == 9 || m == 11 then 30
    else 31
  }

  /** The ranges Python's `datetime` constructor enforces. */
  predicate ValidWallClock(t: DateTime) {
    && 1 <= t.year <= 9999
    && 1 <= t.month <= 12
    && 1 <= t.day <= DaysInMonth(t.year, t.month)
    && 0 <= t.hour < 24
    && 0 <= t.minute < 60
    && 0 <= t.second < 60
    && 0 <= t.micro < 1000000
  }

  /** Python's `timezone` accepts offsets strictly inside one day. */
  predicate ValidOffset(minutes: int) {
    -1440 < minutes < 1440
  }

  /** Every field fits the digits the grammar gives it, in range or not. */
  predicate Writable(t: DateTime) {
    && 0 <= t.year < 10000
    && 0 <= t.month < 100 && 0 <= t.day < 100
    && 0 <= t.hour < 100 && 0 <= t.minute < 100 && 0 <= t.second < 100
    && 0 <= t.micro < 1000000
  }

  predicate Valid(t: DateTime) {
    ValidWallClock(t) && ValidOffset(t.offset)
  }

  function ZoneOffset(z: Zone): int {
    match z
    case Fixed(m) => m
    case _ => 0
  }

  predicate ValidZone(z: Zone) {
    ValidOffset(ZoneOffset(z))
  }

  // ---------------------------------------------------------------------------
  // Instants

  function DaysBeforeYear(y: int): int {
    var p := y - 1;
    p * 365 + p / 4 - p / 100 + p / 400
  }

  function DaysBeforeMonth(y: int, m: int): int
    requires 1 <= m <= 12
    decreases m
  {
    if m == 1 then 0 else DaysBeforeMonth(y, m - 1) + DaysInMonth(y, m - 1)
  }

  /** Proleptic Gregorian day number, 0001-01-01 being day 1 (Python's `toordinal`). */
  function Ordinal(t: DateTime): int
    requires 1 <= t.month <= 12
  {
    DaysBeforeYear(t.year) + DaysBeforeMonth(t.year, t.month) + t.day
  }

  /** Microseconds of the wall-clock reading, read as if it were UTC. */
  function WallMicros(t: DateTime): int
    requires 1 <= t.month <= 12
  {
    ((((Ordinal(t) * 24 + t.hour) * 60 + t.minute) * 60 + t.second) * 1000000) + t.micro
  }

  /** The point in time `t` denotes, in microseconds: wall clock minus offset. */
  function Instant(t: DateTime): int
    requires 1 <= t.month <= 12
  {
    WallMicros(t) - t.offset * 60000000
  }

  // ---------------------------------------------------------------------------
  // Scanning

  function Pow10(n: nat): (p: nat)
    ensures p >= 1
  {
    if n == 0 then 1 else 10 * Pow10(n - 1)
  }

  /** The fixed `YYYY-MM-DD?HH:MM:SS` head, with `T` or a space between date and time. */
  predicate HasHead(s: string) {
    && |s| >= 19
    && AllDigits(s[0..4]) && s[4] == '-'
    && AllDigits(s[5..7]) && s[7] == '-'
    && AllDigits(s[8..10])
    && (s[10] == 'T' || s[10] == ' ')
    && AllDigits(s[11..13]) && s[13] == ':'
    && AllDigits(s[14..16]) && s[16] == ':'
    && AllDigits(s[17..19])
  }

  /** The optional fraction after the head: microseconds and where it ends.
      Python pads a short fraction on the right, so `.5` is 500000 µs, and
      since 3.11 `fromisoformat` reads any number of digits, keeping the
      first six. */
  function ScanFraction(s: string): (r: Option<(int, nat)>)
    requires |s| >= 19
    ensures r.Some? ==> 19 <= r.value.1 <= |s| && 0 <= r.value.0 < 1000000
  {
    if |s| == 19 || s[19] != '.' then Some((0, 19))
    else
      var j := RunEnd(s, 20, IsDigit);
      if j > 20 then Some((FractionMicros(s[20..j]), j)) else None
  }

  /** The microseconds a run of fraction digits denotes: its first six
      digits, padded on the right. */
  function FractionMicros(d: string): (r: int)
    requires 1 <= |d| && AllDigits(d)
    ensures 0 <= r < 1000000
    ensures |d| <= 6 ==> r == DecimalValue(d) * Pow10(6 - |d|)
    ensures |d| > 6 ==> r == DecimalValue(d[..6])
  {
    var f := if |d| <= 6 then d else d[..6];
    assert AllDigits(f);
    FractionScaled(f);
    DecimalValue(f) * Pow10(6 - |f|)
  }

  /** A fraction of one to six digits, padded on the right to six digits, is
      below one second. */
  lemma FractionScaled(d: string)
    requires 1 <= |d| <= 6 && AllDigits(d)
    ensures DecimalValue(d) * Pow10(6 - |d|) < 1000000
  {
    FractionBound(d);
    ScaleBound(DecimalValue(d), |d|);
  }

  lemma {:induction false} FractionBound(d: string)
    requires AllDigits(d)
    ensures DecimalValue(d) < Pow10(|d|)
    decreases |d|
  {
    if d != [] {
      var p := d[..|d| - 1];
      assert AllDigits(p);
      FractionBound(p);
    }
  }

  lemma {:induction false} Pow10Add(a: nat, b: nat)
    ensures Pow10(a) * Pow10(b) == Pow10(a + b)
    decreases a
  {
    if a > 0 {
      Pow10Add(a - 1, b);
    }
  }

  lemma ScaleBound(x: nat, n: nat)
    requires n <= 6 && x < Pow10(n)
    ensures x * Pow10(6 - n) < 1000000
  {
    Pow10Add(n, 6 - n);
    assert Pow10(6) == 1000000;
    assert x * Pow10(6 - n) <= (Pow10(n) - 1) * Pow10(6 - n);
  }

  /** What follows the seconds: nothing, `Z`, or a `+HH:MM` / `-HH:MM` offset. */
  function ScanZone(tail: string): Option<Zone> {
    if tail == [] then Some(Naive)
    else if tail == "Z" then Some(Zulu)
    else if && |tail| == 6
            && (tail[0] == '+' || tail[0] == '-')
            && AllDigits(tail[1..3]) && tail[3] == ':' && AllDigits(tail[4..6])
    then
      var m := DecimalValue(tail[1..3]) * 60 + DecimalValue(tail[4..6]);
      Some(Fixed(if tail[0] == '-' then -m else m))
    else None
  }

  /** The fields written in `s`, before any range check. */
  function ScanTimestamp(s: string): (r: Option<(DateTime, Zone)>)
    ensures r.Some? ==> HasHead(s) && r.value.0.offset == ZoneOffset(r.value.1)
  {
    if !HasHead(s) then None
    else
      match ScanFraction(s)
      case None => None
      case Some((micro, k)) =>
        match ScanZone(s[k..])
        case None => None
        case Some(zone) =>
          Some((DateTime(DecimalValue(s[0..4]), DecimalValue(s[5..7]), DecimalValue(s[8..10]),
                         DecimalValue(s[11..13]), DecimalValue(s[14..16]), DecimalValue(s[17..19]),
                         micro, ZoneOffset(zone)), zone))
  }

  /** `parse_timestamp`: strip, reject blank input, then read the text.  The
      source tries three strategies in turn: a `Z` suffix rewritten to `+00:00`
      for `fromisoformat`; the naive `strptime` formats, which get UTC
      attached with the wall clock unchanged; and a plain `fromisoformat`,
      which keeps an explicit offset.  On this grammar the three agree with
      the match below, and every one of them fails on out-of-range fields. */
  function ParseTimestamp(value: string): (r: Option<DateTime>)
    ensures r.Some? ==> Valid(r.value)
    ensures AllSpace(value) ==> r.None?
    ensures r.Some? ==>
              var s := Strip(value);
              && HasHead(s)
              && r.value.year == DecimalValue(s[0..4])
              && r.value.month == DecimalValue(s[5..7])
              && r.value.day == DecimalValue(s[8..10])
              && r.value.hour == DecimalValue(s[11..13])
              && r.value.minute == DecimalValue(s[14..16])
              && r.value.second == DecimalValue(s[17..19])
  {
    var s := Strip(value);
    if s == [] then None
    else
      match ScanTimestamp(s)
      case None => None
      case Some((t, _)) => if Valid(t) then Some(t) else None
  }

  // ---------------------------------------------------------------------------
  // Rendering

  /** `n` in exactly `width` decimal digits, zero-padded on the left. */
  function Pad(n: nat, width: nat): (r: string)
    requires n < Pow10(width)
    ensures |r| == width && AllDigits(r) && DecimalValue(r) == n
  {
    if width == 0 then []
    else
      var r := Pad(n / 10, width - 1) + [DigitChar(n % 10)];
      assert r[..|r| - 1] == Pad(n / 10, width - 1);
      r
  }

  function FractionText(micro: int): string
    requires 0 <= micro < 1000000
  {
    if micro == 0 then [] else "." + Pad(micro, 6)
  }

  function ZoneText(z: Zone): string
    requires ValidZone(z)
  {
    match z
    case Naive => []
    case Zulu => "Z"
    case Fixed(m) =>
      var a := if m < 0 then -m else m;
      (if m < 0 then "-" else "+") + Pad(a / 60, 2) + ":" + Pad(a % 60, 2)
  }

  /** The wall clock of `t` written in the grammar, with separator `sep` and
      the given zone suffix. */
  function Render(t: DateTime, sep: char, z: Zone): string
    requires Writable(t) && ValidZone(z)
  {
    HeadText(t, sep) + FractionText(t.micro) + ZoneText(z)
  }

  /** `YYYY-MM-DD?HH:MM:SS` of the wall clock of `t`. */
  function HeadText(t: DateTime, sep: char): string
    requires Writable(t)
  {
    Pad(t.year, 4) + "-" + Pad(t.month, 2) + "-" + Pad(t.day, 2) + [sep]
    + Pad(t.hour, 2) + ":" + Pad(t.minute, 2) + ":" + Pad(t.second, 2)
  }

  /** `datetime.isoformat()` of an aware datetime: `T` separator, six-digit
      fraction only when non-zero, and always an explicit `+HH:MM` offset. */
  function IsoFormat(t: Stamp): string
  {
    Render(t, 'T', Fixed(t.offset))
  }

  // ---------------------------------------------------------------------------
  // Properties

  lemma ZoneRoundTrip(z: Zone)
    requires ValidZone(z)
    ensures ScanZone(ZoneText(z)) == Some(z)
  {
    match z
    case Naive =>
    case Zulu =>
    case Fixed(m) => FixedRoundTrip(m);
  }

  /** A fixed offset is written with its sign, hours and minutes and read
      back to the same number of minutes. */
  lemma FixedRoundTrip(m: int)
    requires ValidOffset(m)
    ensures ScanZone(ZoneText(Fixed(m))) == Some(Fixed(m))
  {
    var a := if m < 0 then -m else m;
    var sign := if m < 0 then '-' else '+';
    MinutesSplit(a);
    var hh, mm := Pad(a / 60, 2), Pad(a % 60, 2);
    assert ZoneText(Fixed(m)) == [sign] + hh + ":" + mm;
    OffsetReadsBack(sign, hh, mm);
    assert DecimalValue(hh) * 60 + DecimalValue(mm) == a;
  }

  /** Hours and minutes of an offset below one day each fit two digits and
      read back to the offset. */
  lemma MinutesSplit(a: int)
    requires 0 <= a < 1440
    ensures a / 60 < Pow10(2) && a % 60 < Pow10(2)
    ensures DecimalValue(Pad(a / 60, 2)) * 60 + DecimalValue(Pad(a % 60, 2)) == a
  {
    assert Pow10(2) == 100;
  }

  /** A sign, two digits, a colon and two digits: the zone scanner reads the
      signed minutes they denote. */
  lemma OffsetReadsBack(sign: char, hh: string, mm: string)
    requires sign == '+' || sign == '-'
    requires |hh| == 2 && |mm| == 2 && AllDigits(hh) && AllDigits(mm)
    ensures var m := DecimalValue(hh) * 60 + DecimalValue(mm);
            ScanZone([sign] + hh + ":" + mm) == Some(Fixed(if sign == '-' then -m else m))
  {
    OffsetPieces(sign, hh, mm);
    OffsetScanned([sign] + hh + ":" + mm, sign, hh, mm);
  }

  /** Where the sign, the hours and the minutes sit in an offset's text. */
  lemma OffsetPieces(sign: char, hh: string, mm: string)
    requires |hh| == 2 && |mm| == 2
    ensures var text := [sign] + hh + ":" + mm;
            && |text| == 6 && text[0] == sign && text[3] == ':'
            && text[1..3] == hh && text[4..6] == mm
  {
    var a := [sign] + hh + ":";
    var text := a + mm;
    assert |a| == 4 && a[0] == sign && a[1..3] == hh && a[3] == ':';
    assert text[..4] == a;
    assert text[4..] == mm;
  }

  /** The third branch of the zone scanner, on its own. */
  lemma OffsetScanned(text: string, sign: char, hh: string, mm: string)
    requires |text| == 6 && text[0] == sign && text[3] == ':' && text[1..3] == hh && text[4..6] == mm
    requires (sign == '+' || sign == '-') && AllDigits(hh) && AllDigits(mm)
    ensures var m := DecimalValue(hh) * 60 + DecimalValue(mm);
            ScanZone(text) == Some(Fixed(if sign == '-' then -m else m))
  {
    assert text != "Z" by {
      assert |text| != |"Z"|;
    }
  }

  lemma HeadReadsBack(t: DateTime, sep: char, rest: string)
    requires Writable(t) && (sep == 'T' || sep == ' ')
    ensures var s := HeadText(t, sep) + rest;
            && |HeadText(t, sep)| == 19
            && HasHead(s)
            && DecimalValue(s[0..4]) == t.year
            && DecimalValue(s[5..7]) == t.month
            && DecimalValue(s[8..10]) == t.day
            && DecimalValue(s[11..13]) == t.hour
            && DecimalValue(s[14..16]) == t.minute
            && DecimalValue(s[17..19]) == t.second
  {
    HeadPieces(t, sep, rest);
    HeadScanned(HeadText(t, sep) + rest, sep, Pad(t.year, 4), Pad(t.month, 2), Pad(t.day, 2),
                Pad(t.hour, 2), Pad(t.minute, 2), Pad(t.second, 2));
  }

  /** Where each field of the wall clock sits in the rendered head. */
  lemma HeadPieces(t: DateTime, sep: char, rest: string)
    requires Writable(t)
    ensures var s := HeadText(t, sep) + rest;
            && |HeadText(t, sep)| == 19 && |s| >= 19
            && s[0..4] == Pad(t.year, 4) && s[5..7] == Pad(t.month, 2) && s[8..10] == Pad(t.day, 2)
            && s[11..13] == Pad(t.hour, 2) && s[14..16] == Pad(t.minute, 2) && s[17..19] == Pad(t.second, 2)
            && s[4] == '-' && s[7] == '-' && s[10] == sep && s[13] == ':' && s[16] == ':'
  {
    var s := HeadText(t, sep) + rest;
    assert s[0..4] == Pad(t.year, 4);
    assert s[5..7] == Pad(t.month, 2);
    assert s[8..10] == Pad(t.day, 2);
    assert s[11..13] == Pad(t.hour, 2);
    assert s[14..16] == Pad(t.minute, 2);
    assert s[17..19] == Pad(t.second, 2);
  }

  /** Digit fields in the places the head grammar expects them: the scanner
      accepts the head and reads their values. */
  lemma HeadScanned(s: string, sep: char, y: string, mo: string, d: string, h: string, mi: string, se: string)
    requires |s| >= 19 && (sep == 'T' || sep == ' ')
    requires s[0..4] == y && s[5..7] == mo && s[8..10] == d && s[11..13] == h && s[14..16] == mi && s[17..19] == se
    requires s[4] == '-' && s[7] == '-' && s[10] == sep && s[13] == ':' && s[16] == ':'
    requires AllDigits(y) && AllDigits(mo) && AllDigits(d) && AllDigits(h) && AllDigits(mi) && AllDigits(se)
    ensures HasHead(s)
    ensures && DecimalValue(s[0..4]) == DecimalValue(y) && DecimalValue(s[5..7]) == DecimalValue(mo)
            && DecimalValue(s[8..10]) == DecimalValue(d) && DecimalValue(s[11..13]) == DecimalValue(h)
            && DecimalValue(s[14..16]) == DecimalValue(mi) && DecimalValue(s[17..19]) == DecimalValue(se)
  {
  }

  lemma FractionReadsBack(head: string, micro: int, zt: string)
    requires |head| == 19 && 0 <= micro < 1000000
    requires zt == [] || (zt[0] != '.' && !IsDigit(zt[0]))
    ensures ScanFraction(head + FractionText(micro) + zt) == Some((micro, 19 + |FractionText(micro)|))
  {
    if micro == 0 {
      var s := head + zt;
      assert head + FractionText(micro) + zt == s;
      assert |s| == 19 || s[19] == zt[0];
    } else {
      var p := Pad(micro, 6);
      DigitsRead(head, p, zt);
      AppendAssoc(head, ".", p);
    }
  }

  lemma RenderScans(t: DateTime, sep: char, z: Zone)
    requires Writable(t) && ValidZone(z)
    requires sep == 'T' || sep == ' '
    ensures ScanTimestamp(Render(t, sep, z)) == Some((t.(offset := ZoneOffset(z)), z))
  {
    var frac := FractionText(t.micro);
    var zt := ZoneText(z);
    var head := HeadText(t, sep);
    var s := Render(t, sep, z);
    ThreePieces(head, frac, zt);
    HeadReadsBack(t, sep, frac + zt);
    FractionReadsBack(head, t.micro, zt);
    ZoneRoundTrip(z);
    ScanParts(s, t.micro, 19 + |frac|, z);
  }

  lemma ThreePieces<T>(a: seq<T>, b: seq<T>, c: seq<T>)
    ensures a + b + c == a + (b + c)
    ensures (a + b + c)[|a| + |b|..] == c
  {
  }

  /** `ScanTimestamp` from the outcomes of its fraction and zone scans. */
  lemma ScanParts(s: string, micro: int, k: nat, zone: Zone)
    requires HasHead(s) && ScanFraction(s) == Some((micro, k)) && k <= |s| && ScanZone(s[k..]) == Some(zone)
    ensures ScanTimestamp(s) == Some((DateTime(DecimalValue(s[0..4]), DecimalValue(s[5..7]), DecimalValue(s[8..10]),
                                               DecimalValue(s[11..13]), DecimalValue(s[14..16]), DecimalValue(s[17..19]),
                                               micro, ZoneOffset(zone)), zone))
  {
  }

  /** Rendered text neither starts nor ends with whitespace. */
  lemma RenderEnds(t: DateTime, sep: char, z: Zone)
    requires Writable(t) && ValidZone(z)
    requires sep == 'T' || sep == ' '
    ensures var s := Render(t, sep, z); s != [] && !IsSpace(s[0]) && !IsSpace(s[|s| - 1])
  {
    var head := HeadText(t, sep);
    var frac := FractionText(t.micro);
    var zt := ZoneText(z);
    HeadTextEnds(t, sep);
    FractionTextEnds(t.micro);
    ZoneTextEnds(z);
    LastOfThree(head, frac, zt);
  }

  lemma HeadTextEnds(t: DateTime, sep: char)
    requires Writable(t) && (sep == 'T' || sep == ' ')
    ensures var h := HeadText(t, sep); |h| == 19 && IsDigit(h[0]) && IsDigit(h[18])
  {
    var h := HeadText(t, sep);
    HeadReadsBack(t, sep, []);
    assert h + [] == h;
    assert h[0] == h[0..4][0] && h[18] == h[17..19][1];
  }

  lemma FractionTextEnds(micro: int)
    requires 0 <= micro < 1000000
    ensures var f := FractionText(micro); f == [] || IsDigit(f[|f| - 1])
  {
    if micro != 0 {
      var p := Pad(micro, 6);
      assert FractionText(micro)[|FractionText(micro)| - 1] == p[5];
    }
  }

  lemma ZoneTextEnds(z: Zone)
    requires ValidZone(z)
    ensures var zt := ZoneText(z); zt == [] || zt[|zt| - 1] == 'Z' || IsDigit(zt[|zt| - 1])
  {
    if z.Fixed? {
      var m := z.minutes;
      var a := if m < 0 then -m else m;
      var p := Pad(a % 60, 2);
      assert ZoneText(z)[|ZoneText(z)| - 1] == p[1];
    }
  }

  /** The first and last elements of a three-part concatenation. */
  lemma LastOfThree<T>(a: seq<T>, b: seq<T>, c: seq<T>)
    requires a != []
    ensures var s := a + b + c;
            && s[0] == a[0]
            && s[|s| - 1] == (if c != [] then c[|c| - 1] else if b != [] then b[|b| - 1] else a[|a| - 1])
  {
  }

  /** Whatever `Render` writes is read back as the same wall clock, with the
      offset the suffix names (zero for `Z` and for no suffix), when its
      fields are in range; when one is not, the text is rejected. */
  lemma RenderParses(t: DateTime, sep: char, z: Zone)
    requires Writable(t) && ValidZone(z)
    requires sep == 'T' || sep == ' '
    ensures ParseTimestamp(Render(t, sep, z)) == if ValidWallClock(t) then Some(t.(offset := ZoneOffset(z))) else None
  {
    var s := Render(t, sep, z);
    var u := t.(offset := ZoneOffset(z));
    RenderEnds(t, sep, z);
    RenderScans(t, sep, z);
    ParseScanned(s, u, z);
    ZoneKeepsValidity(t, z);
  }

  lemma ZoneKeepsValidity(t: DateTime, z: Zone)
    requires ValidZone(z)
    ensures Valid(t.(offset := ZoneOffset(z))) <==> ValidWallClock(t)
  {
  }

  /** Unpadded text is accepted exactly when the fields it holds are in range. */
  lemma ParseScanned(s: string, u: DateTime, z: Zone)
    requires s != [] && !IsSpace(s[0]) && !IsSpace(s[|s| - 1])
    requires ScanTimestamp(s) == Some((u, z))
    ensures ParseTimestamp(s) == if Valid(u) then Some(u) else None
  {
    StripUnpadded(s);
  }

  /** A fraction of any length parses: Python pads a short one on the right,
      so `.5` reads as 500000 microseconds, and keeps the first six digits of
      a longer one. */
  lemma FractionDigitsParse(t: DateTime, sep: char, d: string, z: Zone)
    requires Writable(t) && ValidZone(z) && (sep == 'T' || sep == ' ')
    requires 1 <= |d| && AllDigits(d) && t.micro == FractionMicros(d)
    ensures ParseTimestamp(HeadText(t, sep) + "." + d + ZoneText(z))
            == if ValidWallClock(t) then Some(t.(offset := ZoneOffset(z))) else None
  {
    var s := HeadText(t, sep) + "." + d + ZoneText(z);
    FractionDigitsScan(t, sep, d, z);
    FractionDigitsEnds(t, sep, d, z);
    ParseScanned(s, t.(offset := ZoneOffset(z)), z);
    ZoneKeepsValidity(t, z);
  }

  /** Digits past the sixth change nothing: `.123456789` reads as
      `.123456`. */
  lemma LongFractionTruncated(t: DateTime, sep: char, d: string, z: Zone)
    requires Writable(t) && ValidZone(z) && (sep == 'T' || sep == ' ')
    requires |d| > 6 && AllDigits(d) && t.micro == DecimalValue(d[..6])
    ensures ParseTimestamp(HeadText(t, sep) + "." + d + ZoneText(z))
            == ParseTimestamp(HeadText(t, sep) + "." + d[..6] + ZoneText(z))
            == if ValidWallClock(t) then Some(t.(offset := ZoneOffset(z))) else None
  {
    assert AllDigits(d[..6]);
    FractionDigitsParse(t, sep, d, z);
    FractionDigitsParse(t, sep, d[..6], z);
  }

  lemma FractionDigitsScan(t: DateTime, sep: char, d: string, z: Zone)
    requires Writable(t) && ValidZone(z) && (sep == 'T' || sep == ' ')
    requires 1 <= |d| && AllDigits(d) && t.micro == FractionMicros(d)
    ensures ScanTimestamp(HeadText(t, sep) + "." + d + ZoneText(z)) == Some((t.(offset := ZoneOffset(z)), z))
  {
    var head := HeadText(t, sep);
    var zt := ZoneText(z);
    var s := head + "." + d + zt;
    var k := 20 + |d|;
    var rest := "." + d + zt;
    HeadTextEnds(t, sep);
    ZoneTextStart(z);
    DigitsRead(head, d, zt);
    assert s == head + rest by {
      AppendAssoc(head + ".", d, zt);
      AppendAssoc(head, ".", d + zt);
      AppendAssoc(".", d, zt);
    }
    HeadReadsBack(t, sep, rest);
    ZoneRoundTrip(z);
    ThreePieces(head + ".", d, zt);
    ScanParts(s, t.micro, k, z);
  }

  lemma FractionDigitsEnds(t: DateTime, sep: char, d: string, z: Zone)
    requires Writable(t) && ValidZone(z) && (sep == 'T' || sep == ' ')
    requires 1 <= |d| && AllDigits(d)
    ensures var s := HeadText(t, sep) + "." + d + ZoneText(z);
            s != [] && !IsSpace(s[0]) && !IsSpace(s[|s| - 1])
  {
    var head := HeadText(t, sep);
    var zt := ZoneText(z);
    HeadTextEnds(t, sep);
    ZoneTextEnds(z);
    LastOfThree(head + ".", d, zt);
  }

  /** A zone suffix starts with neither a digit nor a dot. */
  lemma ZoneTextStart(z: Zone)
    requires ValidZone(z)
    ensures var zt := ZoneText(z); zt == [] || (zt[0] != '.' && !IsDigit(zt[0]))
  {
  }

  /** A dot and a run of digits after the head, then no digit: the fraction
      the digits denote. */
  lemma DigitsRead(head: string, d: string, zt: string)
    requires |head| == 19 && 1 <= |d| && AllDigits(d)
    requires zt == [] || !IsDigit(zt[0])
    ensures ScanFraction(head + "." + d + zt) == Some((FractionMicros(d), 20 + |d|))
  {
    var pre := head + ".";
    var s := pre + d + zt;
    var k := 20 + |d|;
    assert |s| >= k && s[19] == '.' by {
      assert s[19] == pre[19];
    }
    assert s[20..k] == d by {
      assert s[..k] == pre + d;
    }
    assert forall i :: 20 <= i < k ==> IsDigit(s[i]) by {
      forall i | 20 <= i < k
        ensures IsDigit(s[i])
      {
        assert s[i] == s[20..k][i - 20];
      }
    }
    RunEndMaximal(s, 20, IsDigit, k);
    assert RunEnd(s, 20, IsDigit) == k by {
      if k < |s| {
        ThreePieces(pre, d, zt);
        assert s[k] == zt[0];
      }
    }
  }

  /** `isoformat()` output parses back to the very same datetime. */
  lemma IsoFormatRoundTrip(t: Stamp)
    ensures ParseTimestamp(IsoFormat(t)) == Some(t)
  {
    RenderParses(t, 'T', Fixed(t.offset));
  }

  /** A `Z` suffix means offset zero, the wall clock unchanged. */
  lemma ZuluKeepsWallClock(t: DateTime, sep: char)
    requires ValidWallClock(t) && (sep == 'T' || sep == ' ')
    ensures ParseTimestamp(Render(t, sep, Zulu)) == Some(t.(offset := 0))
  {
    RenderParses(t, sep, Zulu);
  }

  /** A value without offset is taken as UTC, the wall clock unchanged. */
  lemma NaiveAssumedUtc(t: DateTime, sep: char)
    requires ValidWallClock(t) && (sep == 'T' || sep == ' ')
    ensures ParseTimestamp(Render(t, sep, Naive)) == Some(t.(offset := 0))
  {
    RenderParses(t, sep, Naive);
  }

  /** With an explicit offset the offset is kept and the instant is the wall
      clock minus the offset. */
  lemma OffsetShiftsInstant(t: DateTime, minutes: int)
    requires ValidWallClock(t) && ValidOffset(minutes)
    ensures var r := ParseTimestamp(Render(t, 'T', Fixed(minutes)));
            && r.Some?
            && r.value.offset == minutes
            && Instant(r.value) == WallMicros(t) - minutes * 60000000
  {
    RenderParses(t, 'T', Fixed(minutes));
  }

  /** Whitespace around a timestamp is ignored. */
  lemma PaddingIgnored(a: string, s: string, b: string)
    requires AllSpace(a) && AllSpace(b)
    ensures ParseTimestamp(a + s + b) == ParseTimestamp(s)
  {
    StripPadded(a, s, b);
  }

  /** Out-of-range calendar fields are rejected, not raised: a month outside
      1..12, say `2025-99-01`, whatever the rest. */
  lemma MonthOutOfRangeRejected(t: DateTime, sep: char, z: Zone)
    requires Writable(t) && ValidZone(z) && (sep == 'T' || sep == ' ')
    requires !(1 <= t.month <= 12)
    ensures ParseTimestamp(Render(t, sep, z)) == None
  {
    RenderParses(t, sep, z);
  }

  /** Text that does not start, once stripped, with the date and time head
      yields nothing. */
  lemma NonTimestampRejected(value: string)
    requires !HasHead(Strip(value))
    ensures ParseTimestamp(value) == None
  {
  }
}

=== FILE: wrappers.dfy ===
/** Option, the stand-in for Python's `X | None` results throughout the model. */
module Wrappers {

  datatype Option<+T> = None | Some(value: T) {

    /** The wrapped value, or `default` when there is none (Python's `x or default` on a None). */
    function GetOr(default: T): T {
      match this
      case Some(v) => v
      case None => default
    }
  }
}
